=== FILE: README.md ===
# Mini-games engine: a Dafny model

This project models the game logic of three browser mini-games.

- **Horse racing.** Players bet coins on a race between seven horses over one to three turns.
  - The model covers the odds table, the bet-key encoding and its two readers, the betting ledger inside the reducer, the payout engine, and the reducer's phase machine.
  - It covers the race simulator's tick and its ranking, and the screen guards that the reducer itself leaves out: the bet dialog's funds check, the remove button, the continue button hidden on the last turn, and the start screen's selectors.
  - A session module composes the screens with the reducer. It proves that, whatever the players do, nobody ever owes coins and the turn counter never passes the chosen number of turns.
- **Math puzzle.** Make a target from four digits.
  - The model covers the arithmetic helper, the permutations, the solution search and target choice, the clock display, the locked input helpers, and the answer check.
  - The answer check is modelled up to the JavaScript evaluation, which becomes a parameter. Its checks are: something typed, only allowed characters, exactly four numbers, and those numbers being the puzzle's.
  - The model also covers the marking of used number cards.
- **Lucky draw.** Numbers 1..n are drawn without replacement.
  - The model covers the setup screen, the draw (split into the button press and the end of the animation), and the counters.
  - It proves that pool and drawn numbers together always hold the range exactly once.

All values are immutable datatypes and every operation is a pure function. The exception is `CardMarks.UsedCardIndices`, which keeps the loops of the original as a method.

Randomness is always a parameter:
- dice values for the race;
- a real `u` in [0, 1) standing for `Math.random()` in the lucky draw and the puzzle generator.

Timers become explicit steps: a countdown beat, a race tick, the end of a draw animation, or the lucky draw's completion timeout.

Race progress is counted in hundredths of a track unit:
- base speed 38 per tick;
- boost 400;
- track 10000.

The original stores positions as JavaScript doubles, so the model's rankings can differ from the original's; see "## Left out".

Three facts about the code shape the horse-racing model:
- The reducer checks neither funds, the phase nor the current bettor. A `PLACE_BET` larger than the player's coins drives the balance negative (`Session.ReducerAloneOverdraws`).
- Non-negative balances come only from the bet dialog's check (`Session.DialogRefusesOverdraw`, `Session.GameNeverOverdraws`). The model keeps that guard outside the reducer, where the code has it.
- The reducer does not guard `NEXT_TURN`. The only guard is the settlement screen hiding its continue button on the last turn (`CollectPhase.OfferedChoices`).

## Model

| member | source | states |
|---|---|---|
| Odds.RosterFacts | src/pages/horseRacing/constants.js:16-24 | The seven horses have the distinct ids 1..7 in order; the colour groups are blue {1,2,3}, yellow {4,5}, red {6}, black {7} |
| Odds.BlueBet | src/pages/horseRacing/constants.js:38-47 | `colorBlue` is found by its key, pays x2, and its rule holds exactly when the winner is 1, 2 or 3 |
| Odds.YellowBet | src/pages/horseRacing/constants.js:48-56 | `colorYellow` pays x3 and holds exactly when the winner is 4 or 5 |
| Odds.RedBet | src/pages/horseRacing/constants.js:57-65 | `colorRed` pays x4 and holds exactly when the winner is 6 |
| Odds.BlackBet | src/pages/horseRacing/constants.js:66-75 | `colorBlack` pays x5 and holds exactly when horse 7's 0-based index in the ranking is at least 4 |
| Odds.ColourBetRules | src/pages/horseRacing/constants.js:38-76 | The four colour bets together, each with its multiplier and win rule |
| Odds.FindColourBet | src/pages/horseRacing/hooks/useGameState.js:35 | `COLOR_BETS.find` by key: found exactly when some colour bet has that key, and what is found has it |
| Odds.FoundAt | src/pages/horseRacing/hooks/useGameState.js:35 | Every colour bet is the one found under its own key (the keys are distinct) |
| Odds.ParameterFacts | src/pages/horseRacing/constants.js:98-116 | Dice every 20 ticks (2 s at 100 ms), five coins to start and per turn, two countdown labels |
| BetKeys.MakeBetKey | src/pages/horseRacing/constants.js:93-94 | A key without a horse is the type itself; with a horse it is strictly longer and starts with `type_` |
| BetKeys.MatchPrefix | src/pages/horseRacing/hooks/useGameState.js:43-45 | The first per-horse bet type whose `key_` prefix the key starts with, or none exactly when no type's prefix matches |
| BetKeys.Classify | src/pages/horseRacing/hooks/useGameState.js:35-54 | A key reads as a colour bet exactly when `find` finds it, otherwise as `type_suffix` for a matching type, otherwise as unknown exactly when neither applies |
| BetKeys.ClassifyColourKey | src/pages/horseRacing/hooks/useGameState.js:35-36 | Round trip: the key of a colour bet reads back as that colour bet |
| BetKeys.ClassifyHorseKey | src/pages/horseRacing/hooks/useGameState.js:43-46 | Round trip: `makeBetKey(type, h)` reads back as that type with suffix `h`, and `parseInt` of the suffix is `h` |
| BetKeys.MakeBetKeyInjective | src/pages/horseRacing/constants.js:92-94 | Distinct (type, horse) cells have distinct keys |
| Decimal.ParseInt | src/pages/horseRacing/components/BetDialog.jsx:36 | `parseInt(s, 10)` is NaN exactly when no digit follows the leading white space and optional sign |
| Decimal.ParseIntOfNatToString | src/pages/horseRacing/hooks/useGameState.js:46 | `parseInt` of a number's decimal text, even followed by a non-digit, gives the number back |
| Decimal.DigitsValueOfNatToString | src/pages/mathPuzzle/MathPuzzle.jsx:73 | Reading the decimal rendering of `n` gives `n` back |
| Text.Trim | src/pages/mathPuzzle/MathPuzzle.jsx:183 | `trim()` is empty exactly when the text is all white space; otherwise it runs from the first to the last non-space character |
| Text.IndexOf | src/pages/horseRacing/hooks/useGameState.js:47 | `indexOf` is -1 exactly when the value is absent, else the first position holding it |
| Ledger.Get | src/pages/horseRacing/hooks/useGameState.js:126 | `currentBets[key] \|\| 0`: 0 for an absent key |
| Ledger.Put | src/pages/horseRacing/hooks/useGameState.js:131 | `{...bets, [key]: amount}` adds the key to the key set, growing the list only for a new key |
| Ledger.Delete | src/pages/horseRacing/hooks/useGameState.js:143 | The rest pattern removes exactly the key and keeps only existing entries |
| Ledger.GetAfterPut | src/pages/horseRacing/hooks/useGameState.js:131 | After a put the key holds the new amount and every other key keeps its stake |
| Ledger.GetAfterDelete | src/pages/horseRacing/hooks/useGameState.js:143 | After a delete the key holds nothing and every other key keeps its stake |
| Ledger.PutKeepsDistinct | src/pages/horseRacing/hooks/useGameState.js:131 | A put never duplicates a key |
| Ledger.DeleteKeepsDistinct | src/pages/horseRacing/hooks/useGameState.js:143 | A delete never duplicates a key |
| Ledger.SumAfterPut | src/pages/horseRacing/hooks/useGameState.js:126-131 | Replacing a stake changes the total staked by exactly the new amount minus the old |
| Ledger.SumAfterDelete | src/pages/horseRacing/hooks/useGameState.js:142-144 | Deleting a stake lowers the total staked by exactly that stake |
| Ledger.DeleteAbsent | src/pages/horseRacing/hooks/useGameState.js:142-144 | Removing a key that is not there changes nothing |
| Ledger.PositiveSum | src/pages/horseRacing/components/PlayerBetsInfo.jsx:43 | With positive stakes only, every stake and the total are non-negative |
| Ledger.PutKeepsPositive | src/pages/horseRacing/hooks/useGameState.js:131 | Putting a positive amount keeps every stake positive |
| Ledger.DeleteKeepsPositive | src/pages/horseRacing/hooks/useGameState.js:143 | Deleting keeps every stake positive |
| Payout.Winnings | src/pages/horseRacing/hooks/useGameState.js:52 | A payout is never negative and is positive exactly for a winning bet with a positive multiplier |
| Payout.ComputePayout | src/pages/horseRacing/hooks/useGameState.js:31-57 | Zero for a non-positive amount and for an unknown key; never negative |
| Payout.HorseBetPayout | src/pages/horseRacing/hooks/useGameState.js:43-53 | For horse `h` at 0-based position p: show pays x2 iff 0 <= p <= 2, place x3 iff 0 <= p <= 1, win x5 iff p = 0, otherwise 0 (an absent horse loses) |
| Payout.ColourBetPayout | src/pages/horseRacing/hooks/useGameState.js:35-40 | A colour bet pays amount x multiplier exactly when its rule holds of the ranking, else 0 |
| Payout.BlueExample | src/pages/horseRacing/hooks/useGameState.js:35-39 | Three coins on blue with horse 2 winning pay 6 |
| Payout.RoundPayout | src/pages/horseRacing/hooks/useGameState.js:62-65 | The sum of the payouts of a player's entries, never negative; `RoundPayoutAnyOrder`, `RoundPayoutAfterPut` and `RoundPayoutAfterDelete` tie it to the ledger |
| Payout.RoundPayoutAppend | src/pages/horseRacing/hooks/useGameState.js:62-65 | The loop's total over two runs of entries is the sum of their totals |
| Payout.RoundPayoutAnyOrder | src/pages/horseRacing/hooks/useGameState.js:62-65 | The total does not depend on the order `Object.entries` lists the bets in: the same entries in any order pay the same |
| Payout.RoundPayoutAfterPut | src/pages/horseRacing/hooks/useGameState.js:62-65 | Re-staking a cell changes the total by exactly the change in that cell's payout |
| Payout.RoundPayoutAfterDelete | src/pages/horseRacing/hooks/useGameState.js:62-65 | Removing a cell's stake lowers the total by exactly that cell's payout |
| Payout.NoWinsNoPayout | src/pages/horseRacing/hooks/useGameState.js:62-65 | Bets that all pay nothing sum to nothing |
| Payout.SettlePlayer | src/pages/horseRacing/hooks/useGameState.js:66-71 | Settlement keeps id and name, credits `lastEarned` (non-negative) to the coins, and clears the bets |
| Payout.SettleRound | src/pages/horseRacing/hooks/useGameState.js:60-73 | Every player, in order and count, settled against the same ranking |
| GameState.InitialState | src/pages/horseRacing/hooks/useGameState.js:77-85 | Phase START, turn 1 of 3, no players, bettor 0, empty ranking and history |
| GameState.Configure | src/pages/horseRacing/hooks/useGameState.js:93-102 | `CONFIGURE_GAME`: one player per name with id i, five coins, no bets, nothing earned; `maxTurns` set; phase and everything else unchanged |
| GameState.EnterBetting | src/pages/horseRacing/hooks/useGameState.js:105-119 | `GO_TO_BET`: every player gets the turn income, bets and earnings cleared; phase BET, bettor 0, the rest unchanged |
| GameState.Stake | src/pages/horseRacing/hooks/useGameState.js:124-133 | One player's `PLACE_BET`: coins fall by amount minus the previous stake, the key holds the amount, other keys and fields unchanged |
| GameState.Unstake | src/pages/horseRacing/hooks/useGameState.js:140-145 | One player's `REMOVE_BET`: the stake (0 if none) is refunded and the key is gone, other keys and fields unchanged |
| GameState.PlaceBetOn | src/pages/horseRacing/hooks/useGameState.js:121-135 | `PLACE_BET` changes only the players with the given id, and only their stake |
| GameState.RemoveBetOn | src/pages/horseRacing/hooks/useGameState.js:137-147 | `REMOVE_BET` changes only the players with the given id, and only by the refund |
| GameState.AdvanceBettor | src/pages/horseRacing/hooks/useGameState.js:149-155 | `NEXT_BET_PLAYER`: to RACING when the bettor was the last, else the next bettor and nothing else |
| GameState.FinishRace | src/pages/horseRacing/hooks/useGameState.js:158-175 | `RACE_FINISHED`: phase COLLECT, ranking stored, players settled, exactly one snapshot appended for the current turn with the settled coins and earnings |
| GameState.SimpleActions | src/pages/horseRacing/hooks/useGameState.js:178-192 | `NEXT_TURN` increments the turn and clears the ranking; `GO_TO_RESULT` sets RESULT; `RESTART` is the initial state; unknown actions change nothing |
| GameState.Reduce | src/pages/horseRacing/hooks/useGameState.js:89-194 | Only GO_TO_BET (to BET), NEXT_BET_PLAYER (to RACING), RACE_FINISHED (to COLLECT), GO_TO_RESULT (to RESULT) and RESTART (to START) change the phase; only NEXT_TURN and RESTART change the turn; only RACE_FINISHED and RESTART change the history |
| GameState.LedgerConserves | src/pages/horseRacing/hooks/useGameState.js:121-147 | Placing and removing bets keep every player's coins plus total staked |
| Sorting.Sort | src/pages/horseRacing/hooks/useRaceEngine.js:36 | The sort returns a permutation of its input |
| Sorting.SortSorted | src/pages/horseRacing/hooks/useRaceEngine.js:36 | Under a total order the sort's result is ordered |
| Sorting.SortedPermutationIsSort | src/pages/horseRacing/hooks/useRaceEngine.js:36 | Any sorted permutation equals the sort's result, so the engine's choice of sort algorithm cannot matter |
| RaceEngine.RollDie | src/pages/horseRacing/hooks/useRaceEngine.js:32 | `floor(u * faces) + 1` lies in 1..faces |
| RaceEngine.RankOrderIsTotal | src/pages/horseRacing/hooks/useRaceEngine.js:36-39 | The comparator (further ahead first, lower id on ties) is a total order |
| RaceEngine.RankOrder | src/pages/horseRacing/hooks/useRaceEngine.js:36-39 | No contract of its own: the comparator; `RankOrderIsTotal` states it is a total order |
| RaceEngine.BuildRanking | src/pages/horseRacing/hooks/useRaceEngine.js:35-40 | The ranking lists every horse exactly once |
| RaceEngine.BuildRankingIsRanking | src/pages/horseRacing/hooks/useRaceEngine.js:35-40 | Each horse in the ranking is further ahead than every later one, or level with a higher id |
| RaceEngine.SortedIsRanking | src/pages/horseRacing/hooks/useRaceEngine.js:35-40 | Any ordering of the horses sorted by the comparator is a ranking in that sense |
| RaceEngine.RankingIsUnique | src/pages/horseRacing/hooks/useRaceEngine.js:35-40 | The ranking is the only ordering sorted by the comparator, so ties are never resolved at random. The tie-break describes exact ties of the hundredths model, which the original's doubles rarely produce |
| RaceEngine.LeaderIsAhead | src/pages/horseRacing/hooks/useRaceEngine.js:115-118 | The first-ranked horse is at least as far as every horse |
| RaceEngine.Advance | src/pages/horseRacing/hooks/useRaceEngine.js:99-101 | Every horse moves on by the base speed, capped at the track length |
| RaceEngine.Boost | src/pages/horseRacing/hooks/useRaceEngine.js:108-109 | The horse with the die's id moves on by the boost, capped; no other horse moves |
| RaceEngine.MoveProgress | src/pages/horseRacing/hooks/useRaceEngine.js:95-109 | After a tick each horse is at old progress plus base speed plus one boost per die showing it on a dice tick (two equal dice count twice), capped |
| RaceEngine.Move | src/pages/horseRacing/hooks/useRaceEngine.js:95-109 | Keeps one position per horse; `MoveProgress` and `MoveBounds` state each horse's new position |
| RaceEngine.Tick | src/pages/horseRacing/hooks/useRaceEngine.js:92-131 | A finished race ignores the tick; otherwise the tick count goes up, the positions move and the ranking is rebuilt |
| RaceEngine.MoveBounds | src/pages/horseRacing/hooks/useRaceEngine.js:99-109 | From a track position no horse moves back or past the end |
| RaceEngine.LeaderAtEnd | src/pages/horseRacing/hooks/useRaceEngine.js:117-118 | The leader is at the end exactly when some horse is |
| RaceEngine.TickStep | src/pages/horseRacing/hooks/useRaceEngine.js:92-131 | A tick keeps the simulator's invariant, is monotone and bounded, finishes exactly when a horse reaches the end, and reports the ranking (led by the winner) exactly then |
| RaceEngine.TickMonotone | src/pages/horseRacing/hooks/useRaceEngine.js:99-109 | No horse moves back or past the end in a tick |
| RaceEngine.TickFinishesAtEnd | src/pages/horseRacing/hooks/useRaceEngine.js:115-121 | The race finishes exactly when some horse has reached the end of the track |
| RaceEngine.TickReports | src/pages/horseRacing/hooks/useRaceEngine.js:118-125 | The final ranking is handed on exactly on the finishing tick, and the winner is its first horse |
| RaceEngine.FreshRace | src/pages/horseRacing/hooks/useRaceEngine.js:62-70 | The reset: every horse at 0, tick count 0, not finished |
| RaceEngine.StartRace | src/pages/horseRacing/hooks/useRaceEngine.js:60-75 | `startRace` resets the race, holds the horses and shows the first countdown label |
| RaceEngine.CountdownStep | src/pages/horseRacing/hooks/useRaceEngine.js:76-85 | A countdown beat never moves a horse |
| RaceEngine.EngineTick | src/pages/horseRacing/hooks/useRaceEngine.js:89-93 | Nothing moves before the horses are released |
| RaceEngine.CountdownSequence | src/pages/horseRacing/hooks/useRaceEngine.js:73-85 | The labels appear one per beat in order, and the horses are released on the beat after the last |
| RaceEngine.Run | src/pages/horseRacing/hooks/useRaceEngine.js:92-131 | Any number of ticks keeps the simulator's invariant |
| RaceEngine.TickGains | src/pages/horseRacing/hooks/useRaceEngine.js:99-101 | A tick that leaves the race running moves every horse by at least the base speed |
| RaceEngine.RunProgress | src/pages/horseRacing/hooks/useRaceEngine.js:99-101 | Over k running ticks every horse gains at least k times the base speed |
| RaceEngine.RaceEnds | src/pages/horseRacing/hooks/useRaceEngine.js:117-127 | Whatever the dice, the race finishes within 264 ticks |
| BetDialog.HandleConfirm | src/pages/horseRacing/components/BetDialog.jsx:33-40 | Refuses a blank, NaN or non-positive amount, and one above coins plus current stake; otherwise confirms exactly the parsed amount |
| BetDialog.Available | src/pages/horseRacing/components/BetDialog.jsx:33 | No contract of its own: coins plus the cell's current stake, the limit `HandleConfirm` states |
| BetDialog.ConfirmedStakeIsCovered | src/pages/horseRacing/components/BetDialog.jsx:33-39 | A confirmed stake by a player with no debt leaves the coins non-negative after paying the difference |
| BetDialog.InitialValue | src/pages/horseRacing/components/BetDialog.jsx:29-31 | The field opens blank (refused as is) on an empty cell, and on a staked cell with the stake, which is confirmable |
| BetDialog.RemoveOffered | src/pages/horseRacing/components/BetDialog.jsx:64-66 | No contract of its own: the remove button is shown exactly on a staked cell; the session offers a withdrawal only under it |
| BetsInfo.BetLabel | src/pages/horseRacing/components/PlayerBetsInfo.jsx:17-27 | An unknown key is shown as itself |
| BetsInfo.BetLabelOfMadeKey | src/pages/horseRacing/components/PlayerBetsInfo.jsx:17-25 | Round trip: a colour bet's key shows its label, and `makeBetKey(type, h)` shows `#h` and the type's label |
| BetsInfo.ListedEntries | src/pages/horseRacing/components/PlayerBetsInfo.jsx:43 | Exactly the entries with a positive amount, no more of them than there are entries |
| BetsInfo.ListedEntriesAppend | src/pages/horseRacing/components/PlayerBetsInfo.jsx:43 | The filter keeps order: the listing of two halves is the two listings one after the other |
| CollectPhase.OfferedChoices | src/pages/horseRacing/phases/CollectPhase.jsx:88-111 | The end button is always shown; continue is shown exactly when the turn is below the maximum |
| CollectPhase.IsLastTurn | src/pages/horseRacing/phases/CollectPhase.jsx:24 | No contract of its own: `currentTurn >= maxTurns`, the condition under which `OfferedChoices` hides continue |
| CollectPhase.Continue | src/pages/horseRacing/phases/CollectPhase.jsx:26-29 | `NEXT_TURN` then `GO_TO_BET`: next turn, phase BET, ranking cleared, turn income granted and bets cleared |
| CollectPhase.ContinueWithinTurns | src/pages/horseRacing/phases/CollectPhase.jsx:24-29 | Through the continue button the turn never exceeds the maximum |
| CollectPhase.EndGameFromAnyTurn | src/pages/horseRacing/phases/CollectPhase.jsx:100-111 | The end button is offered and leads to RESULT on every turn |
| StartPhase.PadNames | src/pages/horseRacing/phases/StartPhase.jsx:31 | Placeholder names `玩家{k+1}` are appended up to the count, and the old names are kept |
| StartPhase.DefaultName | src/pages/horseRacing/phases/StartPhase.jsx:31 | No contract of its own: the placeholder `玩家{i+1}` that `PadNames` appends |
| StartPhase.ResizeNames | src/pages/horseRacing/phases/StartPhase.jsx:27-34 | Exactly `count` names: old names below the count kept, new ones the placeholders |
| StartPhase.PlayerName | src/pages/horseRacing/phases/StartPhase.jsx:38 | The trimmed name, or the placeholder when that is empty; never empty and never padded |
| StartPhase.StartNames | src/pages/horseRacing/phases/StartPhase.jsx:37-39 | The first `numPlayers` names, each made a player name |
| StartPhase.StartGame | src/pages/horseRacing/phases/StartPhase.jsx:36-42 | `configureGame` then `goToBet`: exactly `numPlayers` players with ids 0.., ten coins each, phase BET |
| StartPhase.Choices | src/pages/horseRacing/phases/StartPhase.jsx:65 | A selector from lo to hi offers exactly lo, lo+1, …, hi |
| StartPhase.SelectorChoices | src/pages/horseRacing/phases/StartPhase.jsx:65-76 | The selectors offer 1 to 3 turns and 1 to 5 players |
| Session.RaceRanking | src/pages/horseRacing/hooks/useRaceEngine.js:115-125 | The ranking the simulator reports lists every horse once |
| Session.InitialInv | src/pages/horseRacing/hooks/useGameState.js:77-85 | The initial state satisfies the game invariant |
| Session.BeginKeepsInv | src/pages/horseRacing/phases/StartPhase.jsx:36-42 | The start button keeps the invariant and gives every player ten coins |
| Session.ConfirmKeepsInv | src/pages/horseRacing/components/BetDialog.jsx:35-40 | A bet confirmed through the dialog keeps every player solvent |
| Session.WithdrawKeepsInv | src/pages/horseRacing/components/BetDialog.jsx:64-66 | Withdrawing a bet keeps the invariant |
| Session.RaceOverKeepsInv | src/pages/horseRacing/hooks/useGameState.js:158-175 | Settlement keeps the invariant: a full ranking stored and one snapshot per completed turn |
| Session.FinishBettingKeepsInv | src/pages/horseRacing/hooks/useGameState.js:149-155 | The next-player button keeps the invariant |
| Session.NextRoundKeepsInv | src/pages/horseRacing/phases/CollectPhase.jsx:26-29 | Continuing keeps the invariant, the turn staying within the maximum |
| Session.EndAndRestartKeepInv | src/pages/horseRacing/hooks/useGameState.js:182-189 | Ending and restarting keep the invariant |
| Session.StepFollowsEdges | src/pages/horseRacing/HorseRacing.jsx:27-31 | Every command moves along START→BET→RACING→COLLECT→(BET or RESULT)→START only |
| Session.StepKeepsInv | src/pages/horseRacing/hooks/useGameState.js:89-194 | Every command a screen offers keeps the invariant |
| Session.PlayKeepsInv | src/pages/horseRacing/hooks/useGameState.js:89-194 | Any sequence of offered commands keeps the invariant |
| Session.GameNeverOverdraws | src/pages/horseRacing/components/BetDialog.jsx:33-39 | From the initial state, no sequence of offered commands ever leaves a player with negative coins or the turn past the maximum |
| Session.LastTurnOnlyEnds | src/pages/horseRacing/phases/CollectPhase.jsx:88-111 | On the last turn the settlement screen offers the end button and nothing else |
| Session.RaceAlwaysSettles | src/pages/horseRacing/hooks/useRaceEngine.js:117-125 | A race with enough dice always finishes and leads to the settlement phase |
| Session.ReducerAloneOverdraws | src/pages/horseRacing/hooks/useGameState.js:121-135 | The reducer by itself accepts a stake of 11 from a player holding 10, leaving -1 |
| Session.DialogRefusesOverdraw | src/pages/horseRacing/components/BetDialog.jsx:38 | The bet dialog does not offer that stake |
| PuzzleCalc.Calc | src/pages/mathPuzzle/MathPuzzle.jsx:12-19 | NaN exactly for an unknown operator or a division by zero |
| PuzzleCalc.Apply | src/pages/mathPuzzle/MathPuzzle.jsx:38-42 | NaN in either operand gives NaN; otherwise `calc` |
| PuzzleCalc.CalcInverses | src/pages/mathPuzzle/MathPuzzle.jsx:12-19 | Subtraction undoes addition, and division undoes multiplication by a non-zero number (and the other way round) |
| Arrangements.Without | src/pages/mathPuzzle/MathPuzzle.jsx:26 | Dropping one element leaves the rest, as a multiset |
| Arrangements.Prepend | src/pages/mathPuzzle/MathPuzzle.jsx:27 | Each permutation with the element put in front, in order |
| Arrangements.Permutations | src/pages/mathPuzzle/MathPuzzle.jsx:22-30 | n! sequences, each a rearrangement of the input |
| Arrangements.PermsFrom | src/pages/mathPuzzle/MathPuzzle.jsx:25-28 | The loop's results from `i` on: (n-i)·(n-1)! rearrangements |
| Arrangements.PermutationsComplete | src/pages/mathPuzzle/MathPuzzle.jsx:22-30 | Every rearrangement of the input is among the permutations |
| PuzzleSolutions.Target | src/pages/mathPuzzle/MathPuzzle.jsx:46-47 | A candidate has target k exactly when its value is the whole number k, with 1 <= k <= 100 |
| PuzzleSolutions.Candidates | src/pages/mathPuzzle/MathPuzzle.jsx:35-43 | 320 candidates per arrangement, each using the puzzle's numbers |
| PuzzleSolutions.CandidateAt | src/pages/mathPuzzle/MathPuzzle.jsx:35-43 | The candidate at each loop position is that arrangement, those three operators and that bracketing |
| PuzzleSolutions.Value | src/pages/mathPuzzle/MathPuzzle.jsx:37-43 | No contract of its own: the five bracketings evaluated with `Calc`; `Candidates`, `SumIsSolution` and `Fallback` state what it reaches |
| PuzzleSolutions.Record | src/pages/mathPuzzle/MathPuzzle.jsx:44-49 | A recorded key is never overwritten; a new key only appears for the candidate's own target, holding that candidate; a candidate reaching a target leaves it recorded |
| PuzzleSolutions.Collect | src/pages/mathPuzzle/MathPuzzle.jsx:44-49 | Each recorded expression was already recorded or is a candidate reaching its key |
| PuzzleSolutions.FirstIndex | src/pages/mathPuzzle/MathPuzzle.jsx:44-49 | The reference "first candidate reaching k": it reaches k and none before it does |
| PuzzleSolutions.FindSolutions | src/pages/mathPuzzle/MathPuzzle.jsx:32-54 | Every key is a target from 1 to 100, and its expression reaches it using the numbers |
| PuzzleSolutions.CollectKeepsFirst | src/pages/mathPuzzle/MathPuzzle.jsx:48 | The loop records a key exactly when some candidate reaches it, and keeps the first one found |
| PuzzleSolutions.FindSolutionsFirst | src/pages/mathPuzzle/MathPuzzle.jsx:32-54 | A target is a key exactly when a candidate reaches it, and its expression is the first such candidate |
| PuzzleSolutions.ReachedIsSolution | src/pages/mathPuzzle/MathPuzzle.jsx:44-49 | Any target some candidate reaches is a key |
| PuzzleSolutions.SumIsSolution | src/pages/mathPuzzle/MathPuzzle.jsx:32-54 | Four digits from 1 to 9 always reach their sum |
| PuzzleSolutions.KeysAscending | src/pages/mathPuzzle/MathPuzzle.jsx:60 | The keys in a range, each once, ascending |
| PuzzleSolutions.Preferred | src/pages/mathPuzzle/MathPuzzle.jsx:61 | Exactly the keys from 5 to 80 |
| PuzzleSolutions.TargetPool | src/pages/mathPuzzle/MathPuzzle.jsx:60-62 | Only keys; empty exactly when there are none; only preferred keys when one exists |
| PuzzleSolutions.AllKeysListed | src/pages/mathPuzzle/MathPuzzle.jsx:60 | The listed keys are empty exactly when there are no solutions |
| PuzzleSolutions.Attempt | src/pages/mathPuzzle/MathPuzzle.jsx:58-65 | Fails exactly when the numbers have no solution; otherwise a solvable puzzle on those numbers, its target a key with its first expression, preferred when one exists |
| PuzzleSolutions.Fallback | src/pages/mathPuzzle/MathPuzzle.jsx:67 | The fallback puzzle 2, 3, 5, 7 with target 17 and a shown solution that reaches it |
| PuzzleSolutions.FallbackAsWrittenMissesTarget | src/pages/mathPuzzle/MathPuzzle.jsx:67 | The fallback's shown solution as written evaluates to 14, not the target 17 |
| PuzzleSolutions.GeneratePuzzle | src/pages/mathPuzzle/MathPuzzle.jsx:56-68 | The puzzle is always solvable by its shown solution. It falls back to the corrected `Fallback`, not to line 67 as written; the two never matter, since the first attempt always succeeds (`FirstAttemptSucceeds`) |
| PuzzleSolutions.Outcomes | src/pages/mathPuzzle/MathPuzzle.jsx:57-64 | One outcome per attempt, each that attempt's |
| PuzzleSolutions.FirstFound | src/pages/mathPuzzle/MathPuzzle.jsx:57-67 | The first puzzle found, or the fallback, is solvable |
| PuzzleSolutions.FirstFoundTakesFirst | src/pages/mathPuzzle/MathPuzzle.jsx:57-65 | The first successful outcome is the one returned |
| PuzzleSolutions.GenerateTakesFirstFound | src/pages/mathPuzzle/MathPuzzle.jsx:56-66 | `generatePuzzle` returns the first attempt that finds a target |
| PuzzleSolutions.FirstAttemptSucceeds | src/pages/mathPuzzle/MathPuzzle.jsx:57-65 | Four digits from 1 to 9 always have a target, so the first attempt succeeds |
| PuzzleClock.Pad2 | src/pages/mathPuzzle/MathPuzzle.jsx:73 | The padded number is digits reading back as the number, two of them exactly when it is below 100, with a leading zero exactly when it is below 10 |
| PuzzleClock.FormatTime | src/pages/mathPuzzle/MathPuzzle.jsx:70-74 | Reading the clock text back as minutes:seconds gives the seconds; five characters exactly below 100 minutes; the minutes start with a zero exactly below 10 minutes, and the seconds exactly when they are below 10 |
| PuzzleClock.FormatTimeInjective | src/pages/mathPuzzle/MathPuzzle.jsx:70-74 | Different times are shown differently |
| PuzzleScreen.NewGame | src/pages/mathPuzzle/MathPuzzle.jsx:151-163 | A new puzzle unlocks the screen and empties expression and feedback; streak and best time stay |
| PuzzleScreen.InsertChar | src/pages/mathPuzzle/MathPuzzle.jsx:166-169 | Appends the text unless locked; nothing else changes |
| PuzzleScreen.Backspace | src/pages/mathPuzzle/MathPuzzle.jsx:170-173 | Drops the last character unless locked or empty; nothing else changes |
| PuzzleScreen.ClearInput | src/pages/mathPuzzle/MathPuzzle.jsx:174-178 | Empties expression and feedback unless locked; nothing else changes |
| PuzzleScreen.BackspaceUndoesInsert | src/pages/mathPuzzle/MathPuzzle.jsx:166-173 | Backspace takes back exactly the character a key inserted |
| PuzzleScreen.LockedIgnoresInput | src/pages/mathPuzzle/MathPuzzle.jsx:135-227 | On a solved or given-up screen, insert, backspace, clear, check and give up change nothing |
| PuzzleScreen.Normalize | src/pages/mathPuzzle/MathPuzzle.jsx:186-188 | Each `×`, `÷`, `−` replaced by its ASCII operator, nothing else changed |
| PuzzleScreen.TokensOfJoin | src/pages/mathPuzzle/MathPuzzle.jsx:194 | Round trip: the number tokens of numbers written with an operator between them are those numbers |
| PuzzleScreen.NumberTokens | src/pages/mathPuzzle/MathPuzzle.jsx:194 | At most one number per character; `TokensOfJoin` states the round trip with written-out numbers |
| PuzzleScreen.SameSorted | src/pages/mathPuzzle/MathPuzzle.jsx:198-200 | Comparing the sorted lists is comparing them as multisets |
| PuzzleScreen.PrecheckAccepts | src/pages/mathPuzzle/MathPuzzle.jsx:183-201 | The expression reaches evaluation exactly when it is non-blank, uses only allowed characters, and has four number tokens forming the puzzle's multiset; what is evaluated is the trimmed, normalised text |
| PuzzleScreen.Precheck | src/pages/mathPuzzle/MathPuzzle.jsx:183-201 | No contract of its own: `PrecheckAccepts` states when it accepts and what it hands on |
| PuzzleScreen.AcceptedUsesEachNumber | src/pages/mathPuzzle/MathPuzzle.jsx:194-201 | An accepted expression uses each of the four numbers exactly as often as the puzzle has it |
| PuzzleScreen.JoinedNumbersAccepted | src/pages/mathPuzzle/MathPuzzle.jsx:183-201 | The puzzle's numbers joined by one operator pass every check |
| PuzzleScreen.CheckAnswer | src/pages/mathPuzzle/MathPuzzle.jsx:181-223 | Solved exactly when already solved, or unlocked and the accepted expression evaluates within 1e-6 of the target; the streak grows and the best time takes the minimum on a new solve; otherwise an error |
| PuzzleScreen.Judge | src/pages/mathPuzzle/MathPuzzle.jsx:203-222 | After the checks: solved exactly on a hit, with the success message; an error otherwise |
| PuzzleScreen.Solve | src/pages/mathPuzzle/MathPuzzle.jsx:212-218 | Solving adds one to the streak and makes the best time the smaller of the old one and the elapsed time |
| PuzzleScreen.SolvedUsesThePuzzleNumbers | src/pages/mathPuzzle/MathPuzzle.jsx:194-218 | A puzzle is only solved by an expression whose four numbers are the puzzle's |
| PuzzleScreen.GiveUp | src/pages/mathPuzzle/MathPuzzle.jsx:226-233 | Giving up locks the screen, resets the streak and shows a solution; a locked screen is unchanged |
| PuzzleScreen.BestTimeNeverGrows | src/pages/mathPuzzle/MathPuzzle.jsx:216 | Once set, the best time is never lost and never grows |
| CardMarks.DigitValues | src/pages/mathPuzzle/MathPuzzle.jsx:237 | The expression's digit characters as numbers from 0 to 9 |
| CardMarks.UsedCardIndices | src/pages/mathPuzzle/MathPuzzle.jsx:236-249 | The marked cards are exactly those whose value still has an unused digit after the cards before it |
| CardMarks.MarkedCount | src/pages/mathPuzzle/MathPuzzle.jsx:236-249 | Of the cards showing v, min(count of v among the cards, count of digit v in the expression) are marked |
| CardMarks.MarkedAreCards | src/pages/mathPuzzle/MathPuzzle.jsx:241-246 | Only card positions are marked, each showing a digit of the expression |
| Chance.ScaledIndex | src/pages/luckyDraw/LuckyDraw.jsx:65 | `floor(u * n)` is a position below n |
| LuckyDraw.Range | src/pages/luckyDraw/LuckyDraw.jsx:48-49 | 1, 2, …, n |
| LuckyDraw.RangeCounts | src/pages/luckyDraw/LuckyDraw.jsx:48-49 | The range holds each of 1..n once and nothing else |
| LuckyDraw.SelectMax | src/pages/luckyDraw/LuckyDraw.jsx:110-111 | The dropdown sets the range size from 8 to 99 and nothing else |
| LuckyDraw.StartGame | src/pages/luckyDraw/LuckyDraw.jsx:47-58 | The game screen with the pool holding 1..maxDraws in order, nothing drawn, no animation, no dialog; a completion timeout still due stays due |
| LuckyDraw.Press | src/pages/luckyDraw/LuckyDraw.jsx:61-74 | Ignored while animating or with an empty pool; otherwise picks a pool position and shows its number |
| LuckyDraw.Land | src/pages/luckyDraw/LuckyDraw.jsx:76-94 | The picked number leaves the pool for the end of the drawn list; a completion timeout is scheduled exactly when the pool has just become empty, and the dialog itself does not open yet |
| LuckyDraw.OpenDialog | src/pages/luckyDraw/LuckyDraw.jsx:87-90 | The completion timeout firing opens the dialog over whatever screen is showing and uses up one due timeout; nothing else changes |
| LuckyDraw.Restart | src/pages/luckyDraw/LuckyDraw.jsx:98-101 | Back to setup with the dialog closed, nothing else changed |
| LuckyDraw.InitialInv | src/pages/luckyDraw/LuckyDraw.jsx:34-42 | The opening screen satisfies the draw invariant |
| LuckyDraw.StepKeepsInv | src/pages/luckyDraw/LuckyDraw.jsx:47-101 | Every offered event keeps pool plus drawn equal to the range in a game, as a multiset, and a running draw pointing into the pool |
| LuckyDraw.PlayKeepsInv | src/pages/luckyDraw/LuckyDraw.jsx:47-101 | Any sequence of offered events keeps the invariant |
| LuckyDraw.DrawnDistinct | src/pages/luckyDraw/LuckyDraw.jsx:76-80 | No number is drawn twice, and every drawn number is in the range and out of the pool |
| LuckyDraw.Counters | src/pages/luckyDraw/LuckyDraw.jsx:103-107 | `remaining` is the pool size; all is done exactly when the pool is empty, and then the drawn numbers are the range |
| LuckyDraw.Remaining | src/pages/luckyDraw/LuckyDraw.jsx:105 | No contract of its own: `maxDraws` minus the drawn count, which `Counters` proves is the pool size |
| LuckyDraw.AllDone | src/pages/luckyDraw/LuckyDraw.jsx:107 | No contract of its own: empty pool and something drawn, which `Counters` proves is just an empty pool |
| LuckyDraw.DialogOnLastLanding | src/pages/luckyDraw/LuckyDraw.jsx:86-90 | The completion timeout is scheduled by the landing that empties the pool, and by no other |
| LuckyDraw.LateDialogOverNewGame | src/pages/luckyDraw/LuckyDraw.jsx:86-101 | Nothing cancels the timeout: restarting and starting a new game before it fires leaves the dialog open over the new game's full pool |
| LuckyDraw.NeverDrawnTwice | src/pages/luckyDraw/LuckyDraw.jsx:61-95 | From the opening screen, whatever is pressed and whatever comes up, no number is drawn twice (in the model, where starting a game drops a running animation; see "## Left out") |

## Left out

- Timers and animation delays: the race interval, the 1.2 s countdown beat, the 800 ms dice flash, the 900 ms and 600 ms lucky-draw delays, and the puzzle's elapsed-time clock. Each becomes an explicit step or a parameter (`elapsed`). Their durations are not modelled, so any interleaving of the steps is allowed, including ones too fast for a player.
- LuckyDraw.StartGame: a landing whose 900 ms timer is still running is dropped. In the original that timer still fires later and writes back the pool it captured, minus its number. This needs a restart during a draw, which only the late completion dialog allows (`LateDialogOverNewGame`). It can then draw a number twice, so `NeverDrawnTwice` holds of the model only.
- `Math.random`: dice values and the real `u` in [0, 1) are parameters. `RollDie` and `ScaledIndex` model the scaling from `u`.
- RaceEngine: progress is counted in whole hundredths, not as JavaScript doubles, and this changes more than the finishing tick.
  - In the model, two horses with the same number of boosts are exactly tied and the lower id ranks first. In the original the additions happen in a different order and usually leave a rounding difference. With one boost at tick 20 against one at tick 40, the horses stand at 19.2 and 19.200000000000014 after tick 40, so the later-boosted horse ranks first whatever its id.
  - So the order below the winner can differ from the original's, and with it the show, place and black payouts.
  - A horse with six boosts is exactly at the end after tick 200 in the model. With boosts at ticks 20 to 120, the doubles give 99.99999999999974 instead, so the finishing tick can differ too.
- RaceEngine.RankingIsUnique: the tie-break it proves describes exact ties of the hundredths model, not the original's doubles.
- RaceEngine.BuildRanking: requires seven positions. The original always has them, and a position is read by horse id.
- PuzzleScreen.CheckAnswer: the evaluation with `new Function` is a foreign call. The `Outcome` parameter (threw, not finite, or a value) stands for it.
- The shown result's rounding `Math.round(result*10000)/10000` is not modelled: the message keeps the exact value.
- PuzzleScreen.Precheck: the sorted lists are compared as lists, where the original compares their `join(',')` texts. The two comparisons agree because the decimal rendering is injective (`Decimal.NatToStringInjective`).
- Characters are Dafny characters, not UTF-16 code units. The keypad's `×`, `÷` and `−` are each one code unit, so this changes nothing.
- PuzzleSolutions.FindSolutions: expressions are kept as trees (arrangement, operators, bracketing), not as their display strings.
- Values are exact reals, so the `1e-9` integrality tolerance becomes exact integrality.
- PuzzleSolutions.FindSolutions: on the digits 7, 7, 9, 9 the original also records the key 0. In doubles, `7 − (9 ÷ (9 ÷ 7))` is 8.881784197001252e-16, which passes `r > 0` and the `1e-9` test, and rounds to 0. The exact value is 0, so the model records no such key and promises keys in 1..100 only. The target is not affected, because these digits have preferred keys such as 32.
- PuzzleSolutions.GeneratePuzzle: takes any list of attempts. The original's limit of fifty is not enforced, because the model proves the first attempt always succeeds.
- The name text fields, the dice flash display and all rendering, styling, routing, confetti, particles and dark mode are left out.

## Findings

| source | as written | input that shows it | evidently intended | confidence | as-written member | corrected member |
|---|---|---|---|---|---|---|
| src/pages/mathPuzzle/MathPuzzle.jsx:67 | The fallback puzzle shows `(2 + 5) × 3 − 7` as the solution for target 17, but that evaluates to 14 | Fifty attempts that all find no target. This is unreachable with digits 1..9 (`PuzzleSolutions.FirstAttemptSucceeds`), so the fallback is dead code | A shown solution reaching 17 with 2, 3, 5, 7, for example `2 + 3 + 5 + 7` | high; not executed | PuzzleSolutions.FallbackAsWrittenMissesTarget | PuzzleSolutions.Fallback |

=== FILE: bet_dialog.dfy ===
/** The bet dialog: the only place a stake amount is validated. The dialog
    is opened with `maxAmount` = the bettor's coins and `currentBet` = the
    stake already on the cell, so a confirmed amount never costs more coins
    than the player has. */
module BetDialog {
  import opened Wrappers
  import opened Decimal
  import opened Ledger
  import GameState

  datatype Verdict =
    | Invalid                  // empty, not a number, or not positive
    | OverLimit(available: int) // more than the player can stake here
    | Confirmed(amount: int)   // handed to `onConfirm`

  /** Coins available for this cell if its current stake were refunded first. */
  function Available(maxAmount: int, currentBet: int): int {
    maxAmount + currentBet
  }

  /** `handleConfirm` on the text `value` of the amount field. */
  function HandleConfirm(value: string, maxAmount: int, currentBet: int): (v: Verdict)
    ensures v.Confirmed? <==>
      ParseInt(value).Some? && 0 < ParseInt(value).value <= maxAmount + currentBet
    ensures v.Confirmed? ==> v.amount == ParseInt(value).value
    ensures v.Invalid? <==> ParseInt(value).None? || ParseInt(value).value <= 0
  {
    var amt := ParseInt(value);
    if value == "" || amt.None? || amt.value <= 0 then Invalid
    else if amt.value > Available(maxAmount, currentBet) then OverLimit(Available(maxAmount, currentBet))
    else Confirmed(amt.value)
  }

  /** The remove button is shown only when the cell holds a stake. */
  predicate RemoveOffered(currentBet: int) {
    currentBet > 0
  }

  /** The funds guard: a confirmed amount, staked by a player with no debt,
      leaves that player's coins non-negative and the new stake positive. */
  lemma ConfirmedStakeIsCovered(p: Player, key: string, value: string)
    requires p.coins >= 0
    requires HandleConfirm(value, p.coins, Get(p.currentBets, key)).Confirmed?
    ensures var amount := HandleConfirm(value, p.coins, Get(p.currentBets, key)).amount;
      && amount > 0
      && GameState.Stake(p, key, amount).coins >= 0
  {
  }

  /** The text the amount field holds when the dialog opens on a cell. */
  function InitialValue(currentBet: nat): (value: string)
    ensures currentBet == 0 ==> HandleConfirm(value, 0, 0).Invalid?
    ensures currentBet > 0 ==> forall maxAmount :: maxAmount >= 0 ==>
      HandleConfirm(value, maxAmount, currentBet) == Confirmed(currentBet)
  {
    ParseIntOfNatToString(currentBet, "");
    assert NatToString(currentBet) + "" == NatToString(currentBet);
    if currentBet == 0 then "" else NatToString(currentBet)
  }
}

=== FILE: bet_keys.dfy ===
/** Bet keys: the strings that name a cell of the bet board. A colour bet's
    key is its own name (`colorBlue`); a per-horse bet's key is the bet type,
    an underscore and the horse id (`show_3`). Both the payout engine and the
    bets summary read keys back by testing the colour names first and then
    the prefixes `show_`, `place_`, `win_` in that order. */
module BetKeys {
  import opened Wrappers
  import opened Text
  import opened Decimal
  import opened Odds

  /** `makeBetKey(type, horseId)`: `type_horseId` when there is a horse id,
      `type` alone otherwise. */
  function MakeBetKey(betType: string, horseId: Option<nat>): (k: string)
    ensures horseId.None? ==> k == betType
    ensures horseId.Some? ==> |k| > |betType| + 1 && StartsWith(k, betType + "_")
  {
    match horseId
    case None => betType
    case Some(h) => betType + "_" + NatToString(h)
  }

  /** What a key names, as the readers of keys see it. */
  datatype KeyKind =
    | ColourKey(bet: ColourBet)
    | HorseKey(betType: HorseBetType, suffix: string) // the text after `type_`
    | OtherKey

  /** The first per-horse bet type at or after `i` whose prefix `key` starts with. */
  function MatchPrefix(key: string, i: nat): (r: Option<HorseBetType>)
    requires i <= |HorseBetTypes|
    ensures r.Some? ==> r.value in HorseBetTypes && StartsWith(key, r.value.key + "_")
    ensures r.None? <==> forall k :: i <= k < |HorseBetTypes| ==> !StartsWith(key, HorseBetTypes[k].key + "_")
    decreases |HorseBetTypes| - i
  {
    if i == |HorseBetTypes| then None
    else if StartsWith(key, HorseBetTypes[i].key + "_") then Some(HorseBetTypes[i])
    else MatchPrefix(key, i + 1)
  }

  /** Reads a key: a colour bet's name first, otherwise the first matching
      per-horse prefix (the rest of the key being the suffix), otherwise
      neither. */
  function Classify(key: string): (r: KeyKind)
    ensures r.ColourKey? <==> FindColourBet(key).Some?
    ensures r.ColourKey? ==> r.bet in ColourBets && r.bet.key == key
    ensures r.HorseKey? ==> r.betType in HorseBetTypes && key == r.betType.key + "_" + r.suffix
    ensures r.OtherKey? <==> (FindColourBet(key).None?
      && forall k :: 0 <= k < |HorseBetTypes| ==> !StartsWith(key, HorseBetTypes[k].key + "_"))
  {
    match FindColourBet(key)
    case Some(cb) => ColourKey(cb)
    case None =>
      match MatchPrefix(key, 0)
      case Some(bt) =>
        var p := bt.key + "_";
        assert key == p + key[|p|..];
        HorseKey(bt, key[|p|..])
      case None => OtherKey
  }

  /** The key of a colour bet reads back as that colour bet. */
  lemma ClassifyColourKey(cb: ColourBet)
    requires cb in ColourBets
    ensures Classify(MakeBetKey(cb.key, None)) == ColourKey(cb)
  {
  }

  /** The key of a per-horse bet reads back as that bet type with the
      horse's id as the suffix, and `parseInt` of the suffix is the id. */
  lemma ClassifyHorseKey(bt: HorseBetType, h: nat)
    requires bt in HorseBetTypes
    ensures Classify(MakeBetKey(bt.key, Some(h))) == HorseKey(bt, NatToString(h))
    ensures ParseInt(NatToString(h)) == Some(h)
  {
    var key := MakeBetKey(bt.key, Some(h));
    assert key[0] == bt.key[0];
    assert FindColourBet(key).None? by {
      forall i | 0 <= i < |ColourBets| ensures ColourBets[i].key != key {
        assert ColourBets[i].key[0] == 'c';
      }
    }
    var first := if bt.key == "show" then 0 else if bt.key == "place" then 1 else 2;
    assert HorseBetTypes[first] == bt;
    forall k | 0 <= k < first ensures !StartsWith(key, HorseBetTypes[k].key + "_") {
      assert key[0] != HorseBetTypes[k].key[0];
    }
    assert MatchPrefix(key, first) == Some(bt);
    ParseIntOfNatToString(h, "");
    assert NatToString(h) + "" == NatToString(h);
  }

  /** Distinct bets have distinct keys. */
  lemma MakeBetKeyInjective(t1: HorseBetType, h1: nat, t2: HorseBetType, h2: nat)
    requires t1 in HorseBetTypes && t2 in HorseBetTypes
    requires MakeBetKey(t1.key, Some(h1)) == MakeBetKey(t2.key, Some(h2))
    ensures t1 == t2 && h1 == h2
  {
    ClassifyHorseKey(t1, h1);
    ClassifyHorseKey(t2, h2);
    NatToStringInjective(h1, h2);
  }
}

=== FILE: bets_info.dfy ===
/** The bets summary shown during the race: each player's positive stakes,
    each labelled by reading its key back. */
module BetsInfo {
  import opened Wrappers
  import opened Decimal
  import opened Odds
  import opened BetKeys
  import opened Ledger

  /** `betLabel(betKey)`: a colour bet's label, `#<suffix> <type label>` for
      a per-horse key, and the key itself otherwise. */
  function BetLabel(key: string): (text: string)
    ensures Classify(key).OtherKey? ==> text == key
  {
    match Classify(key)
    case ColourKey(cb) => cb.title
    case HorseKey(bt, suffix) => "#" + suffix + " " + bt.title
    case OtherKey => key
  }

  /** Labels read back what `MakeBetKey` wrote: the colour bet's label for a
      colour key, and the horse number with the bet type's label for a
      per-horse key. */
  lemma BetLabelOfMadeKey(cb: ColourBet, bt: HorseBetType, h: nat)
    requires cb in ColourBets && bt in HorseBetTypes
    ensures BetLabel(MakeBetKey(cb.key, None)) == cb.title
    ensures BetLabel(MakeBetKey(bt.key, Some(h))) == "#" + NatToString(h) + " " + bt.title
  {
    ClassifyColourKey(cb);
    ClassifyHorseKey(bt, h);
  }

  /** The listed entries: those with a positive amount, in order. */
  function ListedEntries(b: Bets): (r: Bets)
    ensures forall i :: 0 <= i < |r| ==> r[i].amount > 0
    ensures forall e :: e in r <==> e in b && e.amount > 0
    ensures |r| <= |b|
  {
    if |b| == 0 then []
    else if b[0].amount > 0 then [b[0]] + ListedEntries(b[1..])
    else ListedEntries(b[1..])
  }

  /** The filter keeps the entries' order: listing two halves one after
      the other lists the whole. */
  lemma {:induction false} ListedEntriesAppend(b1: Bets, b2: Bets)
    ensures ListedEntries(b1 + b2) == ListedEntries(b1) + ListedEntries(b2)
    decreases |b1|
  {
    if |b1| > 0 {
      assert (b1 + b2)[0] == b1[0];
      assert (b1 + b2)[1..] == b1[1..] + b2;
      ListedEntriesAppend(b1[1..], b2);
    } else {
      assert b1 + b2 == b2;
    }
  }
}

=== FILE: chance.dfy ===
/** `Math.floor(Math.random() * n)`, the one way the games turn a random
    number into a choice. The random number itself is a parameter `u`,
    which `Math.random` draws from [0, 1). */
module Chance {

  function ScaledIndex(u: real, n: nat): (i: nat)
    requires n > 0 && 0.0 <= u < 1.0
    ensures i < n
  {
    ScaledBelow(u, n as real);
    var x := u * n as real;
    assert x.Floor as real <= x < n as real;
    x.Floor
  }

  lemma ScaledBelow(u: real, x: real)
    requires 0.0 <= u < 1.0 && x > 0.0
    ensures 0.0 <= u * x < x
  {
    assert (1.0 - u) * x > 0.0;
  }
}

=== FILE: collect_phase.dfy ===
/** The settlement screen's controls: "continue" is shown only before the
    last turn and runs `NEXT_TURN` then `GO_TO_BET`; "end" is always shown. */
module CollectPhase {
  import opened Odds
  import opened Ledger
  import opened GameState

  predicate IsLastTurn(s: State) {
    s.currentTurn >= s.maxTurns
  }

  datatype Choice = ContinueGame | EndGame

  /** The buttons the settlement screen shows. */
  function OfferedChoices(s: State): (r: set<Choice>)
    ensures EndGame in r
    ensures ContinueGame in r <==> s.currentTurn < s.maxTurns
  {
    if IsLastTurn(s) then {EndGame} else {ContinueGame, EndGame}
  }

  /** `handleContinue`: next turn, then the betting phase with fresh income. */
  function Continue(s: State): (s': State)
    ensures s'.currentTurn == s.currentTurn + 1 && s'.phase == Bet
    ensures s'.finalRanking == [] && s'.currentBetPlayerIndex == 0
    ensures |s'.players| == |s.players|
    ensures forall i :: 0 <= i < |s.players| ==>
      s'.players[i] == s.players[i].(coins := s.players[i].coins + TurnIncome, currentBets := [], lastEarned := 0)
    ensures s'.maxTurns == s.maxTurns && s'.turnHistory == s.turnHistory
  {
    Reduce(Reduce(s, NextTurn), GoToBet)
  }

  /** Through the continue button the turn counter never passes `maxTurns`. */
  lemma ContinueWithinTurns(s: State)
    requires ContinueGame in OfferedChoices(s)
    ensures Continue(s).currentTurn <= Continue(s).maxTurns
  {
  }

  /** The end button moves to the final standings from any turn. */
  lemma EndGameFromAnyTurn(s: State)
    requires s.phase == Collect
    ensures EndGame in OfferedChoices(s)
    ensures Reduce(s, GoToResult).phase == Result
  {
  }
}

=== FILE: decimal.dfy ===
/** Decimal text: how JavaScript renders a non-negative integer in a
    template literal (`${n}`) and how `parseInt(s, 10)` reads one back. */
module Decimal {
  import opened Wrappers
  import opened Text

  predicate IsDigit(c: char) {
    '0' <= c <= '9'
  }

  predicate AllDigits(s: string) {
    forall i :: 0 <= i < |s| ==> IsDigit(s[i])
  }

  function DigitChar(d: nat): (c: char)
    requires d < 10
    ensures IsDigit(c)
  {
    (d + '0' as int) as char
  }

  function DigitValue(c: char): (d: nat)
    requires IsDigit(c)
    ensures d < 10 && DigitChar(d) == c
  {
    c as int - '0' as int
  }

  /** The decimal rendering of `n`: digits only, at least one, and no
      leading zero unless `n` is zero. */
  function NatToString(n: nat): (s: string)
    ensures |s| >= 1 && AllDigits(s)
    ensures |s| > 1 ==> s[0] != '0'
    ensures n < 10 <==> |s| == 1
  {
    if n < 10 then [DigitChar(n)] else NatToString(n / 10) + [DigitChar(n % 10)]
  }

  /** The number a string of digits denotes, most significant first. */
  function DigitsValue(s: string): nat
    requires AllDigits(s)
  {
    if |s| == 0 then 0 else DigitsValue(s[..|s| - 1]) * 10 + DigitValue(s[|s| - 1])
  }

  /** Reading the rendering of `n` gives back `n`. */
  lemma {:induction false} DigitsValueOfNatToString(n: nat)
    ensures DigitsValue(NatToString(n)) == n
  {
    if n >= 10 {
      var s := NatToString(n);
      assert s[..|s| - 1] == NatToString(n / 10);
      DigitsValueOfNatToString(n / 10);
    }
  }

  /** The rendering is injective. */
  lemma NatToStringInjective(a: nat, b: nat)
    requires NatToString(a) == NatToString(b)
    ensures a == b
  {
    DigitsValueOfNatToString(a);
    DigitsValueOfNatToString(b);
  }

  /** The longest prefix of `s` made of digits. */
  function LeadingDigits(s: string): (d: string)
    ensures |d| <= |s| && d == s[..|d|] && AllDigits(d)
    ensures |d| < |s| ==> !IsDigit(s[|d|])
  {
    if |s| == 0 || !IsDigit(s[0]) then "" else [s[0]] + LeadingDigits(s[1..])
  }

  /** A run of digits followed by a non-digit (or nothing) is read whole. */
  lemma {:induction false} LeadingDigitsOfDigits(d: string, rest: string)
    requires AllDigits(d)
    requires |rest| > 0 ==> !IsDigit(rest[0])
    ensures LeadingDigits(d + rest) == d
  {
    if |d| > 0 {
      assert (d + rest)[1..] == d[1..] + rest;
      LeadingDigitsOfDigits(d[1..], rest);
    } else {
      assert d + rest == rest;
    }
  }

  /** `parseInt(s, 10)`: skip leading white space, take an optional sign,
      then the longest run of digits; `None` stands for `NaN`, which is the
      result when that run is empty. */
  function ParseInt(s: string): (r: Option<int>)
    ensures r.None? <==> LeadingDigits(SignStripped(s[SkipSpace(s, 0)..]).1) == ""
  {
    var (sign, body) := SignStripped(s[SkipSpace(s, 0)..]);
    var digits := LeadingDigits(body);
    if digits == "" then None else Some(sign * DigitsValue(digits))
  }

  /** Splits an optional leading `-` or `+` off `t`. */
  function SignStripped(t: string): (r: (int, string))
    ensures r.0 == -1 || r.0 == 1
    ensures |t| > 0 && t[0] in "+-" ==> r.1 == t[1..] && (r.0 == -1 <==> t[0] == '-')
    ensures !(|t| > 0 && t[0] in "+-") ==> r == (1, t)
  {
    if |t| > 0 && t[0] == '-' then (-1, t[1..])
    else if |t| > 0 && t[0] == '+' then (1, t[1..])
    else (1, t)
  }

  /** The round trip `parseInt(`${n}`) == n`, also when the rendering is
      followed by text that does not start with a digit. */
  lemma ParseIntOfNatToString(n: nat, rest: string)
    requires |rest| > 0 ==> !IsDigit(rest[0])
    ensures ParseInt(NatToString(n) + rest) == Some(n)
  {
    var s := NatToString(n) + rest;
    assert !IsWhitespace(s[0]);
    assert SkipSpace(s, 0) == 0;
    assert s[0..] == s;
    assert s[0] !in "+-";
    LeadingDigitsOfDigits(NatToString(n), rest);
    DigitsValueOfNatToString(n);
  }
}

=== FILE: game_state.dfy ===
/** The horse-racing game's central state and its reducer. The reducer
    checks neither the phase nor a player's funds: those guards belong to
    the screens that dispatch the actions (see `BetDialog`, `CollectPhase`
    and `Session`). */
module GameState {
  import opened Odds
  import opened Ledger
  import opened Payout

  /** What the settlement screen and the final standings show of a player. */
  datatype PlayerSnapshot = PlayerSnapshot(id: int, name: string, coins: int, lastEarned: int)

  /** One completed race. */
  datatype Snapshot = Snapshot(turn: int, finalRanking: seq<int>, playerSnapshots: seq<PlayerSnapshot>)

  datatype State = State(
    phase: Phase,
    maxTurns: int,
    currentTurn: int,                 // 1-based
    players: seq<Player>,
    currentBetPlayerIndex: int,
    finalRanking: seq<int>,           // empty before a race has finished
    turnHistory: seq<Snapshot>)

  datatype Action =
    | ConfigureGame(turns: int, names: seq<string>)
    | GoToBet
    | PlaceBet(playerId: int, betKey: string, amount: int)
    | RemoveBet(playerId: int, betKey: string)
    | NextBetPlayer
    | RaceFinished(ranking: seq<int>)
    | NextTurn
    | GoToResult
    | Restart
    | Unknown(tag: string)          // any other action type

  /** `buildInitialState()`. */
  function InitialState(): (s: State)
    ensures s.phase == Start && s.currentTurn == 1 && s.players == [] && s.turnHistory == []
    ensures s.maxTurns == 3 && s.currentBetPlayerIndex == 0 && s.finalRanking == []
  {
    State(Start, 3, 1, [], 0, [], [])
  }

  /** `CONFIGURE_GAME`: one fresh player per name, with ids 0..n-1. */
  function Configure(s: State, turns: int, names: seq<string>): (s': State)
    ensures s'.maxTurns == turns && |s'.players| == |names|
    ensures forall i :: 0 <= i < |names| ==>
      s'.players[i] == Player(i, names[i], InitialCoins, [], 0)
    ensures s'.phase == s.phase && s'.currentTurn == s.currentTurn
    ensures s'.currentBetPlayerIndex == s.currentBetPlayerIndex
    ensures s'.finalRanking == s.finalRanking && s'.turnHistory == s.turnHistory
  {
    var players := seq(|names|, i requires 0 <= i < |names| => Player(i, names[i], InitialCoins, [], 0));
    s.(maxTurns := turns, players := players)
  }

  /** `GO_TO_BET`: each player gets the turn income and a clean bet slate;
      the first player bets next. */
  function EnterBetting(s: State): (s': State)
    ensures s'.phase == Bet && s'.currentBetPlayerIndex == 0
    ensures |s'.players| == |s.players|
    ensures forall i :: 0 <= i < |s.players| ==>
      s'.players[i] == s.players[i].(coins := s.players[i].coins + TurnIncome, currentBets := [], lastEarned := 0)
    ensures s'.maxTurns == s.maxTurns && s'.currentTurn == s.currentTurn
    ensures s'.finalRanking == s.finalRanking && s'.turnHistory == s.turnHistory
  {
    var players := seq(|s.players|, i requires 0 <= i < |s.players| =>
      s.players[i].(coins := s.players[i].coins + TurnIncome, currentBets := [], lastEarned := 0));
    s.(phase := Bet, players := players, currentBetPlayerIndex := 0)
  }

  /** The stake change for one player: pay the difference to the previous
      stake on `key` (a refund when it is negative) and record the new one. */
  function Stake(p: Player, key: string, amount: int): (q: Player)
    ensures q.coins == p.coins - (amount - Get(p.currentBets, key))
    ensures Get(q.currentBets, key) == amount
    ensures forall k :: k != key ==> Get(q.currentBets, k) == Get(p.currentBets, k)
    ensures q.id == p.id && q.name == p.name && q.lastEarned == p.lastEarned
  {
    forall k ensures k != key ==> Get(Put(p.currentBets, key, amount), k) == Get(p.currentBets, k) {
      GetAfterPut(p.currentBets, key, amount, k);
    }
    GetAfterPut(p.currentBets, key, amount, key);
    var diff := amount - Get(p.currentBets, key);
    p.(coins := p.coins - diff, currentBets := Put(p.currentBets, key, amount))
  }

  /** The refund for one player: the stake on `key` (0 if none) goes back
      to the coins and the key is removed. */
  function Unstake(p: Player, key: string): (q: Player)
    ensures q.coins == p.coins + Get(p.currentBets, key)
    ensures key !in Keys(q.currentBets) && Get(q.currentBets, key) == 0
    ensures forall k :: k != key ==> Get(q.currentBets, k) == Get(p.currentBets, k)
    ensures q.id == p.id && q.name == p.name && q.lastEarned == p.lastEarned
  {
    forall k ensures k != key ==> Get(Delete(p.currentBets, key), k) == Get(p.currentBets, k) {
      GetAfterDelete(p.currentBets, key, k);
    }
    p.(coins := p.coins + Get(p.currentBets, key), currentBets := Delete(p.currentBets, key))
  }

  /** `PLACE_BET`: stakes `amount` on `key` for every player whose id is
      `playerId`; everybody else is untouched. */
  function PlaceBetOn(s: State, playerId: int, key: string, amount: int): (s': State)
    ensures |s'.players| == |s.players|
    ensures forall i :: 0 <= i < |s.players| ==>
      s'.players[i] == if s.players[i].id == playerId then Stake(s.players[i], key, amount) else s.players[i]
    ensures s' == s.(players := s'.players)
  {
    var players := seq(|s.players|, i requires 0 <= i < |s.players| =>
      if s.players[i].id == playerId then Stake(s.players[i], key, amount) else s.players[i]);
    s.(players := players)
  }

  /** `REMOVE_BET`: refunds and removes the stake on `key` for every player
      whose id is `playerId`; everybody else is untouched. */
  function RemoveBetOn(s: State, playerId: int, key: string): (s': State)
    ensures |s'.players| == |s.players|
    ensures forall i :: 0 <= i < |s.players| ==>
      s'.players[i] == if s.players[i].id == playerId then Unstake(s.players[i], key) else s.players[i]
    ensures s' == s.(players := s'.players)
  {
    var players := seq(|s.players|, i requires 0 <= i < |s.players| =>
      if s.players[i].id == playerId then Unstake(s.players[i], key) else s.players[i]);
    s.(players := players)
  }

  /** `NEXT_BET_PLAYER`: the race starts after the last player has bet. */
  function AdvanceBettor(s: State): (s': State)
    ensures s.currentBetPlayerIndex + 1 >= |s.players| ==> s' == s.(phase := Racing)
    ensures s.currentBetPlayerIndex + 1 < |s.players| ==>
      s' == s.(currentBetPlayerIndex := s.currentBetPlayerIndex + 1)
  {
    var next := s.currentBetPlayerIndex + 1;
    if next >= |s.players| then s.(phase := Racing) else s.(currentBetPlayerIndex := next)
  }

  /** `RACE_FINISHED`: settle everybody against the ranking, keep it, and
      append this turn's snapshot to the history. */
  function FinishRace(s: State, ranking: seq<int>): (s': State)
    ensures s'.phase == Collect && s'.finalRanking == ranking
    ensures s'.players == SettleRound(s.players, ranking)
    ensures |s'.turnHistory| == |s.turnHistory| + 1
    ensures s'.turnHistory[..|s.turnHistory|] == s.turnHistory
    ensures var last := s'.turnHistory[|s.turnHistory|];
      && last.turn == s.currentTurn && last.finalRanking == ranking
      && |last.playerSnapshots| == |s.players|
      && forall i :: 0 <= i < |s.players| ==>
        last.playerSnapshots[i] == PlayerSnapshot(s.players[i].id, s.players[i].name,
          s'.players[i].coins, s'.players[i].lastEarned)
    ensures s'.maxTurns == s.maxTurns && s'.currentTurn == s.currentTurn
    ensures s'.currentBetPlayerIndex == s.currentBetPlayerIndex
  {
    var settled := SettleRound(s.players, ranking);
    var snapshot := Snapshot(s.currentTurn, ranking,
      seq(|settled|, i requires 0 <= i < |settled| =>
        PlayerSnapshot(settled[i].id, settled[i].name, settled[i].coins, settled[i].lastEarned)));
    s.(phase := Collect, finalRanking := ranking, players := settled,
       turnHistory := s.turnHistory + [snapshot])
  }

  /** The reducer. */
  function Reduce(s: State, a: Action): (s': State)
    ensures s'.phase != s.phase ==>
      a.GoToBet? || a.NextBetPlayer? || a.RaceFinished? || a.GoToResult? || a.Restart?
    ensures a.GoToBet? ==> s'.phase == Bet
    ensures a.RaceFinished? ==> s'.phase == Collect
    ensures a.GoToResult? ==> s'.phase == Result
    ensures a.Restart? ==> s'.phase == Start
    ensures a.NextBetPlayer? ==> s'.phase in {s.phase, Racing}
    ensures s'.currentTurn != s.currentTurn ==> a.NextTurn? || a.Restart?
    ensures |s'.turnHistory| != |s.turnHistory| ==> a.RaceFinished? || a.Restart?
  {
    match a
    case ConfigureGame(turns, names) => Configure(s, turns, names)
    case GoToBet => EnterBetting(s)
    case PlaceBet(pid, key, amount) => PlaceBetOn(s, pid, key, amount)
    case RemoveBet(pid, key) => RemoveBetOn(s, pid, key)
    case NextBetPlayer => AdvanceBettor(s)
    case RaceFinished(ranking) => FinishRace(s, ranking)
    case NextTurn => s.(currentTurn := s.currentTurn + 1, finalRanking := [])
    case GoToResult => s.(phase := Result)
    case Restart => InitialState()
    case Unknown(_) => s
  }

  /** The actions without a helper of their own: `NEXT_TURN` moves to the
      next turn and forgets the ranking, `GO_TO_RESULT` only changes the
      phase, `RESTART` is the initial state whatever came before, and an
      unknown action changes nothing. */
  lemma SimpleActions(s: State, tag: string)
    ensures var t := Reduce(s, NextTurn);
      t.currentTurn == s.currentTurn + 1 && t.finalRanking == [] && t.phase == s.phase
      && t.players == s.players && t.turnHistory == s.turnHistory && t.maxTurns == s.maxTurns
    ensures Reduce(s, GoToResult) == s.(phase := Result)
    ensures Reduce(s, Restart) == InitialState()
    ensures Reduce(s, Unknown(tag)) == s
  {
  }

  /** Placing and removing bets never creates or destroys coins: every
      player's coins plus stakes stay the same. */
  lemma {:induction false} LedgerConserves(s: State, a: Action)
    requires a.PlaceBet? || a.RemoveBet?
    requires forall i :: 0 <= i < |s.players| ==> DistinctKeys(s.players[i].currentBets)
    ensures var s' := Reduce(s, a);
      && |s'.players| == |s.players|
      && forall i :: 0 <= i < |s.players| ==> Holdings(s'.players[i]) == Holdings(s.players[i])
  {
    var s' := Reduce(s, a);
    forall i | 0 <= i < |s.players| ensures Holdings(s'.players[i]) == Holdings(s.players[i]) {
      var p := s.players[i];
      if p.id == a.playerId {
        if a.PlaceBet? {
          SumAfterPut(p.currentBets, a.betKey, a.amount);
        } else {
          SumAfterDelete(p.currentBets, a.betKey);
        }
      }
    }
  }
}

=== FILE: ledger.dfy ===
/** The betting ledger: a player's coins and the map from bet key to staked
    amount. The map is a JavaScript object, so it is modelled as its entries
    in insertion order with distinct keys: assigning to a present key keeps
    its position, a new key goes last, deleting drops the entry. */
module Ledger {

  datatype Entry = Entry(key: string, amount: int)

  type Bets = seq<Entry>

  datatype Player = Player(id: int, name: string, coins: int, currentBets: Bets, lastEarned: int)

  function Keys(b: Bets): set<string> {
    if |b| == 0 then {} else {b[0].key} + Keys(b[1..])
  }

  /** No key occurs twice, as in any JavaScript object. */
  predicate DistinctKeys(b: Bets) {
    |b| == 0 || (b[0].key !in Keys(b[1..]) && DistinctKeys(b[1..]))
  }

  /** `currentBets[key] || 0`: the stake on `key`, 0 when there is none. */
  function Get(b: Bets, key: string): (a: int)
    ensures key !in Keys(b) ==> a == 0
    ensures |b| > 0 && b[0].key == key ==> a == b[0].amount
  {
    if |b| == 0 then 0
    else if b[0].key == key then b[0].amount
    else Get(b[1..], key)
  }

  /** `{ ...currentBets, [key]: amount }`. */
  function Put(b: Bets, key: string, amount: int): (r: Bets)
    ensures Keys(r) == Keys(b) + {key}
    ensures |r| == if key in Keys(b) then |b| else |b| + 1
  {
    if |b| == 0 then [Entry(key, amount)]
    else if b[0].key == key then [Entry(key, amount)] + b[1..]
    else [b[0]] + Put(b[1..], key, amount)
  }

  /** Deleting `key` (the rest pattern `{ [key]: _, ...rest }`). */
  function Delete(b: Bets, key: string): (r: Bets)
    ensures Keys(r) == Keys(b) - {key}
    ensures forall e :: e in r ==> e in b
  {
    if |b| == 0 then []
    else if b[0].key == key then Delete(b[1..], key)
    else [b[0]] + Delete(b[1..], key)
  }

  /** The total staked. */
  function Sum(b: Bets): int {
    if |b| == 0 then 0 else b[0].amount + Sum(b[1..])
  }

  /** A player's holdings: coins in hand plus coins staked. */
  function Holdings(p: Player): int {
    p.coins + Sum(p.currentBets)
  }

  /** After `Put`, the key holds the new amount and every other key keeps
      its stake. */
  lemma {:induction false} GetAfterPut(b: Bets, key: string, amount: int, other: string)
    ensures Get(Put(b, key, amount), key) == amount
    ensures other != key ==> Get(Put(b, key, amount), other) == Get(b, other)
  {
    if |b| > 0 && b[0].key != key {
      GetAfterPut(b[1..], key, amount, other);
    }
  }

  /** After `Delete`, the key holds nothing and every other key keeps its
      stake. */
  lemma {:induction false} GetAfterDelete(b: Bets, key: string, other: string)
    ensures Get(Delete(b, key), key) == 0
    ensures other != key ==> Get(Delete(b, key), other) == Get(b, other)
  {
    if |b| > 0 {
      GetAfterDelete(b[1..], key, other);
    }
  }

  lemma {:induction false} PutKeepsDistinct(b: Bets, key: string, amount: int)
    requires DistinctKeys(b)
    ensures DistinctKeys(Put(b, key, amount))
  {
    if |b| > 0 && b[0].key != key {
      PutKeepsDistinct(b[1..], key, amount);
    }
  }

  lemma {:induction false} DeleteKeepsDistinct(b: Bets, key: string)
    requires DistinctKeys(b)
    ensures DistinctKeys(Delete(b, key))
  {
    if |b| > 0 {
      DeleteKeepsDistinct(b[1..], key);
    }
  }

  /** Replacing a stake changes the total by exactly the difference. */
  lemma {:induction false} SumAfterPut(b: Bets, key: string, amount: int)
    requires DistinctKeys(b)
    ensures Sum(Put(b, key, amount)) == Sum(b) - Get(b, key) + amount
  {
    if |b| == 0 {
    } else if b[0].key == key {
      AbsentKeyNoStake(b[1..], key);
    } else {
      SumAfterPut(b[1..], key, amount);
    }
  }

  /** Deleting a stake lowers the total by exactly that stake. */
  lemma {:induction false} SumAfterDelete(b: Bets, key: string)
    requires DistinctKeys(b)
    ensures Sum(Delete(b, key)) == Sum(b) - Get(b, key)
  {
    if |b| == 0 {
    } else if b[0].key == key {
      DeleteAbsent(b[1..], key);
    } else {
      SumAfterDelete(b[1..], key);
    }
  }

  lemma AbsentKeyNoStake(b: Bets, key: string)
    requires key !in Keys(b)
    ensures Get(b, key) == 0
  {
  }

  /** Deleting an absent key changes nothing. */
  lemma {:induction false} DeleteAbsent(b: Bets, key: string)
    requires key !in Keys(b)
    ensures Delete(b, key) == b
  {
    if |b| > 0 {
      DeleteAbsent(b[1..], key);
    }
  }

  /** Every stake is positive. */
  predicate AllPositive(b: Bets) {
    forall i :: 0 <= i < |b| ==> b[i].amount > 0
  }

  lemma {:induction false} PositiveSum(b: Bets)
    requires AllPositive(b)
    ensures Sum(b) >= 0
    ensures forall key :: Get(b, key) >= 0
  {
    if |b| > 0 {
      assert AllPositive(b[1..]);
      PositiveSum(b[1..]);
    }
  }

  lemma {:induction false} PutKeepsPositive(b: Bets, key: string, amount: int)
    requires AllPositive(b) && amount > 0
    ensures AllPositive(Put(b, key, amount))
  {
    if |b| > 0 && b[0].key != key {
      assert AllPositive(b[1..]);
      PutKeepsPositive(b[1..], key, amount);
    }
  }

  /** Deleting a stake leaves only stakes that were already there. */
  lemma DeleteKeepsPositive(b: Bets, key: string)
    requires AllPositive(b)
    ensures AllPositive(Delete(b, key))
  {
    var r := Delete(b, key);
    forall i | 0 <= i < |r| ensures r[i].amount > 0 {
      assert r[i] in b;
    }
  }
}

=== FILE: lucky_draw.dfy ===
/** The lucky draw: numbers `1..maxDraws` are drawn one at a time, without
    replacement, until none is left. A draw is two steps, as in the game:
    pressing the button picks a position in the pool and starts the card
    animation; when the animation ends the number leaves the pool for the
    list of drawn numbers. */
module LuckyDraw {
  import opened Wrappers
  import opened Chance
  import opened Sorting
  import opened Arrangements

  datatype Mode = Setup | Game

  datatype Draw = Draw(
    mode: Mode,
    maxDraws: int,
    pool: seq<int>,
    drawn: seq<int>,
    currentNum: Option<int>,
    /** The position picked by a draw whose animation is running:
        `isAnimating` holds exactly while there is one. */
    pending: Option<nat>,
    justDrawn: Option<int>,
    showModal: bool,
    /** Completion timeouts scheduled by a landing that emptied the pool
        and not fired yet: each one opens the dialog when it fires, and
        neither restart nor start cancels it. */
    dialogsDue: nat)

  /** The range the dropdown offers, and its initial choice. */
  const MinDraws := 8
  const MaxDraws := 99
  const DefaultDraws := 15

  const Initial := Draw(Setup, DefaultDraws, [], [], None, None, None, false, 0)

  predicate Animating(s: Draw) {
    s.pending.Some?
  }

  /** `1, 2, …, n`. */
  function Range(n: int): (r: seq<int>)
    ensures |r| == if n < 0 then 0 else n
    ensures forall k :: 0 <= k < |r| ==> r[k] == k + 1
    decreases n
  {
    if n <= 0 then [] else Range(n - 1) + [n]
  }

  /** Each of `1..n` appears once in the range, and nothing else. */
  lemma {:induction false} RangeCounts(n: int)
    ensures forall x :: multiset(Range(n))[x] == if 1 <= x <= n then 1 else 0
    decreases n
  {
    if n > 0 {
      RangeCounts(n - 1);
      var shorter := Range(n - 1);
      assert Range(n) == shorter + [n];
      forall x ensures multiset(Range(n))[x] == if 1 <= x <= n then 1 else 0 {
        assert multiset(shorter + [n])[x] == multiset(shorter)[x] + multiset([n])[x];
      }
    }
  }

  /** The dropdown's `onChange`, offered on the setup screen only. */
  function SelectMax(s: Draw, n: int): (r: Draw)
    requires s.mode == Setup && MinDraws <= n <= MaxDraws
    ensures r.maxDraws == n && r.(maxDraws := s.maxDraws) == s
  {
    s.(maxDraws := n)
  }

  /** `startGame`: the whole range in the pool, in order, nothing drawn.
      A completion timeout still due stays due. */
  function StartGame(s: Draw): (r: Draw)
    ensures r.mode == Game && r.maxDraws == s.maxDraws
    ensures r.pool == Range(s.maxDraws) && r.drawn == []
    ensures multiset(r.pool) == multiset(Range(s.maxDraws))
    ensures !Animating(r) && !r.showModal && r.currentNum.None? && r.justDrawn.None?
    ensures r.dialogsDue == s.dialogsDue
  {
    Draw(Game, s.maxDraws, Range(s.maxDraws), [], None, None, None, false, s.dialogsDue)
  }

  /** `draw`, up to its timer: ignored while a draw is animating or when
      the pool is empty; otherwise picks the position `floor(u * |pool|)`,
      `u` being `Math.random()`, and shows the number there. */
  function Press(s: Draw, u: real): (r: Draw)
    requires 0.0 <= u < 1.0
    ensures Animating(s) || |s.pool| == 0 ==> r == s
    ensures !Animating(s) && |s.pool| > 0 ==>
      && r.pending.Some? && r.pending.value < |s.pool|
      && r.currentNum == Some(s.pool[r.pending.value])
      && r.(pending := None, currentNum := s.currentNum) == s
  {
    if Animating(s) || |s.pool| == 0 then s
    else
      var idx := ScaledIndex(u, |s.pool|);
      s.(pending := Some(idx), currentNum := Some(s.pool[idx]))
  }

  /** The end of the draw's animation: the picked number leaves the pool
      and is appended to the drawn numbers; when the pool has just become
      empty, the completion dialog is scheduled (it opens with `OpenDialog`). */
  function Land(s: Draw): (r: Draw)
    requires s.pending.Some? && s.pending.value < |s.pool|
    ensures !Animating(r)
    ensures |r.pool| == |s.pool| - 1
    ensures multiset(r.pool) + multiset{s.pool[s.pending.value]} == multiset(s.pool)
    ensures r.drawn == s.drawn + [s.pool[s.pending.value]]
    ensures r.justDrawn == Some(s.pool[s.pending.value])
    ensures r.dialogsDue > s.dialogsDue <==> |r.pool| == 0
    ensures r.dialogsDue <= s.dialogsDue + 1 && r.showModal == s.showModal
    ensures r.mode == s.mode && r.maxDraws == s.maxDraws && r.currentNum == s.currentNum
  {
    var idx := s.pending.value;
    var num := s.pool[idx];
    var newPool := Without(s.pool, idx);
    s.(pool := newPool, drawn := s.drawn + [num], justDrawn := Some(num), pending := None,
       dialogsDue := if |newPool| == 0 then s.dialogsDue + 1 else s.dialogsDue)
  }

  /** The completion timeout firing, 600 ms after the landing that
      scheduled it: the dialog opens over whatever screen is showing. */
  function OpenDialog(s: Draw): (r: Draw)
    requires s.dialogsDue > 0
    ensures r.showModal && r.dialogsDue + 1 == s.dialogsDue
    ensures r.(showModal := s.showModal, dialogsDue := s.dialogsDue) == s
  {
    s.(showModal := true, dialogsDue := s.dialogsDue - 1)
  }

  /** `restart`: back to the setup screen. */
  function Restart(s: Draw): (r: Draw)
    ensures r.mode == Setup && !r.showModal
    ensures r.(mode := s.mode, showModal := s.showModal) == s
  {
    s.(mode := Setup, showModal := false)
  }

  /** `remaining` on the counter. */
  function Remaining(s: Draw): int {
    s.maxDraws - |s.drawn|
  }

  /** `allDone`: hides the draw button and shows the restart button. */
  predicate AllDone(s: Draw) {
    |s.pool| == 0 && |s.drawn| > 0
  }

  datatype Event = Select(n: int) | Start | Press(u: real) | Land | Timeout | Restart

  /** What the screen lets the player do: the dropdown and the start
      button on the setup screen; the draw button until all is done (a
      press while animating is ignored by `draw` itself); the restart
      button of the game screen once all is done, and the dialog's own
      restart button whenever the dialog is open, on either screen. The
      end of an animation and a due completion timeout come by
      themselves. */
  predicate Offered(s: Draw, e: Event) {
    match e
    case Select(n) => s.mode == Setup && MinDraws <= n <= MaxDraws
    case Start => s.mode == Setup
    case Press(u) => s.mode == Game && !AllDone(s) && 0.0 <= u < 1.0
    case Land => Animating(s) && s.pending.value < |s.pool|
    case Timeout => s.dialogsDue > 0
    case Restart => (s.mode == Game && AllDone(s)) || s.showModal
  }

  function Step(s: Draw, e: Event): Draw
    requires Offered(s, e)
  {
    match e
    case Select(n) => SelectMax(s, n)
    case Start => StartGame(s)
    case Press(u) => Press(s, u)
    case Land => Land(s)
    case Timeout => OpenDialog(s)
    case Restart => Restart(s)
  }

  /** What every reachable state satisfies: in a game, pool and drawn
      together are the range, and a running draw points into the pool.
      The dialog being open says nothing about the pool: see
      `LateDialogOverNewGame`. */
  ghost predicate Inv(s: Draw) {
    && MinDraws <= s.maxDraws <= MaxDraws
    && (s.mode == Game ==> multiset(s.pool + s.drawn) == multiset(Range(s.maxDraws)))
    && (Animating(s) ==> s.pending.value < |s.pool| && s.currentNum == Some(s.pool[s.pending.value]))
  }

  lemma InitialInv()
    ensures Inv(Initial)
  {
  }

  lemma StepKeepsInv(s: Draw, e: Event)
    requires Inv(s) && Offered(s, e)
    ensures Inv(Step(s, e))
  {
    match e
    case Select(n) =>
    case Start =>
    case Press(u) =>
    case Land =>
      var idx := s.pending.value;
      var r := Land(s);
      assert multiset(r.pool + r.drawn) == multiset(r.pool) + multiset(s.drawn) + multiset{s.pool[idx]};
    case Timeout =>
    case Restart =>
  }

  /** Events in order, each offered in the state it meets. */
  predicate Playable(s: Draw, es: seq<Event>)
    decreases |es|
  {
    |es| == 0 || (Offered(s, es[0]) && Playable(Step(s, es[0]), es[1..]))
  }

  function Play(s: Draw, es: seq<Event>): Draw
    requires Playable(s, es)
    decreases |es|
  {
    if |es| == 0 then s else Play(Step(s, es[0]), es[1..])
  }

  lemma {:induction false} PlayKeepsInv(s: Draw, es: seq<Event>)
    requires Inv(s) && Playable(s, es)
    ensures Inv(Play(s, es))
    decreases |es|
  {
    if |es| > 0 {
      StepKeepsInv(s, es[0]);
      PlayKeepsInv(Step(s, es[0]), es[1..]);
    }
  }

  /** No number is drawn twice, and every drawn number is in the range
      and no longer in the pool. */
  lemma DrawnDistinct(s: Draw)
    requires Inv(s) && s.mode == Game
    ensures Distinct(s.pool + s.drawn) && Distinct(s.drawn)
    ensures forall x :: x in s.drawn ==> 1 <= x <= s.maxDraws && x !in s.pool
  {
    RangeCounts(s.maxDraws);
    DistinctByMultiset(s.pool + s.drawn, Range(s.maxDraws));
    var all := s.pool + s.drawn;
    forall i, j | 0 <= i < j < |s.drawn| ensures s.drawn[i] != s.drawn[j] {
      assert all[|s.pool| + i] == s.drawn[i] && all[|s.pool| + j] == s.drawn[j];
    }
    forall x | x in s.drawn ensures 1 <= x <= s.maxDraws && x !in s.pool {
      assert x in multiset(all);
      var j :| 0 <= j < |s.drawn| && s.drawn[j] == x;
      assert all[|s.pool| + j] == x;
    }
  }

  /** The counters: `remaining` is the size of the pool, and, as the range
      is never empty, all is done exactly when the pool is empty. */
  lemma Counters(s: Draw)
    requires Inv(s) && s.mode == Game
    ensures Remaining(s) == |s.pool|
    ensures AllDone(s) <==> |s.pool| == 0
    ensures AllDone(s) ==> multiset(s.drawn) == multiset(Range(s.maxDraws))
  {
    assert |multiset(s.pool + s.drawn)| == |multiset(Range(s.maxDraws))|;
    if |s.pool| == 0 {
      assert s.pool + s.drawn == s.drawn;
    }
  }

  /** The completion dialog is scheduled by the landing that empties the
      pool, and by no other. */
  lemma DialogOnLastLanding(s: Draw)
    requires Inv(s) && Animating(s)
    ensures Land(s).dialogsDue == s.dialogsDue + 1 <==> |s.pool| == 1
    ensures |s.pool| != 1 ==> Land(s).dialogsDue == s.dialogsDue
  {
  }

  /** Nothing cancels the completion timeout: a player who restarts and
      starts a new game before it fires sees the dialog open over the
      fresh, full pool of the new game. */
  lemma LateDialogOverNewGame(s: Draw)
    requires Inv(s) && s.mode == Game && Animating(s) && |s.pool| == 1 && s.dialogsDue == 0
    ensures var es := [Event.Land, Event.Restart, Event.Start, Event.Timeout];
      && Playable(s, es)
      && var r := Play(s, es);
      && r.mode == Game && r.showModal && r.drawn == []
      && r.pool == Range(r.maxDraws) && |r.pool| >= MinDraws
  {
    var es := [Event.Land, Event.Restart, Event.Start, Event.Timeout];
    var s1 := Land(s);
    assert AllDone(s1);
    var s2 := Restart(s1);
    var s3 := StartGame(s2);
    assert es[1..][1..][1..] == [Event.Timeout];
    assert Play(s3, es[1..][1..][1..]) == OpenDialog(s3);
  }

  /** From the opening screen, whatever the player does and whatever
      numbers come up, no number is ever drawn twice. */
  lemma NeverDrawnTwice(es: seq<Event>)
    requires Playable(Initial, es)
    ensures Play(Initial, es).mode == Game ==> Distinct(Play(Initial, es).drawn)
  {
    InitialInv();
    PlayKeepsInv(Initial, es);
    if Play(Initial, es).mode == Game {
      DrawnDistinct(Play(Initial, es));
    }
  }
}

=== FILE: odds.dfy ===
/** The horse-racing game's static data: the seven horses and their colour
    groups, the colour bets with their win rules and multipliers, the
    per-horse bet types, and the game and race parameters. Race distances
    are in hundredths of a track unit, so the fractional speed is an integer. */
module Odds {
  import opened Wrappers
  import opened Text

  datatype Colour = Blue | Yellow | Red | Black

  datatype Horse = Horse(id: int, colour: Colour, title: string)

  const Horses: seq<Horse> := [
    Horse(1, Blue, "1號"), Horse(2, Blue, "2號"), Horse(3, Blue, "3號"),
    Horse(4, Yellow, "4號"), Horse(5, Yellow, "5號"),
    Horse(6, Red, "6號"),
    Horse(7, Black, "7號")
  ]

  /** The horse ids in roster order (`RosterFacts` ties them to `Horses`). */
  const HorseIds: seq<int> := [1, 2, 3, 4, 5, 6, 7]

  /** The ids of the horses of one colour. */
  function ColourGroup(c: Colour): set<int> {
    set i | 0 <= i < |Horses| && Horses[i].colour == c :: Horses[i].id
  }

  /** The roster: ids 1..7 as listed in `Horses`, distinct, in order, split into the colour groups
      blue {1,2,3}, yellow {4,5}, red {6} and black {7}. */
  lemma RosterFacts()
    ensures |HorseIds| == |Horses| && forall i :: 0 <= i < |Horses| ==> HorseIds[i] == Horses[i].id
    ensures forall i, j :: 0 <= i < j < |HorseIds| ==> HorseIds[i] < HorseIds[j]
    ensures forall i :: 0 <= i < |HorseIds| ==> HorseIds[i] == i + 1
    ensures ColourGroup(Blue) == {1, 2, 3} && ColourGroup(Yellow) == {4, 5}
    ensures ColourGroup(Red) == {6} && ColourGroup(Black) == {7}
  {
    assert ColourGroup(Blue) == {1, 2, 3} by {
      assert Horses[0].colour == Blue && Horses[1].colour == Blue && Horses[2].colour == Blue;
    }
    assert ColourGroup(Yellow) == {4, 5} by {
      assert Horses[3].colour == Yellow && Horses[4].colour == Yellow;
    }
    assert ColourGroup(Red) == {6} by {
      assert Horses[5].colour == Red;
    }
    assert ColourGroup(Black) == {7} by {
      assert Horses[6].colour == Black;
    }
  }

  /** The win rule of a colour bet, evaluated against a final ranking. */
  datatype ColourRule =
    | WinnerAmong(ids: seq<int>)             // the first-ranked horse is one of `ids`
    | RankedAtOrBelow(horse: int, index: int) // `horse`'s 0-based rank is at least `index`

  datatype ColourBet = ColourBet(key: string, title: string, multiplier: nat, rule: ColourRule)

  const ColourBets: seq<ColourBet> := [
    ColourBet("colorBlue", "藍馬 Win", 2, WinnerAmong([1, 2, 3])),
    ColourBet("colorYellow", "黃馬 Win", 3, WinnerAmong([4, 5])),
    ColourBet("colorRed", "紅馬 Win", 4, WinnerAmong([6])),
    ColourBet("colorBlack", "黑馬 5名或以下", 5, RankedAtOrBelow(7, 4))
  ]

  /** Whether a colour rule holds of a final ranking. An empty ranking has
      no winner, and `indexOf` reports -1 for a horse that is absent. */
  predicate RuleHolds(rule: ColourRule, ranking: seq<int>) {
    match rule
    case WinnerAmong(ids) => |ranking| > 0 && ranking[0] in ids
    case RankedAtOrBelow(horse, index) => IndexOf(ranking, horse) >= index
  }

  /** `COLOR_BETS.find(b => b.key === key)`. */
  function FindColourBet(key: string): (r: Option<ColourBet>)
    ensures r.Some? <==> exists i :: 0 <= i < |ColourBets| && ColourBets[i].key == key
    ensures r.Some? ==> r.value in ColourBets && r.value.key == key
  {
    FindColourBetFrom(key, 0)
  }

  function FindColourBetFrom(key: string, i: nat): (r: Option<ColourBet>)
    requires i <= |ColourBets|
    ensures r.Some? <==> exists k :: i <= k < |ColourBets| && ColourBets[k].key == key
    ensures r.Some? ==> r.value in ColourBets && r.value.key == key
    decreases |ColourBets| - i
  {
    if i == |ColourBets| then None
    else if ColourBets[i].key == key then Some(ColourBets[i])
    else FindColourBetFrom(key, i + 1)
  }

  /** The four colour bets: blue pays x2 when a blue horse wins, yellow x3
      when a yellow horse wins, red x4 when the red horse wins, and black x5
      when horse 7 finishes fifth or worse. */
  lemma ColourBetRules(ranking: seq<int>)
    ensures var b := FindColourBet("colorBlue");
      b.Some? && b.value.multiplier == 2
      && (RuleHolds(b.value.rule, ranking) <==> |ranking| > 0 && ranking[0] in ColourGroup(Blue))
    ensures var b := FindColourBet("colorYellow");
      b.Some? && b.value.multiplier == 3
      && (RuleHolds(b.value.rule, ranking) <==> |ranking| > 0 && ranking[0] in ColourGroup(Yellow))
    ensures var b := FindColourBet("colorRed");
      b.Some? && b.value.multiplier == 4
      && (RuleHolds(b.value.rule, ranking) <==> |ranking| > 0 && ranking[0] == 6)
    ensures var b := FindColourBet("colorBlack");
      b.Some? && b.value.multiplier == 5
      && (RuleHolds(b.value.rule, ranking) <==> 7 in ranking && IndexOf(ranking, 7) >= 4)
  {
    BlueBet(ranking);
    YellowBet(ranking);
    RedBet(ranking);
    BlackBet(ranking);
  }

  lemma BlueBet(ranking: seq<int>)
    ensures var b := FindColourBet("colorBlue");
      b.Some? && b.value.multiplier == 2
      && (RuleHolds(b.value.rule, ranking) <==> |ranking| > 0 && ranking[0] in ColourGroup(Blue))
  {
    RosterFacts();
    FoundAt(0);
  }

  lemma YellowBet(ranking: seq<int>)
    ensures var b := FindColourBet("colorYellow");
      b.Some? && b.value.multiplier == 3
      && (RuleHolds(b.value.rule, ranking) <==> |ranking| > 0 && ranking[0] in ColourGroup(Yellow))
  {
    RosterFacts();
    FoundAt(1);
  }

  lemma RedBet(ranking: seq<int>)
    ensures var b := FindColourBet("colorRed");
      b.Some? && b.value.multiplier == 4
      && (RuleHolds(b.value.rule, ranking) <==> |ranking| > 0 && ranking[0] == 6)
  {
    FoundAt(2);
  }

  lemma BlackBet(ranking: seq<int>)
    ensures var b := FindColourBet("colorBlack");
      b.Some? && b.value.multiplier == 5
      && (RuleHolds(b.value.rule, ranking) <==> 7 in ranking && IndexOf(ranking, 7) >= 4)
  {
    FoundAt(3);
  }

  /** Each colour bet is found under its own key. */
  lemma FoundAt(i: nat)
    requires i < |ColourBets|
    ensures FindColourBet(ColourBets[i].key) == Some(ColourBets[i])
  {
    var key := ColourBets[i].key;
    // The four keys are told apart by their first seven characters
    // (`colorBl`, `colorYe`, `colorRe`), except blue and black, which
    // differ after the common `color`.
    forall j | 0 <= j < |ColourBets| && ColourBets[j].key == key ensures j == i {
      assert ColourBets[j].key[..7] != ColourBets[i].key[..7] || ColourBets[j].key[5..] != ColourBets[i].key[5..] || j == i;
    }
  }

  /** A bet on one horse: `show` wins on a top-3 finish, `place` on a top-2
      finish, `win` on first place. */
  datatype HorseBetType = HorseBetType(key: string, title: string, multiplier: nat)

  const HorseBetTypes: seq<HorseBetType> := [
    HorseBetType("show", "名次 Show", 2),
    HorseBetType("place", "位置 Place", 3),
    HorseBetType("win", "獨贏 Win", 5)
  ]

  const InitialCoins: int := 5
  const TurnIncome: int := 5
  const MinPlayers: int := 1
  const MaxPlayers: int := 5
  const MinTurns: int := 1
  const MaxTurns: int := 3

  /** 100 track units, in hundredths. */
  const TrackLength: int := 10000
  const TickMs: int := 100
  /** 0.38 track units per tick, in hundredths. */
  const BaseSpeed: int := 38
  const DiceIntervalS: int := 2
  const DiceIntervalTicks: int := DiceIntervalS * (1000 / TickMs)
  /** 4 track units, in hundredths. */
  const BoostAmount: int := 400

  /** The labels shown before the horses are released. */
  const Countdown: seq<string> := ["準備", "GO!"]

  datatype Phase = Start | Bet | Racing | Collect | Result

  /** The parameters: dice every 20 ticks, five coins to start and per turn. */
  lemma ParameterFacts()
    ensures DiceIntervalTicks == 20
    ensures InitialCoins == TurnIncome == 5
    ensures |Countdown| == 2
  {
  }
}

=== FILE: payout.dfy ===
/** The payout engine: what one bet cell pays against a final ranking, and
    the settlement of every player after a race. A payout is pure winnings:
    the stake was taken from the player's coins when the bet was placed. */
module Payout {
  import opened Wrappers
  import opened Text
  import opened Decimal
  import opened Odds
  import opened BetKeys
  import opened Ledger

  /** Whether a per-horse bet of the given type wins for a horse at 0-based
      `position` (-1 when the horse is not in the ranking). */
  predicate HorseBetWins(typeKey: string, position: int) {
    if typeKey == "show" then 0 <= position <= 2
    else if typeKey == "place" then 0 <= position <= 1
    else if typeKey == "win" then position == 0
    else false
  }

  /** `amount * multiplier` for a winning bet, nothing for a losing one. */
  function Winnings(won: bool, amount: int, multiplier: nat): (p: int)
    requires amount > 0
    ensures p >= 0 && (p > 0 <==> won && multiplier > 0)
  {
    if won then amount * multiplier else 0
  }

  /** `computePayout(betKey, amount, finalRanking)`. A per-horse key's horse
      is `parseInt` of its suffix; `NaN` never occurs in a ranking, so such a
      bet loses. */
  function ComputePayout(key: string, amount: int, ranking: seq<int>): (p: int)
    ensures amount <= 0 ==> p == 0
    ensures p >= 0
    ensures Classify(key).OtherKey? ==> p == 0
  {
    if amount <= 0 then 0
    else
      match Classify(key)
      case ColourKey(cb) =>
        Winnings(RuleHolds(cb.rule, ranking), amount, cb.multiplier)
      case HorseKey(bt, suffix) =>
        var position := match ParseInt(suffix)
          case Some(h) => IndexOf(ranking, h)
          case None => -1;
        Winnings(HorseBetWins(bt.key, position), amount, bt.multiplier)
      case OtherKey => 0
  }

  /** A per-horse bet on horse `h` pays x2 (show) when `h` is in the top
      three, x3 (place) when in the top two, x5 (win) when first; a horse
      missing from the ranking loses. */
  lemma HorseBetPayout(bt: HorseBetType, h: nat, amount: int, ranking: seq<int>)
    requires bt in HorseBetTypes && amount > 0
    ensures var p := IndexOf(ranking, h);
      var paid := ComputePayout(MakeBetKey(bt.key, Some(h)), amount, ranking);
      && (bt.key == "show" ==> paid == if 0 <= p <= 2 then amount * 2 else 0)
      && (bt.key == "place" ==> paid == if 0 <= p <= 1 then amount * 3 else 0)
      && (bt.key == "win" ==> paid == if p == 0 then amount * 5 else 0)
      && (h !in ranking ==> paid == 0)
  {
    ClassifyHorseKey(bt, h);
  }

  /** A colour bet pays its multiplier exactly when its rule holds. */
  lemma ColourBetPayout(cb: ColourBet, amount: int, ranking: seq<int>)
    requires cb in ColourBets && amount > 0
    ensures ComputePayout(MakeBetKey(cb.key, None), amount, ranking)
      == if RuleHolds(cb.rule, ranking) then amount * cb.multiplier else 0
  {
    ClassifyColourKey(cb);
  }

  /** The worked example: 3 coins on blue, horse 2 wins, the bet pays 6. */
  lemma BlueExample(ranking: seq<int>)
    requires |ranking| > 0 && ranking[0] == 2
    ensures ComputePayout("colorBlue", 3, ranking) == 6
  {
    ColourBetRules(ranking);
    RosterFacts();
  }

  /** The total a player's bets pay, summed over the entries in order. */
  function RoundPayout(b: Bets, ranking: seq<int>): (total: int)
    ensures total >= 0
    ensures |b| > 0 ==> total >= ComputePayout(b[0].key, b[0].amount, ranking)
  {
    if |b| == 0 then 0
    else ComputePayout(b[0].key, b[0].amount, ranking) + RoundPayout(b[1..], ranking)
  }

  /** The total of two runs of entries is the sum of their totals. */
  lemma {:induction false} RoundPayoutAppend(b1: Bets, b2: Bets, ranking: seq<int>)
    ensures RoundPayout(b1 + b2, ranking) == RoundPayout(b1, ranking) + RoundPayout(b2, ranking)
    decreases |b1|
  {
    if |b1| == 0 {
      assert b1 + b2 == b2;
    } else {
      assert (b1 + b2)[0] == b1[0];
      assert (b1 + b2)[1..] == b1[1..] + b2;
      RoundPayoutAppend(b1[1..], b2, ranking);
    }
  }

  /** `Object.entries` fixes no particular order that matters: the same
      entries in any order pay the same total. */
  lemma {:induction false} RoundPayoutAnyOrder(b1: Bets, b2: Bets, ranking: seq<int>)
    requires multiset(b1) == multiset(b2)
    ensures RoundPayout(b1, ranking) == RoundPayout(b2, ranking)
    decreases |b1|
  {
    if |b1| > 0 {
      var e := b1[0];
      assert e in multiset(b2);
      var i :| 0 <= i < |b2| && b2[i] == e;
      var rest := b2[..i] + b2[i + 1..];
      assert b2 == b2[..i] + ([e] + b2[i + 1..]);
      assert b1 == [e] + b1[1..];
      assert multiset(b1[1..]) == multiset(rest) by {
        assert multiset(b1) == multiset{e} + multiset(b1[1..]);
        assert multiset(b2) == multiset(b2[..i]) + multiset{e} + multiset(b2[i + 1..]);
        assert multiset(rest) == multiset(b2[..i]) + multiset(b2[i + 1..]);
        forall x ensures multiset(b1[1..])[x] == multiset(rest)[x] {
          assert multiset(b1)[x] == multiset{e}[x] + multiset(b1[1..])[x];
          assert multiset(b2)[x] == multiset{e}[x] + multiset(rest)[x];
        }
      }
      RoundPayoutAnyOrder(b1[1..], rest, ranking);
      RoundPayoutAppend(b2[..i], [e] + b2[i + 1..], ranking);
      RoundPayoutAppend(b2[..i], b2[i + 1..], ranking);
      assert ([e] + b2[i + 1..])[1..] == b2[i + 1..];
    } else {
      assert |b2| == |multiset(b2)| == 0;
    }
  }

  /** Re-staking a cell changes the round's total by exactly the change in
      that cell's payout. */
  lemma {:induction false} RoundPayoutAfterPut(b: Bets, key: string, amount: int, ranking: seq<int>)
    requires DistinctKeys(b)
    ensures RoundPayout(Put(b, key, amount), ranking) ==
      RoundPayout(b, ranking) - ComputePayout(key, Get(b, key), ranking) + ComputePayout(key, amount, ranking)
    decreases |b|
  {
    if |b| == 0 {
    } else if b[0].key == key {
      assert Put(b, key, amount)[1..] == b[1..];
    } else {
      assert Put(b, key, amount)[1..] == Put(b[1..], key, amount);
      RoundPayoutAfterPut(b[1..], key, amount, ranking);
    }
  }

  /** Removing a cell's stake lowers the round's total by exactly that
      cell's payout. */
  lemma {:induction false} RoundPayoutAfterDelete(b: Bets, key: string, ranking: seq<int>)
    requires DistinctKeys(b)
    ensures RoundPayout(Delete(b, key), ranking) ==
      RoundPayout(b, ranking) - ComputePayout(key, Get(b, key), ranking)
    decreases |b|
  {
    if |b| == 0 {
    } else if b[0].key == key {
      DeleteAbsent(b[1..], key);
    } else {
      assert Delete(b, key)[1..] == Delete(b[1..], key);
      RoundPayoutAfterDelete(b[1..], key, ranking);
    }
  }

  /** Bets that all lose pay nothing. */
  lemma {:induction false} NoWinsNoPayout(b: Bets, ranking: seq<int>)
    requires forall i :: 0 <= i < |b| ==> ComputePayout(b[i].key, b[i].amount, ranking) == 0
    ensures RoundPayout(b, ranking) == 0
  {
    if |b| > 0 {
      NoWinsNoPayout(b[1..], ranking);
    }
  }

  /** One player after settlement. */
  function SettlePlayer(p: Player, ranking: seq<int>): (q: Player)
    ensures q.id == p.id && q.name == p.name
    ensures q.lastEarned >= 0 && q.coins == p.coins + q.lastEarned
    ensures q.currentBets == []
  {
    var total := RoundPayout(p.currentBets, ranking);
    p.(lastEarned := total, coins := p.coins + total, currentBets := [])
  }

  /** `settleRound`: every player, in order, is credited what their bets
      pay, records it as `lastEarned`, and starts with no bets. */
  function SettleRound(players: seq<Player>, ranking: seq<int>): (r: seq<Player>)
    ensures |r| == |players|
    ensures forall i :: 0 <= i < |r| ==>
      && r[i].id == players[i].id && r[i].name == players[i].name
      && r[i].lastEarned == RoundPayout(players[i].currentBets, ranking)
      && r[i].coins == players[i].coins + r[i].lastEarned
      && r[i].currentBets == []
  {
    seq(|players|, i requires 0 <= i < |players| => SettlePlayer(players[i], ranking))
  }
}

=== FILE: permutations.dfy ===
/** `permutations(arr)`: every arrangement of the puzzle's numbers, built by
    taking each element in turn as the head and permuting the rest. Equal
    elements are not merged, so there are always n! arrangements. */
module Arrangements {

  function Fact(n: nat): (r: nat)
    ensures r >= 1
  {
    if n == 0 then 1 else n * Fact(n - 1)
  }

  /** `arr.slice(0, i).concat(arr.slice(i + 1))`. */
  function Without(xs: seq<int>, i: nat): (r: seq<int>)
    requires i < |xs|
    ensures |r| == |xs| - 1
    ensures multiset(r) + multiset{xs[i]} == multiset(xs)
  {
    assert xs == xs[..i] + [xs[i]] + xs[i + 1..];
    xs[..i] + xs[i + 1..]
  }

  /** `perms.map(p => [x].concat(p))`. */
  function Prepend(x: int, ps: seq<seq<int>>): (r: seq<seq<int>>)
    ensures |r| == |ps|
    ensures forall k :: 0 <= k < |r| ==> r[k] == [x] + ps[k]
  {
    seq(|ps|, k requires 0 <= k < |ps| => [x] + ps[k])
  }

  function Permutations(xs: seq<int>): (r: seq<seq<int>>)
    ensures |r| == Fact(|xs|)
    ensures forall k :: 0 <= k < |r| ==> multiset(r[k]) == multiset(xs)
    decreases |xs|, |xs| + 1
  {
    if |xs| <= 1 then [xs] else PermsFrom(xs, 0)
  }

  /** The arrangements whose head is one of `xs[i..]`, in the order the
      loop over `i` produces them. */
  function PermsFrom(xs: seq<int>, i: nat): (r: seq<seq<int>>)
    requires 1 <= |xs| && i <= |xs|
    ensures |r| == (|xs| - i) * Fact(|xs| - 1)
    ensures forall k :: 0 <= k < |r| ==> multiset(r[k]) == multiset(xs)
    decreases |xs|, |xs| - i
  {
    if i == |xs| then []
    else
      var head := Prepend(xs[i], Permutations(Without(xs, i)));
      var tail := PermsFrom(xs, i + 1);
      assert (|xs| - i) * Fact(|xs| - 1) == Fact(|xs| - 1) + (|xs| - (i + 1)) * Fact(|xs| - 1);
      assert forall k :: 0 <= k < |head| ==> multiset(head[k]) == multiset(xs) by {
        forall k | 0 <= k < |head| ensures multiset(head[k]) == multiset(xs) {
          assert head[k] == [xs[i]] + Permutations(Without(xs, i))[k];
        }
      }
      head + tail
  }

  /** The rearrangements headed by `xs[i]` all appear from position `j`
      on, for any `j <= i`. */
  lemma {:induction false} PermsFromContains(xs: seq<int>, j: nat, i: nat, q: seq<int>)
    requires j <= i < |xs|
    requires q in Prepend(xs[i], Permutations(Without(xs, i)))
    ensures q in PermsFrom(xs, j)
    decreases i - j
  {
    if j < i {
      PermsFromContains(xs, j + 1, i, q);
    }
  }

  /** Every rearrangement of `xs` is among its permutations. */
  lemma {:induction false} PermutationsComplete(xs: seq<int>, p: seq<int>)
    requires multiset(p) == multiset(xs)
    ensures p in Permutations(xs)
    decreases |xs|
  {
    assert |p| == |multiset(p)| == |xs|;
    if |xs| == 0 {
    } else if |xs| == 1 {
      assert p[0] in multiset(xs);
      assert p == [xs[0]] == xs;
    } else {
      assert p == [p[0]] + p[1..];
      assert p[0] in multiset(xs);
      var i :| 0 <= i < |xs| && xs[i] == p[0];
      var rest := Without(xs, i);
      assert multiset(p) == multiset{p[0]} + multiset(p[1..]);
      forall y ensures multiset(p[1..])[y] == multiset(rest)[y] {
        assert multiset(p)[y] == multiset{p[0]}[y] + multiset(p[1..])[y];
        assert multiset(xs)[y] == multiset(rest)[y] + multiset{xs[i]}[y];
      }
      PermutationsComplete(rest, p[1..]);
      var ps := Permutations(rest);
      var k :| 0 <= k < |ps| && ps[k] == p[1..];
      assert Prepend(xs[i], ps)[k] == p;
      PermsFromContains(xs, 0, i, p);
    }
  }
}

=== FILE: puzzle_calc.dfy ===
/** The arithmetic of the 24-style number puzzle: one binary operation on
    numbers, with `None` standing for JavaScript's `NaN`. Numbers are exact
    reals, where the original computes with doubles; the rounding of a
    division can make a double result differ from the exact one, and the
    solver's whole-number test can then judge the two differently. */
module PuzzleCalc {
  import opened Wrappers

  /** The four operators, in the order the solver tries them. */
  const Ops: seq<char> := ['+', '-', '*', '/']

  /** `calc(a, op, b)`: division by zero and an unknown operator give NaN. */
  function Calc(a: real, op: char, b: real): (r: Option<real>)
    ensures r.None? <==> op !in Ops || (op == '/' && b == 0.0)
  {
    if op == '+' then Some(a + b)
    else if op == '-' then Some(a - b)
    else if op == '*' then Some(a * b)
    else if op == '/' then (if b == 0.0 then None else Some(a / b))
    else None
  }

  /** `calc` on values that may already be NaN: NaN in, NaN out. */
  function Apply(a: Option<real>, op: char, b: Option<real>): (r: Option<real>)
    ensures a.None? || b.None? ==> r.None?
    ensures a.Some? && b.Some? ==> r == Calc(a.value, op, b.value)
  {
    if a.None? || b.None? then None else Calc(a.value, op, b.value)
  }

  /** Subtraction undoes addition and division undoes multiplication by a
      non-zero number, and the other way round. */
  lemma CalcInverses(a: real, b: real)
    ensures Calc(a, '+', b).Some? && Calc(Calc(a, '+', b).value, '-', b) == Some(a)
    ensures Calc(a, '-', b).Some? && Calc(Calc(a, '-', b).value, '+', b) == Some(a)
    ensures b != 0.0 ==> Calc(a, '*', b).Some? && Calc(Calc(a, '*', b).value, '/', b) == Some(a)
    ensures b != 0.0 ==> Calc(a, '/', b).Some? && Calc(Calc(a, '/', b).value, '*', b) == Some(a)
  {
    if b != 0.0 {
      MulThenDiv(a, b);
      DivThenMul(a, b);
    }
  }

  lemma MulThenDiv(a: real, b: real)
    requires b != 0.0
    ensures Calc(Calc(a, '*', b).value, '/', b) == Some(a)
  {
    var p := a * b;
    assert Calc(a, '*', b).value == p;
    DivOf(p, b);
    CancelFactor(a, b);
    assert Some(p / b) == Some(a);
  }

  lemma DivThenMul(a: real, b: real)
    requires b != 0.0
    ensures Calc(Calc(a, '/', b).value, '*', b) == Some(a)
  {
    var q := a / b;
    DivOf(a, b);
    assert Calc(a, '/', b).value == q;
    MulOf(q, b);
    CancelFactor(a, b);
    assert q * b == a;
    assert Some(q * b) == Some(a);
  }

  lemma MulOf(a: real, b: real)
    ensures Calc(a, '*', b) == Some(a * b)
  {
  }

  lemma DivOf(a: real, b: real)
    requires b != 0.0
    ensures Calc(a, '/', b) == Some(a / b)
  {
  }

  lemma CancelFactor(a: real, b: real)
    requires b != 0.0
    ensures a * b / b == a && a / b * b == a
  {
    assert b / b == 1.0;
    assert a * b / b == a * (b / b);
    assert a / b * b == a * (b / b);
  }
}

=== FILE: puzzle_cards.dfy ===
/** `usedCardIndices`: which number cards the typed expression has used.
    Every digit character of the expression uses up one card showing that
    digit, cards being taken from left to right. */
module CardMarks {
  import opened Decimal

  /** The digit characters of `s`, as numbers, in order. */
  function DigitValues(s: string): (r: seq<int>)
    ensures |r| <= |s|
    ensures forall k :: 0 <= k < |r| ==> 0 <= r[k] <= 9
  {
    if |s| == 0 then []
    else if IsDigit(s[0]) then [DigitValue(s[0])] + DigitValues(s[1..])
    else DigitValues(s[1..])
  }

  /** The reference marking: card `i` is marked when fewer of the cards
      before it show its number than the digits available for it. */
  function Marked(cards: seq<int>, digits: seq<int>): set<int> {
    set i | 0 <= i < |cards| && multiset(cards[..i])[cards[i]] < multiset(digits)[cards[i]]
  }

  /** A count of each value, `0` for a value never seen, as a JavaScript
      object used as a map does with `(countMap[d] || 0)`. */
  function Get(m: map<int, int>, v: int): int {
    if v in m then m[v] else 0
  }

  method UsedCardIndices(expression: string, cards: seq<int>) returns (used: set<int>)
    ensures used == Marked(cards, DigitValues(expression))
  {
    var digits := DigitValues(expression);
    var countMap: map<int, int> := map[];
    var k := 0;
    while k < |digits|
      invariant 0 <= k <= |digits|
      invariant CountsLeft(countMap, multiset(digits[..k]), multiset{})
    {
      CountOneMore(countMap, digits, k);
      countMap := countMap[digits[k] := Get(countMap, digits[k]) + 1];
      k := k + 1;
    }
    assert digits[..k] == digits;
    used := {};
    var i := 0;
    while i < |cards|
      invariant 0 <= i <= |cards|
      invariant CountsLeft(countMap, multiset(digits), multiset(cards[..i]))
      invariant used == Marked(cards[..i], digits)
    {
      var n := cards[i];
      MarkedExtends(cards, digits, i);
      TakeOne(countMap, multiset(digits), cards, i);
      if Get(countMap, n) > 0 {
        used := used + {i};
        countMap := countMap[n := Get(countMap, n) - 1];
      }
      i := i + 1;
    }
    assert cards[..i] == cards;
  }

  /** The digits of a value not yet taken when `taken` cards of that value
      have used `available` digits: never negative. */
  function Remaining(available: nat, taken: nat): nat {
    if taken < available then available - taken else 0
  }

  /** `m` holds, for every value, the digits available minus those taken
      (never below zero). */
  ghost predicate CountsLeft(m: map<int, int>, available: multiset<int>, taken: multiset<int>) {
    forall v :: Get(m, v) == Remaining(available[v], taken[v])
  }

  /** Counting the digit at `k`. */
  lemma CountOneMore(m: map<int, int>, digits: seq<int>, k: nat)
    requires k < |digits|
    requires CountsLeft(m, multiset(digits[..k]), multiset{})
    ensures CountsLeft(m[digits[k] := Get(m, digits[k]) + 1], multiset(digits[..k + 1]), multiset{})
  {
    assert digits[..k + 1] == digits[..k] + [digits[k]];
  }

  /** Taking card `i`: its count is positive exactly when digits of its
      value remain, and it then goes down by one. */
  lemma TakeOne(m: map<int, int>, available: multiset<int>, cards: seq<int>, i: nat)
    requires i < |cards|
    requires CountsLeft(m, available, multiset(cards[..i]))
    ensures Get(m, cards[i]) > 0 <==> multiset(cards[..i])[cards[i]] < available[cards[i]]
    ensures Get(m, cards[i]) > 0 ==> CountsLeft(m[cards[i] := Get(m, cards[i]) - 1], available, multiset(cards[..i + 1]))
    ensures Get(m, cards[i]) <= 0 ==> CountsLeft(m, available, multiset(cards[..i + 1]))
  {
    assert cards[..i + 1] == cards[..i] + [cards[i]];
  }

  /** The marking of one more card: the marking so far, and the new card
      exactly when its value still has digits left. */
  lemma MarkedExtends(cards: seq<int>, digits: seq<int>, i: nat)
    requires i < |cards|
    ensures Marked(cards[..i + 1], digits) ==
      Marked(cards[..i], digits)
      + (if multiset(cards[..i])[cards[i]] < multiset(digits)[cards[i]] then {i} else {})
  {
    var p := cards[..i + 1];
    assert forall j :: 0 <= j < i ==> p[..j] == cards[..i][..j] && p[j] == cards[..i][j];
    assert p[..i] == cards[..i];
  }

  /** The cards of value `v` among the first `i` that are marked. */
  function MarkedOfValue(cards: seq<int>, digits: seq<int>, v: int, i: nat): set<int>
    requires i <= |cards|
  {
    set j | j in Marked(cards, digits) && j < i && cards[j] == v
  }

  function Min(a: nat, b: nat): nat {
    if a <= b then a else b
  }

  /** As many cards of value `v` are marked as there are of them, or as
      there are digits `v` in the expression, whichever is fewer; and no
      card is marked twice, since the marking is a set of positions. */
  lemma {:induction false} MarkedCount(cards: seq<int>, digits: seq<int>, v: int, i: nat)
    requires i <= |cards|
    ensures |MarkedOfValue(cards, digits, v, i)| == Min(multiset(cards[..i])[v], multiset(digits)[v])
  {
    if i == 0 {
      assert MarkedOfValue(cards, digits, v, 0) == {};
    } else {
      MarkedCount(cards, digits, v, i - 1);
      MarkedOfValueStep(cards, digits, v, i - 1);
      assert cards[..i] == cards[..i - 1] + [cards[i - 1]];
    }
  }

  /** Card `i` joins the marked cards of value `v` exactly when it shows
      `v` and is marked. */
  lemma MarkedOfValueStep(cards: seq<int>, digits: seq<int>, v: int, i: nat)
    requires i < |cards|
    ensures i !in MarkedOfValue(cards, digits, v, i)
    ensures MarkedOfValue(cards, digits, v, i + 1) ==
      MarkedOfValue(cards, digits, v, i)
      + (if cards[i] == v && multiset(cards[..i])[v] < multiset(digits)[v] then {i} else {})
  {
  }

  /** Only cards are marked. */
  lemma MarkedAreCards(cards: seq<int>, digits: seq<int>, i: int)
    requires i in Marked(cards, digits)
    ensures 0 <= i < |cards| && cards[i] in digits
  {
    assert multiset(digits)[cards[i]] > 0;
  }
}

=== FILE: puzzle_clock.dfy ===
/** `formatTime(s)`: elapsed seconds as minutes and seconds, each padded to
    two digits, separated by a colon. */
module PuzzleClock {
  import opened Wrappers
  import opened Decimal

  /** `${n < 10 ? '0' : ''}${n}`. */
  function Pad2(n: nat): (s: string)
    ensures |s| >= 2 && AllDigits(s) && DigitsValue(s) == n
    ensures |s| == 2 <==> n < 100
    ensures s[0] == '0' <==> n < 10
  {
    DigitsValueOfNatToString(n);
    if n < 10 then
      var s := "0" + NatToString(n);
      assert s[..1] == "0";
      s
    else
      assert NatToString(n) == NatToString(n / 10) + [DigitChar(n % 10)];
      NatToString(n)
  }

  function FormatTime(secs: nat): (t: string)
    ensures ReadClock(t) == Some(secs)
    ensures secs < 6000 <==> |t| == 5
    ensures t[0] == '0' <==> secs < 600
    ensures t[|t| - 2] == '0' <==> secs % 60 < 10
  {
    var t := Pad2(secs / 60) + ":" + Pad2(secs % 60);
    ColonAfterDigits(Pad2(secs / 60), Pad2(secs % 60));
    assert t[..|Pad2(secs / 60)|] == Pad2(secs / 60);
    assert t[|Pad2(secs / 60)| + 1..] == Pad2(secs % 60);
    t
  }

  /** The first position of `c` in `s`. */
  function Find(s: string, c: char): (r: Option<nat>)
    ensures r.Some? ==> r.value < |s| && s[r.value] == c && c !in s[..r.value]
    ensures r.None? ==> c !in s
  {
    if |s| == 0 then None
    else if s[0] == c then Some(0)
    else match Find(s[1..], c)
      case None => None
      case Some(i) =>
        assert s[..i + 1] == [s[0]] + s[1..][..i];
        Some(i + 1)
  }

  lemma ColonAfterDigits(d: string, rest: string)
    requires AllDigits(d)
    ensures Find(d + ":" + rest, ':') == Some(|d|)
  {
    var s := d + ":" + rest;
    assert s[..|d|] == d;
    assert s[|d|] == ':';
    assert s[|d|] in s;
  }

  /** The reading of a clock: minutes (two digits or more), a colon, and
      two digits of seconds below 60. */
  function ReadClock(t: string): Option<nat> {
    match Find(t, ':')
    case None => None
    case Some(i) =>
      var minutes, seconds := t[..i], t[i + 1..];
      if |minutes| >= 2 && AllDigits(minutes) && |seconds| == 2 && AllDigits(seconds)
         && DigitsValue(seconds) < 60
      then Some(DigitsValue(minutes) * 60 + DigitsValue(seconds))
      else None
  }

  /** Distinct times are shown differently. */
  lemma FormatTimeInjective(a: nat, b: nat)
    requires FormatTime(a) == FormatTime(b)
    ensures a == b
  {
    assert ReadClock(FormatTime(a)) == Some(a);
  }
}

=== FILE: puzzle_screen.dfy ===
/** The puzzle screen: the expression typed with the cards and the keypad,
    the feedback line, and the solved / gave-up flags that lock the input.
    Evaluating the expression is a foreign call: its outcome is a
    parameter of `CheckAnswer`. */
module PuzzleScreen {
  import opened Wrappers
  import opened Text
  import opened Decimal
  import opened Sorting

  datatype Tone = Plain | Error | Success | Info

  datatype Message =
    | NoMessage
    | EnterExpression
    | InvalidCharacters
    | UseFourNumbers
    | UseGivenNumbers
    | Malformed
    | NotFinite
    | Correct(time: nat)
    | WrongResult(result: real, target: int)
    | OneSolution

  datatype Feedback = Feedback(tone: Tone, msg: Message)

  const Cleared := Feedback(Plain, NoMessage)

  datatype Screen = Screen(
    expression: string,
    feedback: Feedback,
    solved: bool,
    gaveUp: bool,
    showSolution: bool,
    streak: nat,
    bestTime: Option<nat>)

  /** Input is refused once the puzzle is solved or given up. */
  predicate Locked(s: Screen) {
    s.solved || s.gaveUp
  }

  /** The screen before the first puzzle. */
  const FirstScreen := Screen("", Cleared, false, false, false, 0, None)

  /** `startNewGame`: a clean, unlocked screen; streak and best time stay. */
  function NewGame(s: Screen): (r: Screen)
    ensures !Locked(r) && r.expression == "" && r.feedback == Cleared && !r.showSolution
    ensures r.streak == s.streak && r.bestTime == s.bestTime
  {
    s.(expression := "", feedback := Cleared, solved := false, gaveUp := false, showSolution := false)
  }

  /** `insertChar`: a card inserts its number's text, a key one character. */
  function InsertChar(s: Screen, text: string): (r: Screen)
    ensures Locked(s) ==> r == s
    ensures !Locked(s) ==> r.expression == s.expression + text
    ensures r.(expression := s.expression) == s
  {
    if Locked(s) then s else s.(expression := s.expression + text)
  }

  /** `backspace`: drop the last character, if any. */
  function Backspace(s: Screen): (r: Screen)
    ensures Locked(s) || s.expression == "" ==> r == s
    ensures !Locked(s) && s.expression != "" ==>
      r.expression + [s.expression[|s.expression| - 1]] == s.expression
    ensures r.(expression := s.expression) == s
  {
    if Locked(s) || s.expression == "" then s
    else s.(expression := s.expression[..|s.expression| - 1])
  }

  /** `clearInput`: empty expression and no feedback. */
  function ClearInput(s: Screen): (r: Screen)
    ensures Locked(s) ==> r == s
    ensures !Locked(s) ==> r.expression == "" && r.feedback == Cleared
    ensures r.(expression := s.expression, feedback := s.feedback) == s
  {
    if Locked(s) then s else s.(expression := "", feedback := Cleared)
  }

  /** Backspace takes back exactly the character a key inserted. */
  lemma BackspaceUndoesInsert(s: Screen, c: char)
    requires !Locked(s)
    ensures Backspace(InsertChar(s, [c])) == s
  {
    var t := InsertChar(s, [c]);
    assert t.expression[..|t.expression| - 1] == s.expression;
  }

  /** Every input helper leaves a locked screen as it is, and keeps it
      locked. */
  lemma LockedIgnoresInput(s: Screen, text: string)
    requires Locked(s)
    ensures InsertChar(s, text) == s && Backspace(s) == s && ClearInput(s) == s
    ensures GiveUp(s) == s
    ensures forall numbers, target, elapsed, outcome :: CheckAnswer(s, numbers, target, elapsed, outcome) == s
  {
  }

  /** `×`, `÷` and `−` as typed on the keypad, in the ASCII the evaluator
      reads. */
  function Normalize(s: string): (r: string)
    ensures |r| == |s|
    ensures forall k :: 0 <= k < |s| ==> r[k] == AsciiOperator(s[k])
  {
    if |s| == 0 then "" else [AsciiOperator(s[0])] + Normalize(s[1..])
  }

  function AsciiOperator(c: char): char {
    if c == '\U{00D7}' then '*'
    else if c == '\U{00F7}' then '/'
    else if c == '\U{2212}' then '-'
    else c
  }

  /** The characters an expression may hold: digits, white space,
      operators, parentheses and the decimal point. */
  predicate AllowedChar(c: char) {
    IsDigit(c) || IsWhitespace(c) || c in "+-*/()."
  }

  /** The numbers written in `s`: its maximal runs of digits, read in
      base ten. */
  function NumberTokens(s: string): (r: seq<nat>)
    ensures |r| <= |s|
    decreases |s|
  {
    if |s| == 0 then []
    else if !IsDigit(s[0]) then NumberTokens(s[1..])
    else
      var d := LeadingDigits(s);
      assert d[0] == s[0];
      [DigitsValue(d)] + NumberTokens(s[|d|..])
  }

  /** `numbers` written out with `op` between them. */
  function Join(ns: seq<nat>, op: char): string {
    if |ns| == 0 then ""
    else if |ns| == 1 then NatToString(ns[0])
    else NatToString(ns[0]) + ([op] + Join(ns[1..], op))
  }

  /** The numbers of an expression written from a list of numbers are that
      list. */
  lemma {:induction false} TokensOfJoin(ns: seq<nat>, op: char)
    requires !IsDigit(op)
    ensures NumberTokens(Join(ns, op)) == ns
  {
    if |ns| > 0 {
      var d := NatToString(ns[0]);
      DigitsValueOfNatToString(ns[0]);
      if |ns| == 1 {
        assert Join(ns, op) == d + "";
        TokensAfterRun(d, "");
      } else {
        var rest := Join(ns[1..], op);
        assert Join(ns, op) == d + ([op] + rest);
        TokensAfterRun(d, [op] + rest);
        assert ([op] + rest)[1..] == rest;
        TokensOfJoin(ns[1..], op);
        assert ns == [ns[0]] + ns[1..];
      }
    }
  }

  /** A run of digits followed by a non-digit, or by nothing, is one token
      before the tokens of what follows. */
  lemma TokensAfterRun(d: string, rest: string)
    requires |d| > 0 && AllDigits(d)
    requires |rest| > 0 ==> !IsDigit(rest[0])
    ensures NumberTokens(d + rest) == [DigitsValue(d)] + NumberTokens(rest)
    ensures |rest| > 0 ==> NumberTokens(rest) == NumberTokens(rest[1..])
  {
    LeadingDigitsOfDigits(d, rest);
    assert (d + rest)[0] == d[0];
    assert (d + rest)[|d|..] == rest;
  }

  datatype Verdict = Rejected(reason: Message) | Accepted(expr: string)

  /** The checks `checkAnswer` makes before evaluating: something typed,
      only allowed characters, exactly four numbers, and those numbers
      are the puzzle's in some order (both lists sorted ascending must
      agree). */
  function Precheck(expression: string, numbers: seq<int>): Verdict {
    var raw := Trim(expression);
    if raw == "" then Rejected(EnterExpression)
    else
      var expr := Normalize(raw);
      if !forall k :: 0 <= k < |expr| ==> AllowedChar(expr[k]) then Rejected(InvalidCharacters)
      else
        var tokens := NumberTokens(expr);
        if |tokens| != 4 then Rejected(UseFourNumbers)
        else if Sort(tokens, Ascending) != Sort(numbers, Ascending) then Rejected(UseGivenNumbers)
        else Accepted(expr)
  }

  /** `(a, b) => a - b` as an order. */
  function Ascending(a: int, b: int): bool {
    a <= b
  }

  lemma AscendingIsTotal()
    ensures IsTotalOrder(Ascending)
  {
  }

  /** Sorting both lists and comparing them is comparing them as
      multisets. */
  lemma SameSorted(xs: seq<int>, ys: seq<int>)
    ensures Sort(xs, Ascending) == Sort(ys, Ascending) <==> multiset(xs) == multiset(ys)
  {
    AscendingIsTotal();
    if multiset(xs) == multiset(ys) {
      SortSorted(xs, Ascending);
      SortedPermutationIsSort(ys, Sort(xs, Ascending), Ascending);
    }
  }

  /** The expression reaches evaluation exactly when it is non-blank, uses
      only allowed characters and holds the puzzle's numbers, each as
      often as the puzzle has it and no other. */
  lemma PrecheckAccepts(expression: string, numbers: seq<int>)
    ensures Precheck(expression, numbers).Accepted? <==>
      var expr := Normalize(Trim(expression));
      && Trim(expression) != ""
      && (forall k :: 0 <= k < |expr| ==> AllowedChar(expr[k]))
      && |NumberTokens(expr)| == 4
      && multiset(NumberTokens(expr)) == multiset(numbers)
    ensures Precheck(expression, numbers).Accepted? ==>
      Precheck(expression, numbers).expr == Normalize(Trim(expression))
  {
    SameSorted(NumberTokens(Normalize(Trim(expression))), numbers);
  }

  /** An expression accepted for a puzzle of four numbers uses each number
      as a token exactly as often as the puzzle shows it. */
  lemma AcceptedUsesEachNumber(expression: string, numbers: seq<int>, v: int)
    requires Precheck(expression, numbers).Accepted?
    ensures multiset(NumberTokens(Normalize(Trim(expression))))[v] == multiset(numbers)[v]
    ensures |numbers| == 4
  {
    PrecheckAccepts(expression, numbers);
    var tokens := NumberTokens(Normalize(Trim(expression)));
    assert |numbers| == |multiset(numbers)| == |multiset(tokens)| == |tokens|;
  }

  /** Writing the puzzle's numbers with an operator between them passes the
      precheck. */
  lemma JoinedNumbersAccepted(ns: seq<nat>, op: char)
    requires |ns| == 4 && op in "+-*/"
    ensures Precheck(Join(ns, op), ns) == Accepted(Join(ns, op))
  {
    var s := Join(ns, op);
    JoinAllowed(ns, op);
    JoinStartsWithDigit(ns, op);
    TrimOfUnpadded(s);
    NormalizeAscii(s);
    TokensOfJoin(ns, op);
    PrecheckAccepts(s, ns);
  }

  lemma {:induction false} JoinAllowed(ns: seq<nat>, op: char)
    requires op in "+-*/"
    ensures forall k :: 0 <= k < |Join(ns, op)| ==> AllowedChar(Join(ns, op)[k]) && IsAscii(Join(ns, op)[k])
  {
    if |ns| > 1 {
      JoinAllowed(ns[1..], op);
      var d := NatToString(ns[0]);
      var s := Join(ns, op);
      forall k | 0 <= k < |s| ensures AllowedChar(s[k]) && IsAscii(s[k]) {
        if k < |d| {
          assert s[k] == d[k];
        } else if k > |d| {
          assert s[k] == Join(ns[1..], op)[k - |d| - 1];
        }
      }
    }
  }

  /** A non-empty join starts and ends with a digit. */
  lemma {:induction false} JoinStartsWithDigit(ns: seq<nat>, op: char)
    requires |ns| > 0
    ensures |Join(ns, op)| > 0 && IsDigit(Join(ns, op)[0]) && IsDigit(Join(ns, op)[|Join(ns, op)| - 1])
  {
    if |ns| > 1 {
      JoinStartsWithDigit(ns[1..], op);
      var s := Join(ns, op);
      var t := Join(ns[1..], op);
      assert s[|s| - 1] == t[|t| - 1];
    }
  }

  predicate IsAscii(c: char) {
    c < '\U{0080}'
  }

  lemma NormalizeAscii(s: string)
    requires forall k :: 0 <= k < |s| ==> IsAscii(s[k])
    ensures Normalize(s) == s
  {
  }

  lemma TrimOfUnpadded(s: string)
    requires |s| > 0 && IsDigit(s[0]) && IsDigit(s[|s| - 1])
    ensures Trim(s) == s
  {
    assert SkipSpace(s, 0) == 0;
    assert SkipSpaceBack(s, |s|) == |s|;
  }

  /** What evaluating the accepted expression gave: it threw (a syntax
      error, such as unbalanced parentheses), or a number that is finite or
      not. */
  datatype Outcome = Threw | Infinite | Finite(value: real)

  /** The tolerance for matching the target. */
  const Tolerance: real := 0.000001

  function Abs(x: real): real {
    if x < 0.0 then -x else x
  }

  /** `checkAnswer` on the puzzle `numbers` with `target`, `elapsed`
      seconds after the puzzle appeared. */
  function CheckAnswer(s: Screen, numbers: seq<int>, target: int, elapsed: nat, outcome: Outcome): (r: Screen)
    ensures r.expression == s.expression && r.gaveUp == s.gaveUp && r.showSolution == s.showSolution
    ensures r.solved <==> s.solved || (!Locked(s) && Hits(Precheck(s.expression, numbers), outcome, target))
    ensures r.streak == (if r.solved && !s.solved then s.streak + 1 else s.streak)
    ensures r.solved && !s.solved ==>
      (&& r.bestTime.Some? && r.bestTime.value <= elapsed
       && (s.bestTime.Some? ==> r.bestTime.value <= s.bestTime.value)
       && (r.bestTime.value == elapsed || r.bestTime == s.bestTime))
    ensures !(r.solved && !s.solved) ==> r.bestTime == s.bestTime
    ensures !Locked(s) && !r.solved ==> r.feedback.tone == Error
  {
    if Locked(s) then s
    else
      var verdict := Precheck(s.expression, numbers);
      Judge(s, verdict, target, elapsed, outcome)
  }

  /** The answer judged, once the precheck has given its verdict. */
  function Judge(s: Screen, verdict: Verdict, target: int, elapsed: nat, outcome: Outcome): (r: Screen)
    requires !Locked(s)
    ensures r.expression == s.expression && r.gaveUp == s.gaveUp && r.showSolution == s.showSolution
    ensures r.solved <==> Hits(verdict, outcome, target)
    ensures r.streak == (if r.solved then s.streak + 1 else s.streak)
    ensures r.solved ==>
      (&& r.bestTime.Some? && r.bestTime.value <= elapsed
       && (s.bestTime.Some? ==> r.bestTime.value <= s.bestTime.value)
       && (r.bestTime.value == elapsed || r.bestTime == s.bestTime))
    ensures !r.solved ==> r.bestTime == s.bestTime && r.feedback.tone == Error
  {
    if Hits(verdict, outcome, target) then Solve(s, elapsed)
    else s.(feedback := Feedback(Error, Complaint(verdict, outcome, target)))
  }

  /** Marks the puzzle solved after `elapsed` seconds. */
  function Solve(s: Screen, elapsed: nat): (r: Screen)
    ensures r.solved && r.streak == s.streak + 1 && r.feedback == Feedback(Success, Correct(elapsed))
    ensures r.bestTime.Some? && r.bestTime.value <= elapsed
    ensures s.bestTime.Some? ==> r.bestTime.value <= s.bestTime.value
    ensures r.bestTime.value == elapsed || r.bestTime == s.bestTime
    ensures r.(solved := s.solved, streak := s.streak, bestTime := s.bestTime, feedback := s.feedback) == s
  {
    var best := if s.bestTime.None? || elapsed < s.bestTime.value then elapsed else s.bestTime.value;
    s.(solved := true, streak := s.streak + 1, bestTime := Some(best),
       feedback := Feedback(Success, Correct(elapsed)))
  }

  /** The message for an answer that does not reach the target: the
      precheck's reason, a syntax error, a non-finite value, or the value
      reached. */
  function Complaint(verdict: Verdict, outcome: Outcome, target: int): Message
    requires !Hits(verdict, outcome, target)
  {
    match verdict
    case Rejected(why) => why
    case Accepted(_) =>
      match outcome
      case Threw => Malformed
      case Infinite => NotFinite
      case Finite(v) => WrongResult(v, target)
  }

  /** The expression passed the precheck and evaluated to the target. */
  predicate Hits(v: Verdict, outcome: Outcome, target: int) {
    v.Accepted? && outcome.Finite? && Abs(outcome.value - target as real) < Tolerance
  }

  /** A puzzle is only ever solved with its own four numbers. */
  lemma SolvedUsesThePuzzleNumbers(s: Screen, numbers: seq<int>, target: int, elapsed: nat, outcome: Outcome)
    requires !s.solved && CheckAnswer(s, numbers, target, elapsed, outcome).solved
    ensures |numbers| == 4
    ensures multiset(NumberTokens(Normalize(Trim(s.expression)))) == multiset(numbers)
  {
    PrecheckAccepts(s.expression, numbers);
    AcceptedUsesEachNumber(s.expression, numbers, 0);
  }

  /** `giveUp`: lock the screen, reset the streak and show a solution. */
  function GiveUp(s: Screen): (r: Screen)
    ensures Locked(s) ==> r == s
    ensures !Locked(s) ==>
      Locked(r) && !r.solved && r.streak == 0 && r.showSolution && r.feedback == Feedback(Info, OneSolution)
    ensures r.expression == s.expression && r.bestTime == s.bestTime
  {
    if Locked(s) then s
    else s.(gaveUp := true, streak := 0, feedback := Feedback(Info, OneSolution), showSolution := true)
  }

  /** The best time is the smallest time among the puzzles solved: after
      any sequence of answers it never exceeds an earlier best. */
  lemma BestTimeNeverGrows(s: Screen, numbers: seq<int>, target: int, elapsed: nat, outcome: Outcome)
    requires s.bestTime.Some?
    ensures CheckAnswer(s, numbers, target, elapsed, outcome).bestTime.Some?
    ensures CheckAnswer(s, numbers, target, elapsed, outcome).bestTime.value <= s.bestTime.value
  {
  }
}

=== FILE: puzzle_solutions.dfy ===
/** `findSolutions` and `generatePuzzle`: every target from 1 to 100 that
    some bracketing of some arrangement of the four numbers reaches, with
    the first expression found for it; then a target drawn from those.
    A solution is kept as the expression tree it was found as rather than
    as its rendering, and values are exact reals. */
module PuzzleSolutions {
  import opened Wrappers
  import opened Chance
  import opened PuzzleCalc
  import opened Arrangements

  /** One candidate expression: an arrangement of the numbers, the three
      operators in the order they are written, and which of the five
      bracketings is meant. */
  datatype Tree = Tree(nums: seq<int>, o1: char, o2: char, o3: char, shape: nat)

  /** The candidate's value, `None` for NaN. With fewer than four numbers
      the missing ones are `undefined` and every bracketing gives NaN. */
  function Value(t: Tree): Option<real> {
    if |t.nums| < 4 then None
    else
      var a, b, c, d := Some(t.nums[0] as real), Some(t.nums[1] as real),
                        Some(t.nums[2] as real), Some(t.nums[3] as real);
      match t.shape
      case 0 => Apply(Apply(Apply(a, t.o1, b), t.o2, c), t.o3, d)     // ((a o1 b) o2 c) o3 d
      case 1 => Apply(Apply(a, t.o1, Apply(b, t.o2, c)), t.o3, d)     // (a o1 (b o2 c)) o3 d
      case 2 => Apply(Apply(a, t.o1, b), t.o2, Apply(c, t.o3, d))     // (a o1 b) o2 (c o3 d)
      case 3 => Apply(a, t.o1, Apply(Apply(b, t.o2, c), t.o3, d))     // a o1 ((b o2 c) o3 d)
      case 4 => Apply(a, t.o1, Apply(b, t.o2, Apply(c, t.o3, d)))     // a o1 (b o2 (c o3 d))
      case _ => None
  }

  /** The target a candidate reaches, if it is a whole number from 1 to
      100; `None` when the candidate is filtered out. */
  function Target(t: Tree): (r: Option<int>)
    ensures forall k: int :: r == Some(k) <==> 1 <= k <= 100 && Value(t) == Some(k as real)
  {
    var v := Value(t);
    if v.Some? && 0.0 < v.value <= 100.0 && v.value == v.value.Floor as real then Some(v.value.Floor)
    else None
  }

  /** Every candidate in the order the nested loops visit them: each
      arrangement, then each first, second and third operator, then each
      bracketing. */
  function Candidates(nums: seq<int>): (ts: seq<Tree>)
    ensures |ts| == |Permutations(nums)| * 320
    ensures forall j :: 0 <= j < |ts| ==> multiset(ts[j].nums) == multiset(nums)
  {
    var ps := Permutations(nums);
    seq(|ps| * 320, j requires 0 <= j < |ps| * 320 =>
      Tree(ps[j / 320], Ops[j / 80 % 4], Ops[j / 20 % 4], Ops[j / 5 % 4], j % 5))
  }

  /** The candidate visited for arrangement `p`, operators `Ops[i1]`,
      `Ops[i2]`, `Ops[i3]` and bracketing `shape`. */
  lemma CandidateAt(nums: seq<int>, p: nat, i1: nat, i2: nat, i3: nat, shape: nat)
    requires p < |Permutations(nums)| && i1 < 4 && i2 < 4 && i3 < 4 && shape < 5
    ensures var j := p * 320 + i1 * 80 + i2 * 20 + i3 * 5 + shape;
      && j < |Candidates(nums)|
      && Candidates(nums)[j] == Tree(Permutations(nums)[p], Ops[i1], Ops[i2], Ops[i3], shape)
  {
    LoopPosition(p, i1, i2, i3, shape);
  }

  /** Decoding the position of a candidate in the nested loops. */
  lemma LoopPosition(p: nat, i1: nat, i2: nat, i3: nat, shape: nat)
    requires i1 < 4 && i2 < 4 && i3 < 4 && shape < 5
    ensures var j := p * 320 + i1 * 80 + i2 * 20 + i3 * 5 + shape;
      j / 320 == p && j / 80 % 4 == i1 && j / 20 % 4 == i2 && j / 5 % 4 == i3 && j % 5 == shape
  {
    var j := p * 320 + i1 * 80 + i2 * 20 + i3 * 5 + shape;
    DivMod(j, 320, p, i1 * 80 + i2 * 20 + i3 * 5 + shape);
    DivMod(j, 80, p * 4 + i1, i2 * 20 + i3 * 5 + shape);
    DivMod(p * 4 + i1, 4, p, i1);
    DivMod(j, 20, p * 16 + i1 * 4 + i2, i3 * 5 + shape);
    DivMod(p * 16 + i1 * 4 + i2, 4, p * 4 + i1, i2);
    DivMod(j, 5, p * 64 + i1 * 16 + i2 * 4 + i3, shape);
    DivMod(p * 64 + i1 * 16 + i2 * 4 + i3, 4, p * 16 + i1 * 4 + i2, i3);
  }

  /** Quotient and remainder are the unique pair that rebuilds `x`. */
  lemma DivMod(x: int, d: int, q: int, r: int)
    requires d > 0 && 0 <= r < d && x == q * d + r
    ensures x / d == q && x % d == r
  {
    var q', r' := x / d, x % d;
    assert x == d * q' + r';
    assert d * (q' - q) == r - r';
    if q' > q {
      MulAtLeast(d, q' - q);
    }
    if q' < q {
      MulAtLeast(d, q - q');
    }
  }

  lemma {:induction false} MulAtLeast(d: int, k: int)
    requires d > 0 && k >= 1
    ensures d * k >= d
    decreases k
  {
    if k > 1 {
      MulAtLeast(d, k - 1);
      assert d * k == d * (k - 1) + d;
    }
  }

  /** One step of the loop body: record `t` under its target unless that
      target already has an expression. */
  function Record(sols: map<int, Tree>, t: Tree): (r: map<int, Tree>)
    ensures forall k :: k in sols ==> k in r && r[k] == sols[k]
    ensures forall k :: k in r && k !in sols ==> Target(t) == Some(k) && r[k] == t
    ensures Target(t).Some? ==> Target(t).value in r
  {
    match Target(t)
    case Some(k) => if k in sols then sols else sols[k := t]
    case None => sols
  }

  function Collect(ts: seq<Tree>, sols: map<int, Tree>): (r: map<int, Tree>)
    ensures forall k :: k in r ==> (k in sols && r[k] == sols[k]) || (r[k] in ts && Target(r[k]) == Some(k))
  {
    if |ts| == 0 then sols else Collect(ts[1..], Record(sols, ts[0]))
  }

  /** The reference definition of "the first expression found for `k`":
      the smallest index whose candidate reaches `k`. */
  function FirstIndex(ts: seq<Tree>, k: int): (r: Option<nat>)
    ensures r.Some? ==> r.value < |ts| && Target(ts[r.value]) == Some(k)
    ensures r.Some? ==> forall i :: 0 <= i < r.value ==> Target(ts[i]) != Some(k)
    ensures r.None? ==> forall i :: 0 <= i < |ts| ==> Target(ts[i]) != Some(k)
  {
    if |ts| == 0 then None
    else if Target(ts[0]) == Some(k) then Some(0)
    else match FirstIndex(ts[1..], k)
      case None => None
      case Some(i) => Some(i + 1)
  }

  /** `findSolutions(nums)`. */
  function FindSolutions(nums: seq<int>): (sols: map<int, Tree>)
    ensures forall k :: k in sols ==>
      && 1 <= k <= 100
      && Value(sols[k]) == Some(k as real)
      && multiset(sols[k].nums) == multiset(nums)
  {
    Collect(Candidates(nums), map[])
  }

  /** The loop keeps the first expression it finds for a target and never
      overwrites it. */
  lemma {:induction false} CollectKeepsFirst(ts: seq<Tree>, sols: map<int, Tree>, k: int)
    ensures k in Collect(ts, sols) <==> k in sols || FirstIndex(ts, k).Some?
    ensures k in Collect(ts, sols) ==>
      Collect(ts, sols)[k] == if k in sols then sols[k] else ts[FirstIndex(ts, k).value]
  {
    if |ts| > 0 {
      CollectKeepsFirst(ts[1..], Record(sols, ts[0]), k);
      var f := FirstIndex(ts[1..], k);
      if f.Some? {
        assert ts[1..][f.value] == ts[f.value + 1];
      }
    }
  }

  /** A target is among the solutions exactly when some candidate reaches
      it, and its expression is the first such candidate. */
  lemma FindSolutionsFirst(nums: seq<int>, k: int)
    ensures k in FindSolutions(nums) <==> FirstIndex(Candidates(nums), k).Some?
    ensures k in FindSolutions(nums) ==>
      FindSolutions(nums)[k] == Candidates(nums)[FirstIndex(Candidates(nums), k).value]
  {
    CollectKeepsFirst(Candidates(nums), map[], k);
  }

  /** Any target some candidate reaches is among the solutions. */
  lemma ReachedIsSolution(nums: seq<int>, j: nat, k: int)
    requires j < |Candidates(nums)| && Target(Candidates(nums)[j]) == Some(k)
    ensures k in FindSolutions(nums)
  {
    FindSolutionsFirst(nums, k);
  }

  /** Four numbers from 1 to 9 always reach their sum, written in the given
      order with three additions, so `findSolutions` is never empty. */
  lemma SumIsSolution(nums: seq<int>)
    requires |nums| == 4 && forall i :: 0 <= i < 4 ==> 1 <= nums[i] <= 9
    ensures nums[0] + nums[1] + nums[2] + nums[3] in FindSolutions(nums)
  {
    var p := IdentityArrangement(nums);
    CandidateAt(nums, p, 0, 0, 0, 0);
    SumTarget(nums);
    ReachedIsSolution(nums, p * 320, nums[0] + nums[1] + nums[2] + nums[3]);
  }

  /** Where `nums` itself sits among its arrangements. */
  lemma IdentityArrangement(nums: seq<int>) returns (p: nat)
    ensures p < |Permutations(nums)| && Permutations(nums)[p] == nums
  {
    PermutationsComplete(nums, nums);
    var ps := Permutations(nums);
    p :| 0 <= p < |ps| && ps[p] == nums;
  }

  lemma SumTarget(nums: seq<int>)
    requires |nums| == 4 && forall i :: 0 <= i < 4 ==> 1 <= nums[i] <= 9
    ensures Target(Tree(nums, '+', '+', '+', 0)) == Some(nums[0] + nums[1] + nums[2] + nums[3])
  {
    var a, b, c, d := nums[0] as real, nums[1] as real, nums[2] as real, nums[3] as real;
    assert Apply(Some(a), '+', Some(b)) == Some(a + b);
    assert Apply(Some(a + b), '+', Some(c)) == Some(a + b + c);
    assert Apply(Some(a + b + c), '+', Some(d)) == Some(a + b + c + d);
    assert Value(Tree(nums, '+', '+', '+', 0)) == Some((nums[0] + nums[1] + nums[2] + nums[3]) as real);
  }

  /** The keys of `sols` from `lo` to `hi`, ascending: the order in which
      `Object.keys` lists integer keys. */
  function KeysAscending(sols: map<int, Tree>, lo: int, hi: int): (r: seq<int>)
    ensures forall i :: 0 <= i < |r| ==> lo <= r[i] <= hi && r[i] in sols
    ensures forall k :: lo <= k <= hi && k in sols ==> k in r
    ensures forall i, j :: 0 <= i < j < |r| ==> r[i] < r[j]
    decreases hi - lo
  {
    if lo > hi then []
    else
      var rest := KeysAscending(sols, lo + 1, hi);
      if lo in sols then [lo] + rest else rest
  }

  /** `keys.filter(k => k >= 5 && k <= 80)`. */
  function Preferred(keys: seq<int>): (r: seq<int>)
    ensures forall x :: x in r <==> x in keys && 5 <= x <= 80
  {
    if |keys| == 0 then []
    else (if 5 <= keys[0] <= 80 then [keys[0]] else []) + Preferred(keys[1..])
  }

  datatype Puzzle = Puzzle(numbers: seq<int>, target: int, solution: Tree)

  /** A puzzle whose shown solution reaches its target with its numbers. */
  predicate Solvable(p: Puzzle) {
    Value(p.solution) == Some(p.target as real) && multiset(p.solution.nums) == multiset(p.numbers)
  }

  /** The targets an attempt draws from: the preferred ones (5 to 80)
      when there are any, all of them otherwise. */
  function TargetPool(sols: map<int, Tree>): (pool: seq<int>)
    requires forall k :: k in sols ==> 1 <= k <= 100
    ensures forall x :: x in pool ==> x in sols
    ensures |pool| == 0 <==> |sols| == 0
    ensures (exists k :: k in sols && 5 <= k <= 80) ==> forall x :: x in pool ==> 5 <= x <= 80
  {
    var keys := KeysAscending(sols, 1, 100);
    var preferred := Preferred(keys);
    AllKeysListed(sols);
    if |preferred| > 0 then preferred else keys
  }

  lemma AllKeysListed(sols: map<int, Tree>)
    requires forall k :: k in sols ==> 1 <= k <= 100
    ensures |KeysAscending(sols, 1, 100)| == 0 <==> |sols| == 0
  {
    var keys := KeysAscending(sols, 1, 100);
    if |keys| == 0 {
      assert forall k :: k !in sols;
      assert sols.Keys == {};
    } else {
      assert keys[0] in sols;
    }
  }

  /** One attempt of `generatePuzzle` on `nums`, `u` choosing the target:
      a preferred target when there is one, any target otherwise, and
      nothing when there is none. */
  function Attempt(nums: seq<int>, u: real): (r: Option<Puzzle>)
    requires 0.0 <= u < 1.0
    ensures r.None? <==> |FindSolutions(nums)| == 0
    ensures r.Some? ==> r.value.numbers == nums && Solvable(r.value)
    ensures r.Some? ==> r.value.target in FindSolutions(nums)
    ensures r.Some? ==> r.value.solution == FindSolutions(nums)[r.value.target]
    ensures r.Some? && (exists k :: k in FindSolutions(nums) && 5 <= k <= 80) ==> 5 <= r.value.target <= 80
  {
    var sols := FindSolutions(nums);
    var pool := TargetPool(sols);
    if |pool| == 0 then None
    else
      var target := pool[ScaledIndex(u, |pool|)];
      assert target in pool;
      Some(Puzzle(nums, target, sols[target]))
  }

  /** The puzzle shown when fifty attempts find no target. */
  function Fallback(): (p: Puzzle)
    ensures p.numbers == [2, 3, 5, 7] && p.target == 17 && Solvable(p)
  {
    var t := Tree([2, 3, 5, 7], '+', '+', '+', 0);
    assert Value(t) == Some(17.0);
    assert multiset(t.nums) == multiset([2, 3, 5, 7]);
    Puzzle([2, 3, 5, 7], 17, t)
  }

  /** The fallback as written: `(2 + 5) × 3 − 7` for the target 17. Its
      value is 14. */
  function FallbackAsWritten(): Puzzle {
    Puzzle([2, 3, 5, 7], 17, Tree([2, 5, 3, 7], '+', '*', '-', 0))
  }

  lemma FallbackAsWrittenMissesTarget()
    ensures Value(FallbackAsWritten().solution) == Some(14.0)
    ensures !Solvable(FallbackAsWritten())
  {
  }

  /** `generatePuzzle`: the first attempt (at most fifty) that finds a
      target, else the fallback. `attempts` holds the numbers each attempt
      drew and the random number that picks its target. */
  function GeneratePuzzle(attempts: seq<(seq<int>, real)>): (p: Puzzle)
    requires forall i :: 0 <= i < |attempts| ==> 0.0 <= attempts[i].1 < 1.0
    ensures Solvable(p)
  {
    FirstFound(Outcomes(attempts))
  }

  /** What each attempt gives. */
  function Outcomes(attempts: seq<(seq<int>, real)>): (os: seq<Option<Puzzle>>)
    requires forall i :: 0 <= i < |attempts| ==> 0.0 <= attempts[i].1 < 1.0
    ensures |os| == |attempts|
    ensures forall i :: 0 <= i < |os| ==> os[i] == Attempt(attempts[i].0, attempts[i].1)
  {
    seq(|attempts|, i requires 0 <= i < |attempts| => Attempt(attempts[i].0, attempts[i].1))
  }

  /** The first puzzle found, else the fallback. */
  function FirstFound(os: seq<Option<Puzzle>>): (p: Puzzle)
    requires forall i :: 0 <= i < |os| && os[i].Some? ==> Solvable(os[i].value)
    ensures Solvable(p)
  {
    if |os| == 0 then Fallback()
    else if os[0].Some? then os[0].value
    else FirstFound(os[1..])
  }

  lemma {:induction false} FirstFoundTakesFirst(os: seq<Option<Puzzle>>, i: nat)
    requires forall j :: 0 <= j < |os| && os[j].Some? ==> Solvable(os[j].value)
    requires i < |os| && os[i].Some?
    requires forall j :: 0 <= j < i ==> os[j].None?
    ensures FirstFound(os) == os[i].value
  {
    if i > 0 {
      FirstFoundTakesFirst(os[1..], i - 1);
    }
  }

  /** `generatePuzzle` returns the first attempt that finds a target. */
  lemma GenerateTakesFirstFound(attempts: seq<(seq<int>, real)>, i: nat)
    requires forall j :: 0 <= j < |attempts| ==> 0.0 <= attempts[j].1 < 1.0
    requires i < |attempts| && Attempt(attempts[i].0, attempts[i].1).Some?
    requires forall j :: 0 <= j < i ==> Attempt(attempts[j].0, attempts[j].1).None?
    ensures GeneratePuzzle(attempts) == Attempt(attempts[i].0, attempts[i].1).value
  {
    var os := Outcomes(attempts);
    assert forall j :: 0 <= j < i ==> os[j].None?;
    FirstFoundTakesFirst(os, i);
  }

  /** Four digits from 1 to 9 always have a target, so the first attempt
      succeeds and the fallback is never reached. */
  lemma FirstAttemptSucceeds(nums: seq<int>, u: real)
    requires 0.0 <= u < 1.0
    requires |nums| == 4 && forall i :: 0 <= i < 4 ==> 1 <= nums[i] <= 9
    ensures Attempt(nums, u).Some?
  {
    SumIsSolution(nums);
    assert FindSolutions(nums) != map[];
  }
}

=== FILE: race_engine.dfy ===
/** The race simulator. Every tick moves each horse forward by the base
    speed; every `DiceIntervalTicks`-th tick two dice boost the horses whose
    ids they show; all progress is clamped to the track length; the ranking
    is recomputed, and the race ends when its leader reaches the end of the
    track. The dice are parameters of a tick, and progress is an integer
    number of hundredths of a track unit. */
module RaceEngine {
  import opened Wrappers
  import opened Sorting
  import opened Odds
  import opened Chance

  /** `rollDie(faces)`, with `u` the value `Math.random()` returned. */
  function RollDie(faces: nat, u: real): (d: int)
    requires faces > 0 && 0.0 <= u < 1.0
    ensures 1 <= d <= faces
  {
    ScaledIndex(u, faces) + 1
  }

  /** The progress of horse `id`, positions being listed by id from 1;
      0 for an id outside the roster. */
  function PosOf(positions: seq<int>, id: int): int {
    if 1 <= id <= |positions| then positions[id - 1] else 0
  }

  /** The comparator of `buildRanking`: further ahead first, and on equal
      progress the lower id first. */
  function RankOrder(positions: seq<int>): (int, int) -> bool {
    (a: int, b: int) =>
      PosOf(positions, a) > PosOf(positions, b)
      || (PosOf(positions, a) == PosOf(positions, b) && a <= b)
  }

  lemma RankOrderIsTotal(positions: seq<int>)
    ensures IsTotalOrder(RankOrder(positions))
  {
  }

  lemma HorseIdsOnce()
    ensures forall x :: multiset(HorseIds)[x] <= 1
    ensures multiset(HorseIds) == multiset{1, 2, 3, 4, 5, 6, 7}
  {
    RosterFacts();
  }

  /** The ids 1..n, positions being listed by id. */
  function IdsUpTo(n: nat): (ids: seq<int>)
    ensures |ids| == n && forall i :: 0 <= i < n ==> ids[i] == i + 1
  {
    seq(n, i => i + 1)
  }

  lemma IdsUpToRoster()
    ensures multiset(IdsUpTo(|HorseIds|)) == multiset(HorseIds)
  {
    RosterFacts();
    assert IdsUpTo(|HorseIds|) == HorseIds;
  }

  /** Horse `a` is strictly ahead of horse `b` in the ranking order. */
  predicate Ahead(positions: seq<int>, a: int, b: int) {
    || PosOf(positions, a) > PosOf(positions, b)
    || (PosOf(positions, a) == PosOf(positions, b) && a < b)
  }

  /** `r` lists every horse exactly once. */
  predicate IsRosterOrder(r: seq<int>) {
    && |r| == |HorseIds|
    && (forall k :: 0 <= k < |r| ==> 1 <= r[k] <= |HorseIds|)
    && (forall id :: 1 <= id <= |HorseIds| ==> id in r)
  }

  /** `r` lists every horse exactly once, each strictly ahead of the ones
      after it. */
  predicate IsRanking(positions: seq<int>, r: seq<int>) {
    && IsRosterOrder(r)
    && (forall i, j :: 0 <= i < j < |r| ==> Ahead(positions, r[i], r[j]))
  }

  /** The orderings of the horses are the permutations of their ids. */
  lemma PermutationIsRosterOrder(r: seq<int>)
    requires multiset(r) == multiset(HorseIds)
    ensures IsRosterOrder(r)
  {
    assert |r| == |HorseIds| by {
      assert |multiset(r)| == |multiset(HorseIds)|;
    }
    HorseIdsOnce();
    forall k | 0 <= k < |r| ensures 1 <= r[k] <= |HorseIds| {
      assert r[k] in multiset(HorseIds);
    }
    forall id | 1 <= id <= |HorseIds| ensures id in r {
      assert id in multiset(HorseIds);
      assert id in multiset(r);
    }
  }

  /** `buildRanking`: the horse ids by descending progress, ties going to
      the lower id. */
  function BuildRanking(positions: seq<int>): (r: seq<int>)
    requires |positions| == |HorseIds|
    ensures IsRosterOrder(r)
  {
    var sorted := Sort(IdsUpTo(|positions|), RankOrder(positions));
    IdsUpToRoster();
    PermutationIsRosterOrder(sorted);
    sorted
  }

  lemma BuildRankingIsRanking(positions: seq<int>)
    requires |positions| == |HorseIds|
    ensures IsRanking(positions, BuildRanking(positions))
  {
    BuildRankingSorted(positions);
    IdsUpToRoster();
    SortedIsRanking(positions, BuildRanking(positions));
  }

  /** An ordering of the horses sorted by the comparator is a ranking. */
  lemma SortedIsRanking(positions: seq<int>, r: seq<int>)
    requires multiset(r) == multiset(HorseIds)
    requires SortedBy(r, RankOrder(positions))
    ensures IsRanking(positions, r)
  {
    PermutationIsRosterOrder(r);
    HorseIdsOnce();
    DistinctByMultiset(r, HorseIds);
    StrictlyRanked(positions, r);
  }

  lemma StrictlyRanked(positions: seq<int>, r: seq<int>)
    requires SortedBy(r, RankOrder(positions)) && Distinct(r)
    ensures forall i, j :: 0 <= i < j < |r| ==> Ahead(positions, r[i], r[j])
  {
    forall i, j | 0 <= i < j < |r| ensures Ahead(positions, r[i], r[j]) {
      assert RankOrder(positions)(r[i], r[j]);
      assert r[i] != r[j];
    }
  }

  lemma BuildRankingSorted(positions: seq<int>)
    requires |positions| == |HorseIds|
    ensures SortedBy(BuildRanking(positions), RankOrder(positions))
  {
    RankOrderIsTotal(positions);
    SortSorted(IdsUpTo(|positions|), RankOrder(positions));
  }

  /** Any ordering of the horses by that comparator is `buildRanking`'s,
      whatever algorithm sorted them. */
  lemma RankingIsUnique(positions: seq<int>, ranking: seq<int>)
    requires |positions| == |HorseIds|
    requires multiset(ranking) == multiset(HorseIds)
    requires SortedBy(ranking, RankOrder(positions))
    ensures ranking == BuildRanking(positions)
  {
    RankOrderIsTotal(positions);
    BuildRankingSorted(positions);
    IdsUpToRoster();
    SortedUnique(ranking, BuildRanking(positions), RankOrder(positions));
  }

  /** The leader of a ranking is at least as far as every horse. */
  lemma LeaderIsAhead(positions: seq<int>, id: int)
    requires |positions| == |HorseIds| && 1 <= id <= |HorseIds|
    ensures PosOf(positions, BuildRanking(positions)[0]) >= PosOf(positions, id)
  {
    BuildRankingIsRanking(positions);
    LeaderOf(positions, BuildRanking(positions), id);
  }

  lemma LeaderOf(positions: seq<int>, r: seq<int>, id: int)
    requires IsRanking(positions, r) && 1 <= id <= |HorseIds|
    ensures PosOf(positions, r[0]) >= PosOf(positions, id)
  {
    assert id in r;
    var j :| 0 <= j < |r| && r[j] == id;
    if j > 0 {
      assert Ahead(positions, r[0], r[j]);
    }
  }

  /** The simulator's state. */
  datatype Race = Race(positions: seq<int>, ticks: nat, finished: bool, ranking: seq<int>, winner: Option<int>)

  /** `Math.min(p, TRACK_LENGTH)`. */
  function Clamp(p: int): int {
    if p < TrackLength then p else TrackLength
  }

  function Advance(positions: seq<int>): (r: seq<int>)
    ensures |r| == |positions|
    ensures forall i :: 0 <= i < |r| ==> r[i] == Clamp(positions[i] + BaseSpeed)
  {
    seq(|positions|, i requires 0 <= i < |positions| => Clamp(positions[i] + BaseSpeed))
  }

  /** One die's boost: the horse with the shown id moves `BoostAmount` on. */
  function Boost(positions: seq<int>, die: int): (r: seq<int>)
    requires |positions| == |HorseIds|
    ensures |r| == |positions|
    ensures forall i :: 0 <= i < |r| ==>
      r[i] == if die == i + 1 then Clamp(positions[i] + BoostAmount) else positions[i]
  {
    if 1 <= die <= |positions| then positions[die - 1 := Clamp(positions[die - 1] + BoostAmount)]
    else positions
  }

  /** Whether tick number `t` is a dice tick. */
  predicate DiceTick(t: int) {
    t % DiceIntervalTicks == 0
  }

  /** How many boosts horse `id` gets on tick `t`: one per die showing it,
      on dice ticks only. */
  function Hits(t: int, d1: int, d2: int, id: int): nat {
    if DiceTick(t) then (if d1 == id then 1 else 0) + (if d2 == id then 1 else 0) else 0
  }

  /** The positions after tick number `t`: the base-speed advance, then on
      a dice tick the two boosts in turn. */
  function Move(positions: seq<int>, t: int, d1: int, d2: int): (r: seq<int>)
    requires |positions| == |HorseIds|
    ensures |r| == |positions|
  {
    var advanced := Advance(positions);
    if DiceTick(t) then Boost(Boost(advanced, d1), d2) else advanced
  }

  lemma ClampTwice(a: int, b: int)
    requires b >= 0
    ensures Clamp(Clamp(a) + b) == Clamp(a + b)
  {
  }

  /** Each horse's new progress is its old progress plus the base speed and
      one boost per matching die on a dice tick, clamped to the track: two
      equal dice boost their horse twice. */
  lemma MoveProgress(positions: seq<int>, t: int, d1: int, d2: int)
    requires |positions| == |HorseIds|
    ensures forall i :: 0 <= i < |positions| ==>
      Move(positions, t, d1, d2)[i] == Clamp(positions[i] + BaseSpeed + BoostAmount * Hits(t, d1, d2, i + 1))
  {
    forall i | 0 <= i < |positions|
      ensures Move(positions, t, d1, d2)[i] == Clamp(positions[i] + BaseSpeed + BoostAmount * Hits(t, d1, d2, i + 1))
    {
      MoveProgressAt(positions, t, d1, d2, i);
    }
  }

  lemma MoveProgressAt(positions: seq<int>, t: int, d1: int, d2: int, i: int)
    requires |positions| == |HorseIds| && 0 <= i < |positions|
    ensures Move(positions, t, d1, d2)[i] == Clamp(positions[i] + BaseSpeed + BoostAmount * Hits(t, d1, d2, i + 1))
  {
    var a := positions[i] + BaseSpeed;
    assert Advance(positions)[i] == Clamp(a);
    if DiceTick(t) {
      ClampTwice(a, BoostAmount);
      ClampTwice(a + BoostAmount, BoostAmount);
      ClampTwice(a, 2 * BoostAmount);
    }
  }

  /** The result of one tick: the new state, and the final ranking when the
      race finished on this tick (what `onRaceFinished` receives). */
  datatype TickResult = TickResult(race: Race, reported: Option<seq<int>>)

  /** The body of the race interval, with the two dice it would roll. */
  function Tick(r: Race, d1: int, d2: int): (t: TickResult)
    requires |r.positions| == |HorseIds|
    ensures r.finished ==> t == TickResult(r, None)
    ensures !r.finished ==> t.race.ticks == r.ticks + 1 && t.race.positions == Move(r.positions, r.ticks + 1, d1, d2)
    ensures !r.finished ==> t.race.ranking == BuildRanking(t.race.positions)
  {
    if r.finished then TickResult(r, None)
    else
      var ticks := r.ticks + 1;
      var moved := Move(r.positions, ticks, d1, d2);
      var ranking := BuildRanking(moved);
      if PosOf(moved, ranking[0]) >= TrackLength then
        TickResult(Race(moved, ticks, true, ranking, Some(ranking[0])), Some(ranking))
      else
        TickResult(Race(moved, ticks, false, ranking, r.winner), None)
  }

  /** The simulator's invariant: seven positions on the track, a ranking
      that is a permutation of the horses, and a finished race whose winner
      is its leader at the end of the track. */
  predicate Valid(r: Race) {
    && |r.positions| == |HorseIds|
    && (forall i :: 0 <= i < |r.positions| ==> 0 <= r.positions[i] <= TrackLength)
    && IsRosterOrder(r.ranking)
    && (r.finished ==> |r.ranking| > 0 && r.winner == Some(r.ranking[0])
                       && PosOf(r.positions, r.ranking[0]) >= TrackLength)
  }

  /** On a track position, a move goes forward and stays on the track. */
  lemma MoveBounds(positions: seq<int>, t: int, d1: int, d2: int)
    requires |positions| == |HorseIds|
    requires forall i :: 0 <= i < |positions| ==> 0 <= positions[i] <= TrackLength
    ensures forall i :: 0 <= i < |positions| ==>
      positions[i] <= Move(positions, t, d1, d2)[i] <= TrackLength
  {
    MoveProgress(positions, t, d1, d2);
  }

  /** The leader of the ranking is at the end of the track exactly when
      some horse is. */
  lemma LeaderAtEnd(ps: seq<int>)
    requires |ps| == |HorseIds|
    requires forall i :: 0 <= i < |ps| ==> ps[i] <= TrackLength
    ensures PosOf(ps, BuildRanking(ps)[0]) >= TrackLength
      <==> exists i :: 0 <= i < |ps| && ps[i] == TrackLength
  {
    BuildRankingIsRanking(ps);
    LeaderAtEndOf(ps, BuildRanking(ps));
  }

  lemma LeaderAtEndOf(ps: seq<int>, r: seq<int>)
    requires |ps| == |HorseIds| && IsRanking(ps, r)
    requires forall i :: 0 <= i < |ps| ==> ps[i] <= TrackLength
    ensures PosOf(ps, r[0]) >= TrackLength <==> exists i :: 0 <= i < |ps| && ps[i] == TrackLength
  {
    if PosOf(ps, r[0]) >= TrackLength {
      assert ps[r[0] - 1] == TrackLength;
    }
    if exists i :: 0 <= i < |ps| && ps[i] == TrackLength {
      var i :| 0 <= i < |ps| && ps[i] == TrackLength;
      LeaderOf(ps, r, i + 1);
    }
  }

  /** A tick keeps the invariant, never moves a horse back nor past the end,
      finishes exactly when some horse has reached the end, and reports the
      final ranking (led by the winner) exactly on the tick that finishes. */
  lemma TickStep(r: Race, d1: int, d2: int)
    requires Valid(r) && !r.finished
    ensures var t := Tick(r, d1, d2);
      && Valid(t.race)
      && (forall i :: 0 <= i < |r.positions| ==> r.positions[i] <= t.race.positions[i] <= TrackLength)
      && (t.race.finished <==> exists i :: 0 <= i < |t.race.positions| && t.race.positions[i] == TrackLength)
      && (t.reported.Some? <==> t.race.finished)
      && (t.race.finished ==> t.reported == Some(t.race.ranking) && t.race.winner == Some(t.race.ranking[0]))
  {
    TickMonotone(r, d1, d2);
    TickFinishesAtEnd(r, d1, d2);
    TickReports(r, d1, d2);
  }

  lemma TickMonotone(r: Race, d1: int, d2: int)
    requires Valid(r) && !r.finished
    ensures var t := Tick(r, d1, d2);
      forall i :: 0 <= i < |r.positions| ==> r.positions[i] <= t.race.positions[i] <= TrackLength
  {
    MoveBounds(r.positions, r.ticks + 1, d1, d2);
  }

  lemma TickFinishesAtEnd(r: Race, d1: int, d2: int)
    requires Valid(r) && !r.finished
    ensures var t := Tick(r, d1, d2);
      t.race.finished <==> exists i :: 0 <= i < |t.race.positions| && t.race.positions[i] == TrackLength
  {
    var t := Tick(r, d1, d2);
    var m := t.race.positions;
    MoveBounds(r.positions, r.ticks + 1, d1, d2);
    LeaderAtEnd(m);
    assert t.race.finished <==> PosOf(m, t.race.ranking[0]) >= TrackLength;
  }

  lemma TickReports(r: Race, d1: int, d2: int)
    requires Valid(r) && !r.finished
    ensures var t := Tick(r, d1, d2);
      && (t.reported.Some? <==> t.race.finished)
      && (t.race.finished ==> t.reported == Some(t.race.ranking) && t.race.winner == Some(t.race.ranking[0]))
  {
  }

  /** The countdown, then the race. `countdown` is the index of the label
      on display, if any. */
  datatype Engine = Engine(countdown: Option<nat>, raceStarted: bool, race: Race)

  /** A race at the start line. */
  function FreshRace(): (r: Race)
    ensures Valid(r) && !r.finished && r.ticks == 0
    ensures forall i :: 0 <= i < |r.positions| ==> r.positions[i] == 0
  {
    RosterFacts();
    Race(seq(|HorseIds|, _ => 0), 0, false, HorseIds, None)
  }

  /** `startRace`: reset the simulator and show the first countdown label. */
  function StartRace(): (e: Engine)
    ensures e.race == FreshRace() && !e.raceStarted && e.countdown == Some(0)
  {
    Engine(Some(0), false, FreshRace())
  }

  /** The label on display. */
  function CountdownLabel(e: Engine): Option<string> {
    match e.countdown
    case Some(step) => if step < |Countdown| then Some(Countdown[step]) else None
    case None => None
  }

  /** One beat of the countdown timer: the next label, or the release of the
      horses after the last one. */
  function CountdownStep(e: Engine): (e': Engine)
    ensures e'.race == e.race
  {
    match e.countdown
    case Some(step) =>
      if step + 1 < |Countdown| then e.(countdown := Some(step + 1))
      else e.(countdown := None, raceStarted := true)
    case None => e
  }

  /** The race interval: nothing moves before the horses are released. */
  function EngineTick(e: Engine, d1: int, d2: int): (r: (Engine, Option<seq<int>>))
    requires |e.race.positions| == |HorseIds|
    ensures !e.raceStarted ==> r == (e, None)
  {
    if !e.raceStarted then (e, None)
    else
      var t := Tick(e.race, d1, d2);
      (e.(race := t.race), t.reported)
  }

  function CountdownSteps(e: Engine, n: nat): Engine {
    if n == 0 then e else CountdownStep(CountdownSteps(e, n - 1))
  }

  /** After `startRace` the labels are shown one per beat, in order, and the
      horses are released on the beat after the last label; until then the
      race is the fresh one. */
  lemma {:induction false} CountdownSequence(n: nat)
    requires n <= |Countdown|
    ensures var e := CountdownSteps(StartRace(), n);
      && e.race == FreshRace()
      && (n < |Countdown| ==> !e.raceStarted && CountdownLabel(e) == Some(Countdown[n]))
      && (n == |Countdown| ==> e.raceStarted && CountdownLabel(e) == None)
  {
    if n > 0 {
      CountdownSequence(n - 1);
    }
  }

  /** Ticks with the given dice, one pair per tick, stopping nowhere: a
      finished race ignores further ticks. */
  function Run(r: Race, dice: seq<(int, int)>): (t: Race)
    requires Valid(r)
    ensures Valid(t)
    decreases |dice|
  {
    if |dice| == 0 || r.finished then r
    else
      TickStep(r, dice[0].0, dice[0].1);
      Run(Tick(r, dice[0].0, dice[0].1).race, dice[1..])
  }

  /** A tick that leaves the race running moves every horse on by at
      least the base speed. */
  lemma TickGains(r: Race, d1: int, d2: int)
    requires Valid(r) && !r.finished && !Tick(r, d1, d2).race.finished
    ensures var t := Tick(r, d1, d2).race;
      forall i :: 0 <= i < |r.positions| ==> t.positions[i] >= r.positions[i] + BaseSpeed
  {
    var m := Move(r.positions, r.ticks + 1, d1, d2);
    TickFinishesAtEnd(r, d1, d2);
    assert forall i :: 0 <= i < |m| ==> m[i] != TrackLength;
    MoveProgress(r.positions, r.ticks + 1, d1, d2);
  }

  /** While the race is running every horse gains at least the base speed
      per tick. */
  lemma {:induction false} RunProgress(r: Race, dice: seq<(int, int)>)
    requires Valid(r)
    ensures var t := Run(r, dice);
      t.finished || forall i :: 0 <= i < |r.positions| ==> t.positions[i] >= r.positions[i] + BaseSpeed * |dice|
    decreases |dice|
  {
    if |dice| > 0 && !r.finished {
      var (d1, d2) := dice[0];
      var n := Tick(r, d1, d2).race;
      TickStep(r, d1, d2);
      RunProgress(n, dice[1..]);
      if !Run(n, dice[1..]).finished {
        assert !n.finished;
        TickGains(r, d1, d2);
      }
    }
  }

  /** Whatever the dice show, a race finishes within 264 ticks
      (264 * 0.38 > 100). */
  lemma RaceEnds(dice: seq<(int, int)>)
    requires |dice| >= 264
    ensures Run(FreshRace(), dice).finished
  {
    RunProgress(FreshRace(), dice);
    assert BaseSpeed * |dice| > TrackLength;
  }
}

=== FILE: session.dfy ===
/** A whole game of horse racing as the screens drive it. Each screen
    dispatches reducer actions only through its own controls, and those
    controls carry the guards the reducer leaves out: the selectors' ranges,
    the bet dialog's funds check, the remove button shown only on a stake,
    the race simulator's ranking, and the continue button hidden on the last
    turn. `Offered` is what the screen on display lets a player do, `Step`
    is what that does to the state, and `Inv` is what every reachable state
    satisfies. */
module Session {
  import opened Wrappers
  import opened Odds
  import opened Ledger
  import opened GameState
  import opened Payout
  import BetKeys
  import Decimal
  import BetDialog
  import CollectPhase
  import StartPhase
  import RaceEngine

  datatype Command =
    | Begin(turns: int, names: seq<string>, numPlayers: nat)  // start screen
    | ConfirmBet(key: string, value: string)                  // bet dialog, confirm
    | WithdrawBet(key: string)                                // bet dialog, remove
    | FinishBetting                                           // bet screen, next player
    | RaceOver(dice: seq<(int, int)>)                         // the simulated race
    | NextRound                                               // settlement, continue
    | EndGame                                                 // settlement, end
    | PlayAgain                                               // final standings, restart

  /** The cells of the bet board: one per colour bet and one per horse and
      horse-bet type. */
  predicate BoardKey(key: string) {
    || (exists i :: 0 <= i < |ColourBets| && key == ColourBets[i].key)
    || (exists i, h :: 0 <= i < |HorseBetTypes| && 1 <= h <= |HorseIds|
                       && key == BetKeys.MakeBetKey(HorseBetTypes[i].key, Some(h)))
  }

  /** The player whose bets the board shows. */
  function Bettor(s: State): Player
    requires 0 <= s.currentBetPlayerIndex < |s.players|
  {
    s.players[s.currentBetPlayerIndex]
  }

  /** The stake on `key` the board shows for the current bettor. */
  function ShownStake(s: State, key: string): int
    requires 0 <= s.currentBetPlayerIndex < |s.players|
  {
    Get(Bettor(s).currentBets, key)
  }

  /** The ranking the race simulator reports after the given dice rolls. */
  function RaceRanking(dice: seq<(int, int)>): (r: seq<int>)
    ensures RaceEngine.IsRosterOrder(r)
  {
    RaceEngine.Run(RaceEngine.FreshRace(), dice).ranking
  }

  /** What the screen for the current phase lets a player do. */
  predicate Offered(s: State, c: Command) {
    match c
    case Begin(turns, names, n) =>
      && s.phase == Start
      && MinTurns <= turns <= MaxTurns
      && MinPlayers <= n <= MaxPlayers && n <= |names|
    case ConfirmBet(key, value) =>
      && s.phase == Bet && 0 <= s.currentBetPlayerIndex < |s.players| && BoardKey(key)
      && BetDialog.HandleConfirm(value, Bettor(s).coins, ShownStake(s, key)).Confirmed?
    case WithdrawBet(key) =>
      && s.phase == Bet && 0 <= s.currentBetPlayerIndex < |s.players| && BoardKey(key)
      && BetDialog.RemoveOffered(ShownStake(s, key))
    case FinishBetting =>
      s.phase == Bet && 0 <= s.currentBetPlayerIndex < |s.players|
    case RaceOver(dice) =>
      s.phase == Racing && RaceEngine.Run(RaceEngine.FreshRace(), dice).finished
    case NextRound =>
      s.phase == Collect && CollectPhase.ContinueGame in CollectPhase.OfferedChoices(s)
    case EndGame =>
      s.phase == Collect
    case PlayAgain =>
      s.phase == Result
  }

  /** The reducer actions a command dispatches. */
  function Step(s: State, c: Command): (s': State)
    requires Offered(s, c)
  {
    match c
    case Begin(turns, names, n) => StartPhase.StartGame(s, turns, names, n)
    case ConfirmBet(key, value) =>
      var amount := BetDialog.HandleConfirm(value, Bettor(s).coins, ShownStake(s, key)).amount;
      Reduce(s, PlaceBet(Bettor(s).id, key, amount))
    case WithdrawBet(key) => Reduce(s, RemoveBet(Bettor(s).id, key))
    case FinishBetting => Reduce(s, NextBetPlayer)
    case RaceOver(dice) => Reduce(s, RaceFinished(RaceRanking(dice)))
    case NextRound => CollectPhase.Continue(s)
    case EndGame => Reduce(s, GoToResult)
    case PlayAgain => Reduce(s, Restart)
  }

  /** A player with no debt, distinct bet keys and only positive stakes. */
  predicate Solvent(p: Player) {
    p.coins >= 0 && DistinctKeys(p.currentBets) && AllPositive(p.currentBets)
  }

  /** What every state reachable from the initial one satisfies. */
  predicate Inv(s: State) {
    && (s.phase == Start ==> s == InitialState())
    && (s.phase != Start ==> |s.players| >= MinPlayers)
    && 1 <= s.currentTurn <= s.maxTurns
    && (forall i :: 0 <= i < |s.players| ==> s.players[i].id == i)
    && (forall i :: 0 <= i < |s.players| ==> Solvent(s.players[i]))
    && (s.phase == Bet ==> 0 <= s.currentBetPlayerIndex < |s.players|)
    && (s.phase == Bet || s.phase == Racing ==>
          s.finalRanking == [] && |s.turnHistory| == s.currentTurn - 1)
    && (s.phase == Collect || s.phase == Result ==>
          RaceEngine.IsRosterOrder(s.finalRanking) && |s.turnHistory| == s.currentTurn)
    && (forall k :: 0 <= k < |s.turnHistory| ==> s.turnHistory[k].turn == k + 1)
  }

  /** The phase changes the screens allow. */
  predicate Edge(from: Phase, to: Phase) {
    match from
    case Start => to == Bet
    case Bet => to == Bet || to == Racing
    case Racing => to == Collect
    case Collect => to == Bet || to == Result
    case Result => to == Start
  }

  lemma InitialInv()
    ensures Inv(InitialState())
  {
  }

  /** The start button opens the first betting round with every player at
      the starting coins plus one turn's income and no bets. */
  lemma BeginKeepsInv(s: State, turns: int, names: seq<string>, n: nat)
    requires Inv(s) && Offered(s, Begin(turns, names, n))
    ensures Inv(Step(s, Begin(turns, names, n)))
    ensures forall i :: 0 <= i < n ==> Step(s, Begin(turns, names, n)).players[i].coins == 10
  {
  }

  /** A confirmed bet comes out of the bettor's coins, which stay
      non-negative; the other players are untouched. */
  lemma ConfirmKeepsInv(s: State, key: string, value: string)
    requires Inv(s) && Offered(s, ConfirmBet(key, value))
    ensures Inv(Step(s, ConfirmBet(key, value)))
  {
    var p := Bettor(s);
    var amount := BetDialog.HandleConfirm(value, p.coins, Get(p.currentBets, key)).amount;
    var s' := Step(s, ConfirmBet(key, value));
    BetDialog.ConfirmedStakeIsCovered(p, key, value);
    PutKeepsDistinct(p.currentBets, key, amount);
    PutKeepsPositive(p.currentBets, key, amount);
    assert s'.players[s.currentBetPlayerIndex] == Stake(p, key, amount);
    assert forall i :: 0 <= i < |s.players| && i != s.currentBetPlayerIndex ==>
      s'.players[i] == s.players[i];
  }

  /** A withdrawn bet goes back to the bettor's coins. */
  lemma WithdrawKeepsInv(s: State, key: string)
    requires Inv(s) && Offered(s, WithdrawBet(key))
    ensures Inv(Step(s, WithdrawBet(key)))
  {
    var p := Bettor(s);
    var s' := Step(s, WithdrawBet(key));
    PositiveSum(p.currentBets);
    DeleteKeepsDistinct(p.currentBets, key);
    DeleteKeepsPositive(p.currentBets, key);
    assert s'.players[s.currentBetPlayerIndex] == Unstake(p, key);
    assert forall i :: 0 <= i < |s.players| && i != s.currentBetPlayerIndex ==>
      s'.players[i] == s.players[i];
  }

  /** Settlement adds non-negative winnings and clears every bet. */
  lemma RaceOverKeepsInv(s: State, dice: seq<(int, int)>)
    requires Inv(s) && Offered(s, RaceOver(dice))
    ensures Inv(Step(s, RaceOver(dice)))
  {
    var s' := Step(s, RaceOver(dice));
    var ranking := RaceRanking(dice);
    forall i | 0 <= i < |s.players|
      ensures s'.players[i].id == i && Solvent(s'.players[i])
    {
      assert s'.players[i] == SettlePlayer(s.players[i], ranking);
    }
    forall k | 0 <= k < |s'.turnHistory| ensures s'.turnHistory[k].turn == k + 1 {
      if k < |s.turnHistory| {
        assert s'.turnHistory[k] == s'.turnHistory[..|s.turnHistory|][k];
      }
    }
  }

  /** The next-player button moves along the players, then to the race. */
  lemma FinishBettingKeepsInv(s: State)
    requires Inv(s) && Offered(s, FinishBetting)
    ensures Inv(Step(s, FinishBetting))
  {
  }

  /** The continue button starts the next turn's betting with fresh income. */
  lemma NextRoundKeepsInv(s: State)
    requires Inv(s) && Offered(s, NextRound)
    ensures Inv(Step(s, NextRound))
  {
    var s' := Step(s, NextRound);
    forall i | 0 <= i < |s.players|
      ensures s'.players[i].id == i && Solvent(s'.players[i])
    {
    }
  }

  /** The end and restart buttons only change the phase or start over. */
  lemma EndAndRestartKeepInv(s: State, c: Command)
    requires Inv(s) && Offered(s, c) && (c == EndGame || c == PlayAgain)
    ensures Inv(Step(s, c))
  {
  }

  /** Every command moves along the screens' phase changes. */
  lemma StepFollowsEdges(s: State, c: Command)
    requires Offered(s, c)
    ensures Edge(s.phase, Step(s, c).phase)
  {
  }

  /** Every offered command keeps the invariant. */
  lemma StepKeepsInv(s: State, c: Command)
    requires Inv(s) && Offered(s, c)
    ensures Inv(Step(s, c))
  {
    match c
    case Begin(turns, names, n) => BeginKeepsInv(s, turns, names, n);
    case ConfirmBet(key, value) => ConfirmKeepsInv(s, key, value);
    case WithdrawBet(key) => WithdrawKeepsInv(s, key);
    case FinishBetting => FinishBettingKeepsInv(s);
    case RaceOver(dice) => RaceOverKeepsInv(s, dice);
    case NextRound => NextRoundKeepsInv(s);
    case EndGame => EndAndRestartKeepInv(s, c);
    case PlayAgain => EndAndRestartKeepInv(s, c);
  }

  /** A sequence of commands each offered in the state it meets. */
  predicate Playable(s: State, cs: seq<Command>)
    decreases |cs|
  {
    |cs| == 0 || (Offered(s, cs[0]) && Playable(Step(s, cs[0]), cs[1..]))
  }

  function Play(s: State, cs: seq<Command>): State
    requires Playable(s, cs)
    decreases |cs|
  {
    if |cs| == 0 then s else Play(Step(s, cs[0]), cs[1..])
  }

  /** Whatever the players do through the screens, nobody ever owes coins,
      every stake is positive, and the turn counter stays within the game's
      length. */
  lemma {:induction false} PlayKeepsInv(s: State, cs: seq<Command>)
    requires Inv(s) && Playable(s, cs)
    ensures Inv(Play(s, cs))
    decreases |cs|
  {
    if |cs| > 0 {
      StepKeepsInv(s, cs[0]);
      PlayKeepsInv(Step(s, cs[0]), cs[1..]);
    }
  }

  lemma GameNeverOverdraws(cs: seq<Command>)
    requires Playable(InitialState(), cs)
    ensures var s := Play(InitialState(), cs);
      && s.currentTurn <= s.maxTurns
      && forall i :: 0 <= i < |s.players| ==> s.players[i].coins >= 0
  {
    InitialInv();
    PlayKeepsInv(InitialState(), cs);
  }

  /** On the last turn the settlement screen offers only the end button. */
  lemma LastTurnOnlyEnds(s: State, c: Command)
    requires s.phase == Collect && s.currentTurn >= s.maxTurns
    ensures Offered(s, c) <==> c == EndGame
  {
  }

  /** A race of at least 264 dice rolls always reaches the settlement. */
  lemma RaceAlwaysSettles(s: State, dice: seq<(int, int)>)
    requires s.phase == Racing && |dice| >= 264
    ensures Offered(s, RaceOver(dice)) && Step(s, RaceOver(dice)).phase == Collect
  {
    RaceEngine.RaceEnds(dice);
    StepFollowsEdges(s, RaceOver(dice));
  }

  /** A fresh one-player game: the player has the 10 starting coins and
      no bets. */
  function OnePlayerGame(): (s: State)
    ensures s.phase == Bet && |s.players| == 1 && s.currentBetPlayerIndex == 0
    ensures s.players[0].id == 0 && s.players[0].coins == 10 && s.players[0].currentBets == []
  {
    StartPhase.StartGame(InitialState(), 1, ["A"], 1)
  }

  /** The reducer alone lets a player stake more than it has: at 10 coins,
      staking 11 on a win goes to -1. */
  lemma ReducerAloneOverdraws()
    ensures Reduce(OnePlayerGame(), PlaceBet(0, "win_1", 11)).players[0].coins == -1
  {
    var s := OnePlayerGame();
    var t := PlaceBetOn(s, 0, "win_1", 11);
    assert t.players[0] == Stake(s.players[0], "win_1", 11);
  }

  /** The bet dialog refuses that amount, so no command sequence reaches
      it. */
  lemma DialogRefusesOverdraw()
    ensures !Offered(OnePlayerGame(), ConfirmBet("win_1", "11"))
  {
    var s := OnePlayerGame();
    assert ShownStake(s, "win_1") == 0;
    ElevenRefused();
  }

  lemma ElevenRefused()
    ensures !BetDialog.HandleConfirm("11", 10, 0).Confirmed?
  {
    Decimal.ParseIntOfNatToString(11, "");
    assert Decimal.NatToString(11) + "" == "11";
  }
}

=== FILE: sorting.dfy ===
/** Sorting integer sequences under a comparator, as `Array.prototype.sort`
    does. JavaScript leaves the algorithm unspecified; for a comparator that
    is a total order the sorted permutation is unique (`SortedUnique`), so
    any algorithm gives the result of the insertion sort below. */
module Sorting {

  /** `le` is a total order: total, antisymmetric and transitive. */
  ghost predicate IsTotalOrder(le: (int, int) -> bool) {
    && (forall a, b :: le(a, b) || le(b, a))
    && (forall a, b :: le(a, b) && le(b, a) ==> a == b)
    && (forall a, b, c :: le(a, b) && le(b, c) ==> le(a, c))
  }

  lemma Connex(le: (int, int) -> bool, a: int, b: int)
    requires IsTotalOrder(le)
    ensures le(a, b) || le(b, a)
  {
  }

  lemma Antisymmetric(le: (int, int) -> bool, a: int, b: int)
    requires IsTotalOrder(le) && le(a, b) && le(b, a)
    ensures a == b
  {
  }

  lemma Transitive(le: (int, int) -> bool, a: int, b: int, c: int)
    requires IsTotalOrder(le) && le(a, b) && le(b, c)
    ensures le(a, c)
  {
  }

  predicate SortedBy(xs: seq<int>, le: (int, int) -> bool) {
    forall i, j :: 0 <= i < j < |xs| ==> le(xs[i], xs[j])
  }

  /** Inserts `x` before the first element of `xs` it precedes. */
  function Insert(x: int, xs: seq<int>, le: (int, int) -> bool): (r: seq<int>)
    ensures multiset(r) == multiset(xs) + multiset{x}
  {
    if |xs| == 0 then [x]
    else if le(x, xs[0]) then [x] + xs
    else
      assert xs == [xs[0]] + xs[1..];
      [xs[0]] + Insert(x, xs[1..], le)
  }

  /** Inserting into a sorted sequence keeps it sorted. */
  lemma {:induction false} InsertSorted(x: int, xs: seq<int>, le: (int, int) -> bool)
    requires IsTotalOrder(le) && SortedBy(xs, le)
    ensures SortedBy(Insert(x, xs, le), le)
  {
    if |xs| == 0 {
    } else if le(x, xs[0]) {
      PrecedesAll(le, x, xs);
    } else {
      assert SortedBy(xs[1..], le);
      InsertSorted(x, xs[1..], le);
      Connex(le, x, xs[0]);
      HeadPrecedesTail(le, xs[0], xs[1..], x, Insert(x, xs[1..], le));
    }
  }

  /** An element that precedes the head of a sorted sequence precedes all. */
  lemma PrecedesAll(le: (int, int) -> bool, x: int, xs: seq<int>)
    requires IsTotalOrder(le) && SortedBy(xs, le) && |xs| > 0 && le(x, xs[0])
    ensures SortedBy([x] + xs, le)
  {
    forall k | 0 < k < |xs| ensures le(x, xs[k]) {
      Transitive(le, x, xs[0], xs[k]);
    }
  }

  lemma HeadPrecedesTail(le: (int, int) -> bool, h: int, rest: seq<int>, x: int, tail: seq<int>)
    requires IsTotalOrder(le) && SortedBy(tail, le)
    requires forall k :: 0 <= k < |rest| ==> le(h, rest[k])
    requires le(h, x)
    requires multiset(tail) == multiset(rest) + multiset{x}
    ensures SortedBy([h] + tail, le)
  {
    forall k | 0 <= k < |tail| ensures le(h, tail[k]) {
      assert tail[k] in multiset(tail);
      if tail[k] != x {
        assert tail[k] in multiset(rest);
      }
    }
  }

  /** Insertion sort: a permutation of `xs` (`SortSorted`: in order). */
  function Sort(xs: seq<int>, le: (int, int) -> bool): (r: seq<int>)
    ensures multiset(r) == multiset(xs)
  {
    if |xs| == 0 then []
    else
      assert xs == [xs[0]] + xs[1..];
      Insert(xs[0], Sort(xs[1..], le), le)
  }

  /** Under a total order, `Sort` orders its result. */
  lemma {:induction false} SortSorted(xs: seq<int>, le: (int, int) -> bool)
    requires IsTotalOrder(le)
    ensures SortedBy(Sort(xs, le), le)
  {
    if |xs| > 0 {
      SortSorted(xs[1..], le);
      InsertSorted(xs[0], Sort(xs[1..], le), le);
    }
  }

  /** Two sequences sorted by the same total order that hold the same
      elements are equal. */
  lemma {:induction false} SortedUnique(xs: seq<int>, ys: seq<int>, le: (int, int) -> bool)
    requires IsTotalOrder(le)
    requires SortedBy(xs, le) && SortedBy(ys, le)
    requires multiset(xs) == multiset(ys)
    ensures xs == ys
  {
    assert |xs| == |multiset(xs)| == |multiset(ys)| == |ys|;
    if |xs| > 0 {
      SameLeast(xs, ys, le);
      HeadAndRest(xs);
      HeadAndRest(ys);
      SortedUnique(xs[1..], ys[1..], le);
    }
  }

  /** Sorted sequences with the same elements start with the same one. */
  lemma SameLeast(xs: seq<int>, ys: seq<int>, le: (int, int) -> bool)
    requires IsTotalOrder(le)
    requires SortedBy(xs, le) && SortedBy(ys, le)
    requires multiset(xs) == multiset(ys) && |xs| > 0 && |ys| > 0
    ensures xs[0] == ys[0]
  {
    assert xs[0] in multiset(ys);
    assert ys[0] in multiset(xs);
    var i :| 0 <= i < |xs| && xs[i] == ys[0];
    var j :| 0 <= j < |ys| && ys[j] == xs[0];
    assert le(xs[0], xs[i]);
    assert le(ys[0], ys[j]);
    Antisymmetric(le, xs[0], ys[0]);
  }

  /** Dropping the head of a sequence drops it from its multiset. */
  lemma HeadAndRest(xs: seq<int>)
    requires |xs| > 0
    ensures xs == [xs[0]] + xs[1..]
    ensures multiset(xs[1..]) == multiset(xs) - multiset{xs[0]}
  {
    assert xs == [xs[0]] + xs[1..];
    assert multiset(xs) == multiset{xs[0]} + multiset(xs[1..]);
  }

  /** Whatever sorting algorithm is used, a sorted permutation is `Sort`'s. */
  lemma SortedPermutationIsSort(xs: seq<int>, ys: seq<int>, le: (int, int) -> bool)
    requires IsTotalOrder(le)
    requires SortedBy(ys, le) && multiset(ys) == multiset(xs)
    ensures ys == Sort(xs, le)
  {
    SortSorted(xs, le);
    SortedUnique(ys, Sort(xs, le), le);
  }

  predicate Distinct(xs: seq<int>) {
    forall i, j :: 0 <= i < j < |xs| ==> xs[i] != xs[j]
  }

  /** Two equal entries at different positions count twice in the multiset. */
  lemma TwoOccurrences(xs: seq<int>, i: nat, j: nat)
    requires i < j < |xs|
    ensures xs[i] == xs[j] ==> multiset(xs)[xs[i]] >= 2
  {
    assert xs == xs[..j] + xs[j..];
    assert xs[i] in multiset(xs[..j]);
    assert xs[j] in multiset(xs[j..]);
  }

  /** A rearrangement of a duplicate-free collection is duplicate-free. */
  lemma DistinctByMultiset(xs: seq<int>, ys: seq<int>)
    requires multiset(xs) == multiset(ys)
    requires forall x :: multiset(ys)[x] <= 1
    ensures Distinct(xs)
  {
    forall i, j | 0 <= i < j < |xs| ensures xs[i] != xs[j] {
      TwoOccurrences(xs, i, j);
      assert multiset(ys)[xs[i]] <= 1;
    }
  }
}

=== FILE: start_phase.dfy ===
/** The setup screen: the turn and player-count selectors, the list of
    player names, and the start button that configures the game and opens
    the betting phase. */
module StartPhase {
  import opened Text
  import opened Decimal
  import opened Odds
  import opened Ledger
  import opened GameState

  /** The placeholder name of the player at 0-based index `i`: `玩家{i+1}`. */
  function DefaultName(i: nat): string {
    "玩家" + NatToString(i + 1)
  }

  /** Appends placeholder names until there are `count` of them. */
  function PadNames(names: seq<string>, count: nat): (r: seq<string>)
    ensures |r| == if |names| >= count then |names| else count
    ensures r[..|names|] == names
    ensures forall i :: |names| <= i < |r| ==> r[i] == DefaultName(i)
    decreases count - |names|
  {
    if |names| >= count then names
    else
      var r := PadNames(names + [DefaultName(|names|)], count);
      assert r[..|names|] == (names + [DefaultName(|names|)])[..|names|];
      r
  }

  /** `handlePlayerCount`: exactly `count` names, the old ones kept in
      place and new ones given placeholder names. */
  function ResizeNames(names: seq<string>, count: nat): (r: seq<string>)
    ensures |r| == count
    ensures forall i :: 0 <= i < count && i < |names| ==> r[i] == names[i]
    ensures forall i :: |names| <= i < count ==> r[i] == DefaultName(i)
  {
    var padded := PadNames(names, count);
    assert forall i :: 0 <= i < |names| ==> padded[i] == padded[..|names|][i];
    padded[..count]
  }

  /** The name a player gets from the text in its field: the trimmed text,
      or the placeholder when that is empty. */
  function PlayerName(text: string, i: nat): (name: string)
    ensures name != ""
    ensures !IsWhitespace(name[0]) && !IsWhitespace(name[|name| - 1])
    ensures Trim(text) != "" ==> name == Trim(text)
  {
    var t := Trim(text);
    if t == "" then
      assert DefaultName(i)[0] == '玩';
      assert DefaultName(i)[|DefaultName(i)| - 1] == NatToString(i + 1)[|NatToString(i + 1)| - 1];
      DefaultName(i)
    else t
  }

  /** The names `handleStart` hands to `configureGame`: the first
      `numPlayers` fields, each through `PlayerName`. */
  function StartNames(names: seq<string>, numPlayers: nat): (r: seq<string>)
    ensures |r| == if numPlayers <= |names| then numPlayers else |names|
    ensures forall i :: 0 <= i < |r| ==> r[i] == PlayerName(names[i], i)
  {
    var n := if numPlayers <= |names| then numPlayers else |names|;
    seq(n, i requires 0 <= i < n => PlayerName(names[i], i))
  }

  /** `handleStart`: `configureGame` then `goToBet`. */
  function StartGame(s: State, turns: int, names: seq<string>, numPlayers: nat): (s': State)
    requires numPlayers <= |names|
    ensures s'.phase == Bet && s'.maxTurns == turns && s'.currentBetPlayerIndex == 0
    ensures |s'.players| == numPlayers
    ensures forall i :: 0 <= i < numPlayers ==>
      s'.players[i] == Player(i, PlayerName(names[i], i), InitialCoins + TurnIncome, [], 0)
    ensures s'.currentTurn == s.currentTurn && s'.turnHistory == s.turnHistory
    ensures s'.finalRanking == s.finalRanking
  {
    Reduce(Reduce(s, ConfigureGame(turns, StartNames(names, numPlayers))), GoToBet)
  }

  /** The choices of a selector running from `lo` to `hi`. */
  function Choices(lo: int, hi: int): (r: seq<int>)
    requires lo <= hi + 1
    ensures |r| == hi - lo + 1
    ensures forall i :: 0 <= i < |r| ==> r[i] == lo + i
  {
    seq(hi - lo + 1, i => i + lo)
  }

  /** The selectors offer 1 to 3 turns and 1 to 5 players. */
  lemma SelectorChoices()
    ensures Choices(MinTurns, MaxTurns) == [1, 2, 3]
    ensures Choices(MinPlayers, MaxPlayers) == [1, 2, 3, 4, 5]
  {
  }
}

=== FILE: text.dfy ===
/** String helpers shared by the games: JavaScript's notion of white space,
    `trim`, `startsWith` and `Array.prototype.indexOf`. */
module Text {

  /** The code points JavaScript counts as WhiteSpace or LineTerminator:
      what `String.prototype.trim`, the regular-expression class `\s` and
      `parseInt` skip. */
  const WhitespaceChars: set<char> := {
    '\t', '\n', '\U{000B}', '\U{000C}', '\r', ' ', '\U{00A0}', '\U{1680}',
    '\U{2000}', '\U{2001}', '\U{2002}', '\U{2003}', '\U{2004}', '\U{2005}',
    '\U{2006}', '\U{2007}', '\U{2008}', '\U{2009}', '\U{200A}',
    '\U{2028}', '\U{2029}', '\U{202F}', '\U{205F}', '\U{3000}', '\U{FEFF}'
  }

  predicate IsWhitespace(c: char) {
    c in WhitespaceChars
  }

  /** The first index at or after `i` that does not hold white space. */
  function SkipSpace(s: string, i: nat): (j: nat)
    requires i <= |s|
    ensures i <= j <= |s|
    ensures forall k :: i <= k < j ==> IsWhitespace(s[k])
    ensures j < |s| ==> !IsWhitespace(s[j])
    decreases |s| - i
  {
    if i < |s| && IsWhitespace(s[i]) then SkipSpace(s, i + 1) else i
  }

  /** The smallest index `i` at or before `j` such that `s[i..j]` is all
      white space. */
  function SkipSpaceBack(s: string, j: nat): (i: nat)
    requires j <= |s|
    ensures i <= j
    ensures forall k :: i <= k < j ==> IsWhitespace(s[k])
    ensures i > 0 ==> !IsWhitespace(s[i - 1])
  {
    if j > 0 && IsWhitespace(s[j - 1]) then SkipSpaceBack(s, j - 1) else j
  }

  /** `String.prototype.trim`: `s` without its leading and trailing white
      space. */
  function Trim(s: string): (r: string)
    ensures r == "" <==> forall k :: 0 <= k < |s| ==> IsWhitespace(s[k])
    ensures r != "" ==> var i := SkipSpace(s, 0);
      && i + |r| <= |s| && r == s[i..i + |r|]
      && !IsWhitespace(r[0]) && !IsWhitespace(r[|r| - 1])
      && forall k :: i + |r| <= k < |s| ==> IsWhitespace(s[k])
  {
    var i := SkipSpace(s, 0);
    var j := SkipSpaceBack(s, |s|);
    if j <= i then "" else s[i..j]
  }

  /** `String.prototype.startsWith`. */
  predicate StartsWith(s: string, prefix: string) {
    |prefix| <= |s| && s[..|prefix|] == prefix
  }

  /** `Array.prototype.indexOf`: the first index holding `x`, or -1. */
  function IndexOf(xs: seq<int>, x: int): (r: int)
    ensures -1 <= r < |xs|
    ensures r == -1 <==> x !in xs
    ensures r >= 0 ==> xs[r] == x && x !in xs[..r]
  {
    if |xs| == 0 then -1
    else if xs[0] == x then 0
    else
      var r := IndexOf(xs[1..], x);
      assert xs[1..][..if r < 0 then 0 else r] == xs[1..if r < 0 then 1 else r + 1];
      if r < 0 then -1 else r + 1
  }
}

=== FILE: wrappers.dfy ===
/** The optional value used wherever the JavaScript code produces `NaN`,
    `undefined` or "no result". */
module Wrappers {

  datatype Option<+T> = None | Some(value: T)
}
